=== FILE: README.md ===
# Classroom mini-games, modelled in Dafny

The repository is a set of browser games for primary-school lessons. This
project models the logic of eight of them:

- a word trainer that has the pupil assemble dictionary words from syllable tiles;
- a letter-fill exercise that has the pupil drop letters into the blanks of sentences;
- a Belarusian verb-ending chooser;
- a multiple-choice quiz;
- a number-answer quiz with a timer;
- an emoji-picking game;
- an abacus;
- a memory (pairs) game.

Each game is one module. The module holds an immutable state record and a
pure function for every event handler. A timer callback becomes its own
"fired" transition. A random draw is an input: a function `rand` or a
permutation chosen by the caller. A loaded file is an input: a `Json` value
where the game reads untyped members, a typed sequence where it reads a fixed
shape, and `None` when the fetch or the parse failed.

Shared modules:

- `Wrappers`: `Option` and `Result`.
- `Text`:
  - JavaScript's `trim` over the ECMAScript white-space set;
  - `toString` and `padStart` for whole numbers, and the `MM:SS` clock text.
- `Numeric`: `Math.round` of a ratio, as exact rounding half up.
- `Json`: the subset of JSON values the games read, with JavaScript truthiness and `String(v)`.
- `Shuffle`: the Fisher–Yates loop of the word trainer.

## Model

| member | source | states |
|---|---|---|
| Shuffle.Shuffle | materials/russian/SlovarnieSlova3-4Klass/script.js:114-121 | The shuffled copy is a permutation of the input: same length, same multiset. The input is not modified. |
| WordTrainer.SelectLevel | materials/russian/SlovarnieSlova3-4Klass/script.js:79-91 | Choosing a level records its id and enables start. Nothing else changes. |
| WordTrainer.SelectThenStart | materials/russian/SlovarnieSlova3-4Klass/script.js:79-112 | A chosen level with a non-empty id is the one start plays. The session resets at the given time, and when the file holds that id the queue is drawn from its words. |
| WordTrainer.WordsOf | materials/russian/SlovarnieSlova3-4Klass/script.js:29-37 | An id names no words exactly when no level carries it. Otherwise its words are those of the last level in the file with that id. |
| WordTrainer.TitleOf | materials/russian/SlovarnieSlova3-4Klass/script.js:352 | The results title is that of the first level whose id equals the chosen one. It is empty when no level matches or none is chosen. |
| WordTrainer.StartGame | materials/russian/SlovarnieSlova3-4Klass/script.js:93-112 | With no level chosen, start does nothing. Otherwise it resets the index, the correct answers and all three attempt counters. The queue holds min(level size, 20) words, all from the level. |
| WordTrainer.StartGameWellFormed | materials/russian/SlovarnieSlova3-4Klass/script.js:93-163 | A start on a non-empty level leaves a well-formed trainer whose attempt counters add up. |
| WordTrainer.LoadWord | materials/russian/SlovarnieSlova3-4Klass/script.js:123-163 | Past the last word, the results are shown. Otherwise the word on screen has an empty answer, an empty selection and a disabled check button. |
| WordTrainer.LoadWordTiles | materials/russian/SlovarnieSlova3-4Klass/script.js:130-159 | The new pool holds exactly the correct syllables (flagged correct) and the distractors (flagged incorrect), as a multiset. Every tile is enabled and has its own identity. |
| WordTrainer.Tap | materials/russian/SlovarnieSlova3-4Klass/script.js:182-213 | A disabled tile is ignored. A pool tile goes to the end of the answer and of the selection. An answer tile goes back to the end of the pool and leaves the selection. |
| WordTrainer.TapKeepsWellFormed | materials/russian/SlovarnieSlova3-4Klass/script.js:182-213 | Tapping neither loses nor duplicates a tile. The pool and the answer stay disjoint. |
| WordTrainer.TapFromPool | materials/russian/SlovarnieSlova3-4Klass/script.js:190-200 | An enabled pool tile is appended to the answer and removed from the pool, and the check button is enabled. |
| WordTrainer.TapFromAnswer | materials/russian/SlovarnieSlova3-4Klass/script.js:201-211 | An answer tile returns to the end of the pool. One occurrence of its text leaves the selection. |
| WordTrainer.Drop | materials/russian/SlovarnieSlova3-4Klass/script.js:237-257 | A drop with no dragged tile changes nothing. Otherwise the dragged tile goes to the end of the answer, from the pool or from the answer itself and whether enabled or not. The selection is re-read from the answer and check is enabled. |
| WordTrainer.DropAgreesWithTap | materials/russian/SlovarnieSlova3-4Klass/script.js:190-200 | Dropping an enabled pool tile has the same effect as tapping it. |
| WordTrainer.DropKeepsWellFormed | materials/russian/SlovarnieSlova3-4Klass/script.js:237-257 | Dropping neither loses nor duplicates a tile. |
| WordTrainer.Check | materials/russian/SlovarnieSlova3-4Klass/script.js:259-305 | Every check counts one attempt. A right answer bumps the correct counters, disables its tiles and arms the advance timer. A wrong one bumps the incorrect counter and arms the revert timer. |
| WordTrainer.CheckKeepsAttemptsAddUp | materials/russian/SlovarnieSlova3-4Klass/script.js:265-288 | The total number of attempts stays the sum of the correct and incorrect attempts. |
| WordTrainer.CorrectOrderIsAccepted | materials/russian/SlovarnieSlova3-4Klass/script.js:259-268 | Selecting the correct syllables in their order is judged right. |
| WordTrainer.OrderMatters | materials/russian/SlovarnieSlova3-4Klass/script.js:259-261 | For every selection, the check is right iff the selection joins to the word, and wrong iff it does not. Two syllables in swapped order whose join differs are judged wrong. |
| WordTrainer.SwappedSyllablesRejected | materials/russian/SlovarnieSlova3-4Klass/script.js:259-261 | For example, "т" then "ко" is judged wrong for the word "кот". |
| WordTrainer.Skip | materials/russian/SlovarnieSlova3-4Klass/script.js:307-310 | Skipping moves to the next word and counts nothing. |
| WordTrainer.AdvanceFired | materials/russian/SlovarnieSlova3-4Klass/script.js:278-281 | As written, the timer after a right answer moves on by exactly one word, as a skip does. It keeps the correct answers and all three attempt counters. |
| WordTrainer.AdvanceKeyedFired | materials/russian/SlovarnieSlova3-4Klass/script.js:278-281 | Repaired: the callback moves on only while the word it was armed for is on screen. A stale one changes nothing. |
| WordTrainer.SkipDuringAdvanceSkipsTwo | materials/russian/SlovarnieSlova3-4Klass/script.js:278-310 | As written, a skip during the pause after a right answer is followed by the timer's own move. The index advances by two, so one word is never shown. |
| WordTrainer.SkipDuringAdvanceIgnored | materials/russian/SlovarnieSlova3-4Klass/script.js:278-310 | Repaired: after such a skip the keyed callback leaves the new word on screen, one word further on. |
| WordTrainer.WrongCheckThenRevert | materials/russian/SlovarnieSlova3-4Klass/script.js:283-303 | After a wrong check, both the revert as written and the repaired one put the whole answer, in order, at the end of the pool. Both leave an empty selection and check disabled; the repaired one keeps the trainer well formed. |
| WordTrainer.ReturnPrefix | materials/russian/SlovarnieSlova3-4Klass/script.js:292-295 | Returning the leading tiles of the answer moves exactly those tiles, in order, to the end of the pool. |
| WordTrainer.RevertFired | materials/russian/SlovarnieSlova3-4Klass/script.js:291-303 | Repaired: a stale revert changes nothing. A current one keeps the word, the index and the queue, and re-derives the selection and the check button from the tiles left in the answer. |
| WordTrainer.RevertAsWritten | materials/russian/SlovarnieSlova3-4Klass/script.js:291-303 | As written, the revert empties the selection and disables check whatever is left in the answer. |
| WordTrainer.RevertFiredKeepsWellFormed | materials/russian/SlovarnieSlova3-4Klass/script.js:291-303 | The revert keeps the trainer well formed, whether its timer is current or stale. |
| WordTrainer.StaleRevertAddsForeignTiles | materials/russian/SlovarnieSlova3-4Klass/script.js:291-310 | As written, a wrong check followed by a skip puts the previous word's tiles into the new word's pool. |
| WordTrainer.StaleRevertIgnored | materials/russian/SlovarnieSlova3-4Klass/script.js:291-310 | With the revert keyed to its word, a stale timer changes nothing. |
| WordTrainer.RevertDropsTappedTileFromSelection | materials/russian/SlovarnieSlova3-4Klass/script.js:182-213 | As written, a tile tapped during the one-second pause stays in the answer but is dropped from the selection. |
| WordTrainer.RevertKeepsTappedTileSelected | materials/russian/SlovarnieSlova3-4Klass/script.js:291-303 | In the repaired revert, that tile is both in the answer and in the selection. |
| WordTrainer.ToggleSoundTwice | materials/russian/SlovarnieSlova3-4Klass/script.js:326-342 | Toggling the sound twice restores the state. |
| WordTrainer.StartAfterMenuIsInert | materials/russian/SlovarnieSlova3-4Klass/script.js:438-447 | Back at the menu no level is chosen, so start does nothing. |
| WordTrainer.RestartGame | materials/russian/SlovarnieSlova3-4Klass/script.js:434-436 | Restart replays the chosen level. With no level it does nothing. Otherwise the index, the correct answers and all attempt counters reset and the clock restarts. |
| WordTrainer.BackToMenu | materials/russian/SlovarnieSlova3-4Klass/script.js:438-447 | The menu shows the welcome screen with no level chosen and start disabled. The session's queue, index and score are kept. |
| WordTrainer.ToggleSound | materials/russian/SlovarnieSlova3-4Klass/script.js:326-342 | Toggling flips the sound flag and changes nothing else; `WordTrainer.ToggleSoundTwice` proves the round trip, so toggling twice restores the trainer. |
| WordTrainer.ShowResults | materials/russian/SlovarnieSlova3-4Klass/script.js:344-366 | The results hold the accuracy of correct answers over 20 and the three attempt counters. They also hold the time text of the elapsed seconds, rounded, for any clock reading, including one earlier than the start. |
| WordTrainer.AccuracyIsFivefold | materials/russian/SlovarnieSlova3-4Klass/script.js:350-352 | The accuracy is exactly five times the number of correct answers. |
| WordTrainer.ResultsTimeReadsBack | materials/russian/SlovarnieSlova3-4Klass/script.js:346-356 | When the clock has not gone back, the time text reads back as whole minutes and the seconds past them. |
| WordTrainer.ResultsTimeWhenClockWentBack | materials/russian/SlovarnieSlova3-4Klass/script.js:345-359 | A clock that went back by more than half a second gives negative seconds, and the time text starts with a minus sign. |
| WordTrainer.TimeSpentNegative | materials/russian/SlovarnieSlova3-4Klass/script.js:346-359 | For negative seconds, the minutes are the floor and print with their minus. The seconds are JavaScript's remainder, which keeps the minus too. |
| WordTrainer.FiveSecondsBackReadsMinus | materials/russian/SlovarnieSlova3-4Klass/script.js:345-359 | Five seconds before the start, the results read `-1:-5`. |
| LetterFill.CheckTask | materials/russian/interactivVstavliaemBukvi/script.js:36-59 | A task passes exactly when it is valid. Otherwise the result names the first test that fails, in the source's order. |
| LetterFill.Validate | materials/russian/interactivVstavliaemBukvi/script.js:26-62 | The data is accepted iff it is a non-empty array of valid tasks. Otherwise the error says it is not an array, is empty, or which task fails first (numbered from 1). |
| LetterFill.ValidateFrom | materials/russian/interactivVstavliaemBukvi/script.js:35-60 | Checking from position i returns all remaining tasks, or the first failing one. |
| LetterFill.SlideBindsAnswers | materials/russian/interactivVstavliaemBukvi/script.js:122-139 | The k-th blank of a slide, counted left to right, expects `String(answers[k])`. Every blank starts empty. |
| LetterFill.BindInOrder | materials/russian/interactivVstavliaemBukvi/script.js:124-139 | Blanks take consecutive answers from the first one given. |
| LetterFill.LowerChar | materials/russian/interactivVstavliaemBukvi/script.js:260 | Lower case maps Latin A–Z and Russian А–Я up by 32 and Ё to ё, and keeps every other character. Its result is never a capital. |
| LetterFill.LowerCharIdempotent | materials/russian/interactivVstavliaemBukvi/script.js:260 | Lower-casing twice is the same as lower-casing once. |
| LetterFill.CheckZone | materials/russian/interactivVstavliaemBukvi/script.js:254-282 | A filled blank ignores the letter. A letter equal to the answer, ignoring case, fills the blank with that letter. Any other letter leaves it unchanged. |
| LetterFill.LetterNeedsOneCharAnswer | materials/russian/interactivVstavliaemBukvi/script.js:254-262 | A single-letter card never fills a blank whose answer is not one character long. |
| LetterFill.CapitalAnswerAccepted | materials/russian/interactivVstavliaemBukvi/script.js:254-262 | An upper-case answer letter is filled by its lower-case card. |
| LetterFill.Load | materials/russian/interactivVstavliaemBukvi/script.js:65-102 | Valid data replaces the tasks and shows slide 0. A bad response, an unreadable body or invalid data reports its error and leaves the exercise unchanged. |
| LetterFill.ErrorMessage | materials/russian/interactivVstavliaemBukvi/script.js:26-99 | A missing file's message contains the file name. A read failure passes its message through. A refused task's message starts with "Задание " and a number that reads back as its position. A null task gives the browser's TypeError, which has no task number. |
| LetterFill.TaskMessage | materials/russian/interactivVstavliaemBukvi/script.js:38-58 | The message names the task: after "Задание " comes a number that reads back as the task's position, then a colon. |
| LetterFill.UpdateNavigation | materials/russian/interactivVstavliaemBukvi/script.js:150-154 | Previous is disabled exactly at the first task and next exactly at the last. Nothing else changes. |
| LetterFill.CounterReadsBack | materials/russian/interactivVstavliaemBukvi/script.js:150-151 | The counter reads back as the slide number (the index plus one), then " / ", then the number of tasks. |
| LetterFill.ShowSlide | materials/russian/interactivVstavliaemBukvi/script.js:118-154 | The slide shown is the current task's, and the buttons and the counter match the index. |
| LetterFill.Prev | materials/russian/interactivVstavliaemBukvi/script.js:286-291 | Above slide 0, previous shows the slide before. At slide 0 it does nothing. The tasks and the held letter are kept. |
| LetterFill.Next | materials/russian/interactivVstavliaemBukvi/script.js:293-298 | While a later task exists, next shows it. At the last slide it does nothing. The tasks and the held letter are kept. |
| LetterFill.NextKeepsConsistent | materials/russian/interactivVstavliaemBukvi/script.js:293-298 | Next moves only while a task remains. The index stays in range and the buttons match it. |
| LetterFill.PrevKeepsConsistent | materials/russian/interactivVstavliaemBukvi/script.js:286-291 | Previous moves only above 0. The index stays in range and the buttons match it. |
| LetterFill.LetterClick | materials/russian/interactivVstavliaemBukvi/script.js:163-195 | With a letter held, a click only cancels. Otherwise it picks the clicked letter. |
| LetterFill.Cancel | materials/russian/interactivVstavliaemBukvi/script.js:230-251 | Cancelling releases the held letter and changes nothing else; `LetterFill.LetterClickTwiceReleases` proves that picking a letter and then cancelling with a second click restores the exercise. |
| LetterFill.LetterClickTwiceReleases | materials/russian/interactivVstavliaemBukvi/script.js:163-195 | A second letter click releases the first letter instead of picking the second, so the exercise is as before. |
| LetterFill.ZoneClick | materials/russian/interactivVstavliaemBukvi/script.js:198-211 | With a letter held, the blank is checked against it and the letter is released. Without one, nothing happens. |
| LetterFill.FilledZoneIsFinal | materials/russian/interactivVstavliaemBukvi/script.js:256 | A filled blank stays filled, with its letter, whatever is clicked next. |
| LetterFill.ZoneClickKeepsConsistent | materials/russian/interactivVstavliaemBukvi/script.js:198-282 | Clicks keep the slide a filling-in of the current task's slide. |
| VerbEndings.OptionClick | materials/belarusian/kanchatkiDzeiaslovau/script.js:118-133 | Before a check, a click selects exactly that ending of that word, and the word is then right iff that ending is its right index. After a check the click is ignored. |
| VerbEndings.OptionClickSelectsOne | materials/belarusian/kanchatkiDzeiaslovau/script.js:118-133 | Only the clicked word changes, and it ends with exactly one selected ending. |
| VerbEndings.CheckUnits | materials/belarusian/kanchatkiDzeiaslovau/script.js:150-178 | The loop counts the right words, and it throws exactly when some word would (an out-of-range right index on a wrong answer). |
| VerbEndings.CheckUnitsStopsAtThrow | materials/belarusian/kanchatkiDzeiaslovau/script.js:150-178 | A loop that throws stops at the first word that throws. Every earlier word is judged, that word keeps the marks made before the throw, and every later word is untouched. |
| VerbEndings.CheckUnitsAnswered | materials/belarusian/kanchatkiDzeiaslovau/script.js:150-178 | Without a throw, the loop reports every word answered exactly when each word has a selected ending. |
| VerbEndings.CheckUnitsMarks | materials/belarusian/kanchatkiDzeiaslovau/script.js:150-178 | Without a throw, every word is marked right, wrong or missed as judging it alone would mark it. |
| VerbEndings.Check | materials/belarusian/kanchatkiDzeiaslovau/script.js:136-206 | An unanswered word only lowers the score: the message is always success or the score, never the "answer every word" text. A full score shows success and reveals next while a later file exists. A throw leaves only the marks made so far. |
| VerbEndings.ScoreBounded | materials/belarusian/kanchatkiDzeiaslovau/script.js:181-201 | The score never exceeds the number of words. |
| VerbEndings.AllRight | materials/belarusian/kanchatkiDzeiaslovau/script.js:181-197 | A full score means every word is right. |
| VerbEndings.RightCountsFull | materials/belarusian/kanchatkiDzeiaslovau/script.js:181-197 | Every word right gives the full score. |
| VerbEndings.FullScoreIffAllRight | materials/belarusian/kanchatkiDzeiaslovau/script.js:181-197 | The score equals the word count exactly when every word is right. |
| VerbEndings.CheckNeverThrowsOnGoodData | materials/belarusian/kanchatkiDzeiaslovau/script.js:150-178 | With every right index 0 or 1, checking never throws. |
| VerbEndings.CheckedLocksOptions | materials/belarusian/kanchatkiDzeiaslovau/script.js:120 | Once checked, option clicks change nothing. |
| VerbEndings.WrongMarksMissed | materials/belarusian/kanchatkiDzeiaslovau/script.js:160-175 | A wrong answer marks the chosen ending wrong and the right ending missed. |
| VerbEndings.NavigationInRange | materials/belarusian/kanchatkiDzeiaslovau/script.js:14-222 | Next and previous keep the file index within the file list. |
| VerbEndings.UpdateDatasetInfo | materials/belarusian/kanchatkiDzeiaslovau/script.js:39-45 | Previous is hidden at file 0 and next at the last file. |
| VerbEndings.Reset | materials/belarusian/kanchatkiDzeiaslovau/script.js:225-227 | Reset re-renders the same rows of the same file: every word is back, in order, with nothing selected or checked. |
| VerbEndings.ResetReopensOptions | materials/belarusian/kanchatkiDzeiaslovau/script.js:118-133 | After a reset every ending of every word can be chosen again. |
| VerbEndings.Render | materials/belarusian/kanchatkiDzeiaslovau/script.js:48-103 | Rendering shows one fresh unit per word of the rows, clears the message and re-arms the check. |
| VerbEndings.Fetched | materials/belarusian/kanchatkiDzeiaslovau/script.js:23-36 | A loaded file replaces the rows and is rendered fresh with the navigation updated. A failed load keeps the data and leaves no word on screen. |
| VerbEndings.Next | materials/belarusian/kanchatkiDzeiaslovau/script.js:209-215 | While a later file exists, next loads it. At the last file it does nothing. |
| VerbEndings.Prev | materials/belarusian/kanchatkiDzeiaslovau/script.js:217-223 | Above file 0, previous loads the file before. At file 0 it does nothing. |
| VerbEndings.FailedLoadChecksAsSuccess | materials/belarusian/kanchatkiDzeiaslovau/script.js:23-197 | After a failed load there are no words, so a check reports success (0 of 0). |
| VerbEndings.AnswerAllIsOverwritten | materials/belarusian/kanchatkiDzeiaslovau/script.js:140-201 | A completed check never leaves the "answer every word" message. |
| Quiz.LoadQuestions | materials/math/ViktorinaShablon_1/script.js:105-119 | The file is accepted iff `questions` is a non-empty array. |
| Quiz.StartQuiz | materials/math/ViktorinaShablon_1/script.js:79-100 | A successful load resets to question 0 with score 0. A failed load changes nothing. |
| Quiz.SelectOption | materials/math/ViktorinaShablon_1/script.js:167-193 | Only the first click on a question counts. The option that `correct` names as a property key is marked and next is revealed, and the score grows by one iff the choice is `===` to `correct`. When the key names no option the marking throws, leaving only the choice recorded. |
| Quiz.NumericIndexScores | materials/math/ViktorinaShablon_1/script.js:167-193 | With `correct` a number naming an option, the first click scores iff it picks that option. That option is marked and next is revealed. |
| Quiz.StringIndexNeverScores | materials/math/ViktorinaShablon_1/script.js:172-186 | With `correct` an index written as a string, that option is marked and next is revealed, but no click ever scores. |
| Quiz.KeyIndexOfNumber | materials/math/ViktorinaShablon_1/script.js:179 | The decimal text of every whole number names the option at that index. |
| Quiz.MarkedOption | materials/math/ViktorinaShablon_1/script.js:178-179 | The marked option is the one whose index `String(correct)` spells, when it is below the option count. Otherwise none is marked. |
| Quiz.ReadQuestion | materials/math/ViktorinaShablon_1/script.js:124-147 | A question keeps its raw `correct` member and one option per element of its `options` array. |
| Quiz.OnlyFirstClickCounts | materials/math/ViktorinaShablon_1/script.js:168-169 | A second click on the same question changes nothing. |
| Quiz.ShowNextQuestion | materials/math/ViktorinaShablon_1/script.js:198-206 | The next question comes with a fresh state, or the results come after the last one. |
| Quiz.ResetState | materials/math/ViktorinaShablon_1/script.js:152-160 | The reset clears the choice and the marked option and hides next; `Quiz.ShowNextQuestionKeepsSound` proves that this keeps the quiz sound (no choice and next hidden on a fresh question). |
| Quiz.ShowResults | materials/math/ViktorinaShablon_1/script.js:211-233 | The results hold the score, the question count, the rounded percentage and its band. |
| Quiz.PercentageOf | materials/math/ViktorinaShablon_1/script.js:216 | The percentage is the score over the count, rounded half up. 0/0 is NaN and k/0 is Infinity. |
| Quiz.BandOf | materials/math/ViktorinaShablon_1/script.js:226-232 | The feedback band is Excellent at 80 or more and Good from 50 to below 80, else TryAgain. NaN gets TryAgain and Infinity gets Excellent. |
| Quiz.ResultsInRange | materials/math/ViktorinaShablon_1/script.js:211-233 | At the results, the score is at most the count and the percentage is a whole number in 0..100. |
| Quiz.BandMonotone | materials/math/ViktorinaShablon_1/script.js:216-232 | A higher score never gets a lower band. |
| Quiz.SelectOptionKeepsSound | materials/math/ViktorinaShablon_1/script.js:167-193 | The score never exceeds the questions answered, and next shows only after a choice. |
| Quiz.ShowNextQuestionKeepsSound | materials/math/ViktorinaShablon_1/script.js:198-233 | The quiz screen always has a question, and the results come only after the last one. |
| Quiz.RestartQuiz | materials/math/ViktorinaShablon_1/script.js:238-251 | Restart returns to question 0 with score 0, no choice and next hidden. |
| Quiz.GoToHome | materials/math/ViktorinaShablon_1/script.js:256-266 | Home resets the index and score but, skipping `resetState`, keeps the last choice and the next button. |
| NumberQuiz.StartGame | materials/math/3apishiChislo/script.js:59-86 | A blank name (white space only) is refused. Otherwise counters and question index reset and the clock starts. |
| NumberQuiz.BlankNameRefused | materials/math/3apishiChislo/script.js:60-64 | A name made only of white space never starts a game. |
| NumberQuiz.TypeName | materials/math/3apishiChislo/script.js:59-60 | The name field holds what was typed last; `NumberQuiz.TypedNameStarts` proves that a start then takes that name, trimmed. |
| NumberQuiz.TypedNameStarts | materials/math/3apishiChislo/script.js:59-72 | A start takes the name typed last, trimmed, and records the start time. |
| NumberQuiz.Fetched | materials/math/3apishiChislo/script.js:75-86 | A failed request changes nothing. A loaded file replaces the questions and shows the task screen with the answer cleared and the progress text, or the results when no question is left. |
| NumberQuiz.ShowTaskScreen | materials/math/3apishiChislo/script.js:88-94 | Only the task screen is active afterwards. The counters, the answer, the questions and the start time are kept. |
| NumberQuiz.DifficultyName | materials/math/3apishiChislo/script.js:197-204 | easy, medium and hard get their Russian names, and anything else gets "". |
| NumberQuiz.Backspace | materials/math/3apishiChislo/script.js:114-116 | Backspace drops the last character, and an empty answer stays empty. |
| NumberQuiz.BackspaceUndoesKey | materials/math/3apishiChislo/script.js:110-116 | A key followed by backspace restores the answer. |
| NumberQuiz.CheckAnswer | materials/math/3apishiChislo/script.js:122-139 | The trimmed input is compared with the stored answer using `===`. A match counts as correct, anything else as wrong. |
| NumberQuiz.NumericAnswerNeverMatches | materials/math/3apishiChislo/script.js:123-126 | An answer stored as a number can never be matched by typed text. |
| NumberQuiz.TypedAnswerAccepted | materials/math/3apishiChislo/script.js:110-126 | For every key sequence, clearing the answer, pressing those keys one by one and checking counts as correct when the stored answer is the trimmed text of the keys. |
| NumberQuiz.TypeKeys | materials/math/3apishiChislo/script.js:110-112 | Pressing keys appends their values in order and changes nothing else. |
| NumberQuiz.Append | materials/math/3apishiChislo/script.js:110-112 | A key appends its value to the answer and changes nothing else; `NumberQuiz.BackspaceUndoesKey` proves backspace undoes it, and `NumberQuiz.TypedAnswerAccepted` that a sequence of keys spelling the answer is accepted. |
| NumberQuiz.ResetAnswer | materials/math/3apishiChislo/script.js:118-120 | The reset empties the answer; `NumberQuiz.TypedAnswerAccepted` proves that after it, exactly the typed keys are checked, so a sequence spelling the answer is accepted. |
| NumberQuiz.WrongAnswersUnbounded | materials/math/3apishiChislo/script.js:122-159 | Repeated wrong checks of one question keep adding to the wrong count. |
| NumberQuiz.BackToQuestion | materials/math/3apishiChislo/script.js:155-159 | Back from the feedback the same question shows again; `NumberQuiz.WrongAnswersUnbounded` proves that repeated wrong checks of it, each followed by this return, keep adding to the wrong count. |
| NumberQuiz.RestartGame | materials/math/3apishiChislo/script.js:206-210 | Restart shows the start screen with the last player's name in the field. The counters stay until the next start. |
| NumberQuiz.RestartReplaysName | materials/math/3apishiChislo/script.js:206-210 | A start after the restart runs under the previous player's name, with the counters cleared. |
| NumberQuiz.LoadQuestion | materials/math/3apishiChislo/script.js:96-108 | Past the last question the results show. Otherwise the answer is cleared and the progress shows the question number. |
| NumberQuiz.AtMostTenQuestions | materials/math/3apishiChislo/script.js:161-169 | A question is on screen only while its index is below both 10 and the file's length. |
| NumberQuiz.NextAsWritten | materials/math/3apishiChislo/script.js:161-169 | Next question, as written: below 10 the task screen is activated before the load runs out of questions. |
| NumberQuiz.ShortFileLeavesTaskActive | materials/math/3apishiChislo/script.js:161-169 | As written, a file shorter than ten questions ends with both the task and the results screens active. |
| NumberQuiz.NextQuestion | materials/math/3apishiChislo/script.js:161-169 | Repaired: the task screen is activated only when a question is left. |
| NumberQuiz.ShortFileShowsOnlyResults | materials/math/3apishiChislo/script.js:161-195 | Repaired: leaving the last question of a short file shows only the results. |
| NumberQuiz.ShowResults | materials/math/3apishiChislo/script.js:171-195 | The results show the player's name, the correct count of the file's length, and the `MM:SS` text of the milliseconds since the start for any clock reading. `NumberQuiz.ElapsedTextReadsBack` proves the text reads back as minutes and seconds when the clock has not gone back, and `NumberQuiz.ElapsedTextWhenClockWentBack` that it starts with a minus when it has. |
| NumberQuiz.ElapsedTextReadsBack | materials/math/3apishiChislo/script.js:177-180 | When the clock has not gone back, the clock text reads back as the whole minutes and the seconds past them. |
| NumberQuiz.ElapsedTextWhenClockWentBack | materials/math/3apishiChislo/script.js:216-219 | A clock that went back shows a text that starts with a minus. The seconds lie in -60..0, because JavaScript's remainder keeps the minus and its floor goes down. |
| NumberQuiz.Tick | materials/math/3apishiChislo/script.js:212-222 | The timer writes only after a start and while the task screen is active. It then shows the elapsed text of the time since the start, negative parts included when the clock went back. |
| NumberQuiz.TickAfterCheckWritesNothing | materials/math/3apishiChislo/script.js:122-139 | The tick due while the feedback shows writes nothing, since a check leaves the task screen. |
| Text.TrimEmptyIff | materials/math/3apishiChislo/script.js:60-61 | A string trims to nothing exactly when it is all white space. |
| Text.ClockTextRoundTrip | materials/math/3apishiChislo/script.js:177-180 | `MM:SS` with zero padding reads back as its minutes and seconds. |
| Text.ClockTextNegative | materials/russian/SlovarnieSlova3-4Klass/script.js:359 | Negative minutes print with their minus sign, which no padding of width two or less changes, so the text starts with a minus. |
| Numeric.JsRem | materials/russian/SlovarnieSlova3-4Klass/script.js:348 | JavaScript's `%`: the remainder takes the dividend's sign and is smaller than the divisor in size. |
| Numeric.JsRemCongruent | materials/math/3apishiChislo/script.js:218 | JavaScript's remainder differs from the dividend by a whole multiple of the divisor, and it equals Dafny's `%` for a dividend that is not negative. |
| Numeric.PercentBounds | materials/math/ViktorinaShablon_1/script.js:216 | A share of at most the whole rounds to a percentage in 0..100. |
| EmojiGame.StartLevel | materials/gamification/VesiolaiaPochitaika/script.js:60-72 | An index past the last level wraps to level 0 and resets the current index. The found count is set to 0 and the level's words are shown. With no level at all, the throw leaves the index and the found count reset and nothing else changed. |
| EmojiGame.Loaded | materials/gamification/VesiolaiaPochitaika/script.js:35-49 | Loaded levels replace the data and wire the buttons. A failed load changes nothing. |
| EmojiGame.Start | materials/gamification/VesiolaiaPochitaika/script.js:40 | The start button plays the current level once the buttons are wired, and does nothing before. |
| EmojiGame.LoadedThenStart | materials/gamification/VesiolaiaPochitaika/script.js:35-72 | After the file is read, start plays the first level: the word phase shows its words with nothing found. After a failed read, start changes nothing. |
| EmojiGame.WordsDone | materials/gamification/VesiolaiaPochitaika/script.js:112-133 | The grid holds one card per option of the current level, in the given shuffled order. Each card carries `String(isCorrect)`, and none is found yet. |
| EmojiGame.CardsAreTheOptions | materials/gamification/VesiolaiaPochitaika/script.js:117-132 | The grid's cards are the level's options, as a multiset. |
| EmojiGame.CardClick | materials/gamification/VesiolaiaPochitaika/script.js:136-166 | A found card is ignored. A card whose flag text is "true" is marked and counted. Any other card only shakes. |
| EmojiGame.DoubleClickCountsOnce | materials/gamification/VesiolaiaPochitaika/script.js:140 | Clicking the same card twice counts it at most once. |
| EmojiGame.CardClickCounted | materials/gamification/VesiolaiaPochitaika/script.js:140-165 | In the choice phase the counter equals the number of cards marked found. |
| EmojiGame.WinExactlyAtFour | materials/gamification/VesiolaiaPochitaika/script.js:152-154 | The win is scheduled exactly by the click that brings the count to 4. |
| EmojiGame.WinAfterFourthRight | materials/gamification/VesiolaiaPochitaika/script.js:136-172 | The click that finds the fourth right card, then its timer, ends on the win screen with four cards found and the level kept. |
| EmojiGame.ShakeDone | materials/gamification/VesiolaiaPochitaika/script.js:161-164 | The shake timer keeps the found count and changes only that card's shaking flag. |
| EmojiGame.ShakeDoneCounted | materials/gamification/VesiolaiaPochitaika/script.js:161-164 | The shake timer keeps the counter equal to the number of cards found. |
| EmojiGame.NextLevel | materials/gamification/VesiolaiaPochitaika/script.js:174-177 | Next increments the index and then starts that level, wrapping after the last. |
| EmojiGame.WrapsToFirstLevel | materials/gamification/VesiolaiaPochitaika/script.js:61-177 | Next on the last level restarts level 0 with the count cleared. |
| Abacus.ClickRowLoops | materials/math/AbacusHTML_2/script.js:84-121 | The handler's two loops compute the click rule. |
| Abacus.ClickRow | materials/math/AbacusHTML_2/script.js:89-117 | A bead on the right brings beads 0..k to the left. A bead on the left goes home and keeps the beads before it. Every bead after k goes home. |
| Abacus.ClickRowCount | materials/math/AbacusHTML_2/script.js:89-117 | A row stays a left-justified block. A click leaves k+1 beads left (from the right) or k (from the left), and an unknown class clears the row. |
| Abacus.Click | materials/math/AbacusHTML_2/script.js:77-123 | A click changes only its own row. |
| Abacus.ClickKeepsValid | materials/math/AbacusHTML_2/script.js:89-117 | Every row stays packed, and every inline position agrees with its bead's side. |
| Abacus.HomeIsRightOfPushed | materials/math/AbacusHTML_2/script.js:2-30 | A pushed bead i sits at 1057+45·i, left of its home: 1466+45·i, or 1736+45·i on the four-bead row. |
| Abacus.InitialValid | materials/math/AbacusHTML_2/script.js:43-126 | Every row starts at home, so the initial total is 0. |
| Abacus.TotalIsHorner | materials/math/AbacusHTML_2/script.js:33-67 | The total is Σ(beads left × weight) over rows 5 to 10, with weights 1 to 100000. |
| Abacus.TotalBounded | materials/math/AbacusHTML_2/script.js:44-67 | The total lies in 0..1111110. |
| Abacus.TotalDigits | materials/math/AbacusHTML_2/script.js:57-67 | While no counted row is full, the d-th decimal digit of the total is the bead count of row 5+d. |
| Abacus.DisplayReadsBack | materials/math/AbacusHTML_2/script.js:70-74 | The display text reads back as the total. |
| MemoryPairs.Flip | materials/belarusian/memoryJagodiPaBelarusku/scripts.js:19-34 | A click on a matched card, on a locked board or on the first card is ignored. The first flip records the card and starts the timer, and the second is compared with the first. |
| MemoryPairs.DisableCards | materials/belarusian/memoryJagodiPaBelarusku/scripts.js:41-51 | A match adds one to `matchesFound` and makes both cards unclickable. The game ends iff twice the matches equals the card count, and the board is reset. |
| MemoryPairs.UnflipCards | materials/belarusian/memoryJagodiPaBelarusku/scripts.js:53-56 | A mismatch adds one mistake and locks the board; `MemoryPairs.MistakesCountMismatches` proves a flip adds a mistake exactly on a locking mismatch, and `MemoryPairs.LockedBoardIgnoresClicks` that the locked board ignores every click. |
| MemoryPairs.UnflipFired | materials/belarusian/memoryJagodiPaBelarusku/scripts.js:57-61 | After the pause both cards turn back and the board is reset. |
| MemoryPairs.ResetBoard | materials/belarusian/memoryJagodiPaBelarusku/scripts.js:64-67 | The reset clears the flipped flag, the lock and both card references; `MemoryPairs.FlipKeepsConsistent` and `MemoryPairs.UnflipFiredKeepsConsistent` prove that the matches and the pause, which end in it, keep the board's invariant. |
| MemoryPairs.Restart | materials/belarusian/memoryJagodiPaBelarusku/scripts.js:100-116 | Restart zeroes the matches, the mistakes and the time. Every card is face down and clickable. |
| MemoryPairs.FlipKeepsConsistent | materials/belarusian/memoryJagodiPaBelarusku/scripts.js:19-51 | A turn holds at most two cards, the face-up cards are the found ones plus the turn's, and the found cards are twice the matches. |
| MemoryPairs.UnflipFiredKeepsConsistent | materials/belarusian/memoryJagodiPaBelarusku/scripts.js:53-67 | The pause after a mismatch keeps that invariant. |
| MemoryPairs.LockedBoardIgnoresClicks | materials/belarusian/memoryJagodiPaBelarusku/scripts.js:20 | While the board is locked no click changes anything. |
| MemoryPairs.SameCardTwiceIgnored | materials/belarusian/memoryJagodiPaBelarusku/scripts.js:21 | Clicking the first card of a turn again does nothing. |
| MemoryPairs.EndMeansAllFound | materials/belarusian/memoryJagodiPaBelarusku/scripts.js:11-48 | The game has ended iff every card is matched, and then every card is face up and unclickable. |
| MemoryPairs.MistakesCountMismatches | materials/belarusian/memoryJagodiPaBelarusku/scripts.js:37-56 | A flip adds a mistake exactly when it locks the board on a mismatch. |
| MemoryPairs.Tick | materials/belarusian/memoryJagodiPaBelarusku/scripts.js:69-76 | Each second of a running interval adds one to the time and shows it. |
| MemoryPairs.Initial | materials/belarusian/memoryJagodiPaBelarusku/scripts.js:1-17 | The page starts with one face-down, listening card per framework. |
| MemoryPairs.InitialConsistent | materials/belarusian/memoryJagodiPaBelarusku/scripts.js:1-17 | A non-empty page starts in the board's invariant. |
| MemoryPairs.StartTimer | materials/belarusian/memoryJagodiPaBelarusku/scripts.js:69-76 | The interval starts only when none is set. |
| MemoryPairs.TimerStartsOnce | materials/belarusian/memoryJagodiPaBelarusku/scripts.js:69-76 | Starting the interval again changes nothing, and a start never touches the elapsed time. |
| MemoryPairs.EndGame | materials/belarusian/memoryJagodiPaBelarusku/scripts.js:78-81 | The end stops the clock and shows the elapsed time and the mistakes, keeping the cards and counters. |
| MemoryPairs.LastPairEndsGame | materials/belarusian/memoryJagodiPaBelarusku/scripts.js:41-81 | The match that finds the last pair stops the clock, and the results hold the elapsed time and the mistakes made. |

## Left out

- Rendering, styling, animation classes, sounds and speech synthesis. These are presentation, or calls into the browser. Only the state those classes encode is kept.
- The file-name modal, `localStorage` progress in the quiz, and the fetches themselves. The loaded data is an input (`None` for a failed fetch or parse).
- Real time. Timers are explicit transitions, and timestamps are integer milliseconds given by the caller. A reading earlier than the start is allowed, and it gives the negative texts the games print.
- NumberQuiz.ElapsedText: `timeDiff` is a floating-point number of seconds. The model takes `ms / 1000` as exact, so the floor of its remainder by 60 is the integer remainder by 60000 divided by 1000.
- Randomness. Shuffles are caller-supplied draws or permutations. The memory game's CSS `order` shuffle only changes where cards are drawn, so it is not modelled.
- The emoji game's word phase (`playWordSequence`): random screen positions and delays. It becomes one transition, `EmojiGame.WordsDone`, taking the shuffled order of the options.
- The word trainer's canvas chart and the number quiz's bar widths. Both are floating-point drawing, and the bars can divide 0 by 0.
- Drag-and-drop pointer tracking and the ghost cursor. A drop is modelled by the identity of the dragged tile.
- Unicode case folding. Lower case is an explicit mapping over Latin and Russian capitals.
- Quiz.PercentageOf: rounds the exact ratio half up, while JavaScript rounds the floating-point product. The two could differ only where a double rounding error crosses a .5 boundary.
- MemoryPairs.Flip: a second flip while `firstCard` is null cannot occur in a consistent board. It keeps the card turned and does not model the throw.
- EmojiGame.StartLevel: data that is not an array (so `length` is undefined) is not modelled. Levels are a sequence.
- Abacus.ClickRowLoops: the source skips a bead missing from the page (`if (!currentBead) continue`). The model assumes every bead exists, so the flags and positions are always written.
- Json: numbers are integers. Fractions, exponents such as 1e21, and integers past 2^53 (which JavaScript rounds) are not modelled.
- VerbEndings.Fetched: the rows are typed, with an integer `correctIndex`. A file giving it as the string "1" is not modelled; there `===` fails, so the word is marked wrong and option 1 missed.
- NumberQuiz.Fetched: the file is a sequence of questions. A file that is not an array, whose `length` is undefined, is not modelled.
- EmojiGame.Loaded: the levels are typed (words and options). Levels with missing members are not modelled.
- WordTrainer.WordsOf: level ids are strings. A numeric id in the file, which the words map finds through `String(id)` while `TitleOf`'s `===` misses it, is not modelled.
- NumberQuiz.Tick: one tick is modelled, not the chain. The chain stops at the first tick off the task screen, and `backToQuestion` does not restart it, so the clock stays frozen on a retried question.
- NumberQuiz.Fetched: `showTaskScreen` also calls `updateTimer` at once, which writes the clock text before the first second passes. The model leaves that write to `NumberQuiz.Tick`.
- LetterFill.ErrorMessage: the message for a `null` task is the wording of one browser engine (V8). Other engines word that TypeError differently.

## Findings

| source | as written | input that shows it | evidently intended | confidence | as-written member | corrected member |
|---|---|---|---|---|---|---|
| materials/russian/SlovarnieSlova3-4Klass/script.js:291-303 | The revert callback of a wrong check moves its captured tiles to the pool even after the word has changed | A wrong check, then "skip" within one second | A stale callback should leave the next word alone | not executed | WordTrainer.StaleRevertAddsForeignTiles | WordTrainer.StaleRevertIgnored |
| materials/russian/SlovarnieSlova3-4Klass/script.js:291-299 | The revert clears `selectedSyllables` even for tiles tapped during the pause, which stay in the answer | A wrong check, then a tap on a pool tile within one second | The selection should keep matching the tiles in the answer | not executed | WordTrainer.RevertDropsTappedTileFromSelection | WordTrainer.RevertKeepsTappedTileSelected |
| materials/math/3apishiChislo/script.js:161-169 | `nextQuestion` activates the task screen before `loadQuestion` discovers there is no question left | A file of fewer than ten questions, and "next" after the last one | Only the results screen should be active | not executed | NumberQuiz.ShortFileLeavesTaskActive | NumberQuiz.ShortFileShowsOnlyResults |
| materials/russian/SlovarnieSlova3-4Klass/script.js:278-281 | The advance callback of a right check moves on by one word whatever word is then on screen | A right check, then "skip" within 1.5 seconds | The callback should move on only from the word it was armed for | not executed | WordTrainer.SkipDuringAdvanceSkipsTwo | WordTrainer.SkipDuringAdvanceIgnored |

=== FILE: abacus.dfy ===
/**
 * The on-screen abacus: ten rows of beads, each bead either on the right
 * (its home) or pushed to the left. Clicking a bead on the right pushes it
 * and every bead before it to the left; clicking a bead on the left sends
 * it home; either way every bead after it goes home. Rows group-kost5 to
 * group-kost10 count units to hundred-thousands and the display shows
 * their total.
 */
module Abacus {
  import opened Wrappers
  import Text

  /** Number of rows: group-kost1 … group-kost10, held at indices 0 … 9. */
  const RowCount: nat := 10

  /** The row with only four beads, group-kost4. */
  const ShortRow: nat := 3

  /** Bead classes of an ordinary row, from left to right. */
  const BeadOrder: seq<string> :=
    ["kost10", "kost9", "kost8", "kost7", "kost6", "kost5", "kost4", "kost3", "kost2", "kost1"]

  /** Bead classes of the four-bead row, from left to right. */
  const BeadOrderShort: seq<string> := ["kost4-7", "kost4-6", "kost4-5", "kost4-4"]

  /** The home (right-hand) `left` coordinate of each bead class. */
  const OriginalPositions: map<string, int> := map[
    "kost1" := 1871, "kost2" := 1826, "kost3" := 1781, "kost4" := 1736, "kost5" := 1691,
    "kost6" := 1646, "kost7" := 1601, "kost8" := 1556, "kost9" := 1511, "kost10" := 1466,
    "kost4-4" := 1871, "kost4-5" := 1826, "kost4-6" := 1781, "kost4-7" := 1736]

  const FrameLeft: int := 1057
  const BeadSpacing: int := 45

  /** Place weights of rows group-kost5 … group-kost10. */
  const Weights: seq<nat> := [1, 10, 100, 1000, 10000, 100000]

  /** The first counted row, group-kost5. */
  const FirstCounted: nat := 4

  /**
   * A row: `left[i]` is its `rowStates` flag; `style[i]` the inline `left`
   * coordinate last written to bead i (`None` while the stylesheet's own
   * position applies).
   */
  datatype Row = Row(left: seq<bool>, style: seq<Option<int>>)

  datatype Abacus = Abacus(rows: seq<Row>)

  function OrderOf(g: nat): seq<string>
  {
    if g == ShortRow then BeadOrderShort else BeadOrder
  }

  function HomeRow(n: nat): (r: Row)
    ensures |r.left| == |r.style| == n
  {
    Row(seq(n, i => false), seq(n, i => None))
  }

  /** Every bead at home and no inline position yet. */
  const Initial: Abacus := Abacus(seq(RowCount, g requires 0 <= g < RowCount => HomeRow(|OrderOf(g)|)))

  predicate RowSized(row: Row, order: seq<string>)
  {
    |row.left| == |row.style| == |order|
  }

  predicate WellSized(a: Abacus)
  {
    && |a.rows| == RowCount
    && (forall g :: 0 <= g < RowCount ==> RowSized(a.rows[g], OrderOf(g)))
  }

  /** `Array.prototype.indexOf`: the first position of `x`, or -1. */
  function IndexOf(s: seq<string>, x: string): (k: int)
    ensures -1 <= k < |s|
    ensures k >= 0 ==> s[k] == x && forall j :: 0 <= j < k ==> s[j] != x
    ensures k == -1 ==> forall j :: 0 <= j < |s| ==> s[j] != x
  {
    if s == [] then -1
    else if s[0] == x then 0
    else var k := IndexOf(s[1..], x); if k == -1 then -1 else k + 1
  }

  function PushedLeft(i: nat): int
  {
    FrameLeft + i * BeadSpacing
  }

  function Home(order: seq<string>, i: nat): int
    requires i < |order|
  {
    if order[i] in OriginalPositions then OriginalPositions[order[i]] else 0
  }

  /**
   * One click on the bead at position k of its row (-1 when the class is
   * not in the row's order; the flag then reads `undefined`, which is
   * falsy, and the click only sends every bead home).
   */
  function ClickRow(row: Row, order: seq<string>, k: int): (r: Row)
    requires RowSized(row, order) && -1 <= k < |order|
    ensures RowSized(r, order)
    ensures k >= 0 ==> r.left[k] == !row.left[k]
    ensures forall i :: k < i < |order| ==> !r.left[i]
    ensures k >= 0 && row.left[k] ==> forall i :: 0 <= i < k ==> r.left[i] == row.left[i]
    ensures !(k >= 0 && row.left[k]) ==> forall i :: 0 <= i <= k ==> r.left[i]
  {
    var n := |order|;
    var wasLeft := k >= 0 && row.left[k];
    Row(
      seq(n, i requires 0 <= i < n =>
        if wasLeft then i < k && row.left[i] else i <= k),
      seq(n, i requires 0 <= i < n =>
        if wasLeft && i < k then row.style[i]
        else if i == k && wasLeft then Some(Home(order, i))
        else if i <= k then Some(PushedLeft(i))
        else if row.left[i] then Some(Home(order, i))
        else row.style[i]))
  }

  /** The click handler of lines 84-121 as the two loops it runs. */
  method ClickRowLoops(row: Row, order: seq<string>, k: int) returns (r: Row)
    requires RowSized(row, order) && -1 <= k < |order|
    ensures r == ClickRow(row, order, k)
  {
    var left := row.left;
    var style := row.style;
    var wasLeft := k >= 0 && left[k];
    if wasLeft {
      style := style[k := Some(Home(order, k))];
      left := left[k := false];
    } else {
      var i := 0;
      while i <= k
        invariant 0 <= i <= k + 1
        invariant |left| == |style| == |order|
        invariant forall j :: 0 <= j < |order| ==> left[j] == (j < i || row.left[j])
        invariant forall j :: 0 <= j < |order| ==>
          style[j] == (if j < i then Some(PushedLeft(j)) else row.style[j])
      {
        style := style[i := Some(PushedLeft(i))];
        left := left[i := true];
        i := i + 1;
      }
    }
    ghost var mid := left;
    ghost var midStyle := style;
    var i := k + 1;
    while i < |left|
      invariant k + 1 <= i <= |left| == |style| == |order|
      invariant forall j :: 0 <= j < |order| ==> left[j] == (if k < j < i then false else mid[j])
      invariant forall j :: 0 <= j < |order| ==>
        style[j] == (if k < j < i && mid[j] then Some(Home(order, j)) else midStyle[j])
    {
      if left[i] {
        style := style[i := Some(Home(order, i))];
        left := left[i := false];
      }
      i := i + 1;
    }
    r := Row(left, style);
    assert r.left == ClickRow(row, order, k).left;
    assert r.style == ClickRow(row, order, k).style;
  }

  /** A click on a bead of row g given by its class. Only that row changes. */
  function Click(a: Abacus, g: nat, beadClass: string): (r: Abacus)
    requires WellSized(a) && g < RowCount
    ensures WellSized(r)
    ensures forall h :: 0 <= h < RowCount && h != g ==> r.rows[h] == a.rows[h]
    ensures r.rows[g] == ClickRow(a.rows[g], OrderOf(g), IndexOf(OrderOf(g), beadClass))
  {
    var order := OrderOf(g);
    Abacus(a.rows[g := ClickRow(a.rows[g], order, IndexOf(order, beadClass))])
  }

  /** The number of beads pushed to the left in a row. */
  function CountLeft(left: seq<bool>): (n: nat)
    ensures n <= |left|
  {
    if left == [] then 0 else CountLeft(left[..|left| - 1]) + (if left[|left| - 1] then 1 else 0)
  }

  /** `calculateTotal`: beads on the left of rows group-kost5 … group-kost10 times their weights. */
  function Total(a: Abacus): nat
    requires WellSized(a)
  {
    WeightedSum(a, 0)
  }

  function WeightedSum(a: Abacus, d: nat): nat
    requires WellSized(a) && d <= |Weights|
    decreases |Weights| - d
  {
    if d == |Weights| then 0
    else CountLeft(a.rows[FirstCounted + d].left) * Weights[d] + WeightedSum(a, d + 1)
  }

  /** `updateDisplay`: the total in decimal, without leading zeros. */
  function Display(a: Abacus): string
    requires WellSized(a)
  {
    Text.NatToString(Total(a))
  }

  // ------------------------------------------------------------------ lemmas

  /** The pushed beads of a row always form a block at its left end. */
  predicate Packed(left: seq<bool>)
  {
    forall i, j :: 0 <= i < j < |left| && left[j] ==> left[i]
  }

  /** The first c beads pushed and the rest at home. */
  function Block(n: nat, c: nat): seq<bool>
  {
    seq(n, i => i < c)
  }

  lemma {:induction false} CountBlock(n: nat, c: nat)
    requires c <= n
    ensures CountLeft(Block(n, c)) == c
    decreases n
  {
    if n > 0 {
      assert Block(n, c)[..n - 1] == Block(n - 1, if c == n then c - 1 else c);
      CountBlock(n - 1, if c == n then c - 1 else c);
    }
  }

  /**
   * The click rule on a packed row: clicking a bead at home leaves it and
   * every bead before it pushed (k+1 beads); clicking a pushed bead leaves
   * exactly the beads before it pushed (k beads); a foreign class clears the row.
   */
  lemma ClickRowCount(row: Row, order: seq<string>, k: int)
    requires RowSized(row, order) && -1 <= k < |order| && Packed(row.left)
    ensures var r := ClickRow(row, order, k);
      && Packed(r.left)
      && CountLeft(r.left) == (if k >= 0 && row.left[k] then k else k + 1)
  {
    var r := ClickRow(row, order, k);
    var c := if k >= 0 && row.left[k] then k else k + 1;
    assert r.left == Block(|order|, c);
    CountBlock(|order|, c);
  }

  /** Each inline position is the pushed slot of a pushed bead or the home of a bead at home. */
  predicate StylesAgree(row: Row, order: seq<string>)
    requires RowSized(row, order)
  {
    forall i :: 0 <= i < |order| && row.style[i].Some? ==>
      row.style[i].value == (if row.left[i] then PushedLeft(i) else Home(order, i))
  }

  lemma ClickRowKeepsStyles(row: Row, order: seq<string>, k: int)
    requires RowSized(row, order) && -1 <= k < |order| && Packed(row.left) && StylesAgree(row, order)
    ensures StylesAgree(ClickRow(row, order, k), order)
  {
  }

  /** Every home position lies to the right of the slot the bead is pushed to. */
  lemma HomeIsRightOfPushed(g: nat, i: nat)
    requires g < RowCount && i < |OrderOf(g)|
    ensures OrderOf(g)[i] in OriginalPositions
    ensures Home(OrderOf(g), i) == (if g == ShortRow then 1736 else 1466) + i * BeadSpacing
    ensures PushedLeft(i) < Home(OrderOf(g), i)
  {
    if g == ShortRow {
      assert i == 0 || i == 1 || i == 2 || i == 3;
    } else {
      assert i == 0 || i == 1 || i == 2 || i == 3 || i == 4 || i == 5 || i == 6 || i == 7 || i == 8 || i == 9;
    }
  }

  /** All rows packed and every inline position agreeing with its flag. */
  ghost predicate Valid(a: Abacus)
  {
    && WellSized(a)
    && (forall g :: 0 <= g < RowCount ==> Packed(a.rows[g].left) && StylesAgree(a.rows[g], OrderOf(g)))
  }

  lemma InitialValid()
    ensures Valid(Initial) && Total(Initial) == 0
  {
    assert WellSized(Initial);
    TotalIsHorner(Initial);
    forall d | 0 <= d < |Weights| ensures Digit(Initial, d) == 0 {
      assert Initial.rows[FirstCounted + d].left == Block(10, 0);
      CountBlock(10, 0);
    }
  }

  lemma ClickKeepsValid(a: Abacus, g: nat, beadClass: string)
    requires Valid(a) && g < RowCount
    ensures Valid(Click(a, g, beadClass))
  {
    var order := OrderOf(g);
    var k := IndexOf(order, beadClass);
    ClickRowCount(a.rows[g], order, k);
    ClickRowKeepsStyles(a.rows[g], order, k);
  }

  /** The beads left of row group-kost(5+d). */
  function Digit(a: Abacus, d: nat): nat
    requires WellSized(a) && d < |Weights|
  {
    CountLeft(a.rows[FirstCounted + d].left)
  }

  /** The counted rows read as a place-value number from row group-kost(5+d) up. */
  function Horner(a: Abacus, d: nat): nat
    requires WellSized(a) && d <= |Weights|
    decreases |Weights| - d
  {
    if d == |Weights| then 0 else Digit(a, d) + 10 * Horner(a, d + 1)
  }

  /** The weighted sum of the source is the place-value reading of the six counted rows. */
  lemma TotalIsHorner(a: Abacus)
    requires WellSized(a)
    ensures Total(a) == Horner(a, 0)
    ensures Total(a) == Digit(a, 0) + 10 * Digit(a, 1) + 100 * Digit(a, 2)
      + 1000 * Digit(a, 3) + 10000 * Digit(a, 4) + 100000 * Digit(a, 5)
  {
    assert WeightedSum(a, 5) == Digit(a, 5) * 100000;
    assert WeightedSum(a, 4) == Digit(a, 4) * 10000 + WeightedSum(a, 5);
    assert WeightedSum(a, 3) == Digit(a, 3) * 1000 + WeightedSum(a, 4);
    assert WeightedSum(a, 2) == Digit(a, 2) * 100 + WeightedSum(a, 3);
    assert WeightedSum(a, 1) == Digit(a, 1) * 10 + WeightedSum(a, 2);
    assert WeightedSum(a, 0) == Digit(a, 0) * 1 + WeightedSum(a, 1);
    assert Horner(a, 5) == Digit(a, 5);
  }

  /** The display never exceeds 1111110: ten beads on each of the six counted rows. */
  lemma TotalBounded(a: Abacus)
    requires WellSized(a)
    ensures 0 <= Total(a) <= 1111110
  {
    TotalIsHorner(a);
    forall d | 0 <= d < |Weights| ensures Digit(a, d) <= 10 {
      assert |a.rows[FirstCounted + d].left| == 10;
    }
  }

  /** Dropping the last d decimal digits of x. */
  function DropDigits(x: nat, d: nat): nat
  {
    if d == 0 then x else DropDigits(x / 10, d - 1)
  }

  lemma {:induction false} HornerShift(a: Abacus, d: nat)
    requires WellSized(a) && d <= |Weights|
    requires forall e :: 0 <= e < |Weights| ==> Digit(a, e) <= 9
    ensures DropDigits(Horner(a, 0), d) == Horner(a, d)
    decreases d
  {
    if d > 0 {
      HornerShift(a, d - 1);
      var h := Horner(a, d - 1);
      assert h == Digit(a, d - 1) + 10 * Horner(a, d);
      LastDigit(Digit(a, d - 1), Horner(a, d));
      DropDigitsStep(Horner(a, 0), d - 1);
    }
  }

  lemma {:induction false} DropDigitsStep(x: nat, d: nat)
    ensures DropDigits(x, d + 1) == DropDigits(x, d) / 10
    decreases d
  {
    if d > 0 {
      DropDigitsStep(x / 10, d - 1);
    }
  }

  /**
   * While no counted row holds ten beads the total reads as a place-value
   * number: its d-th decimal digit is the count of row group-kost(5+d).
   */
  lemma TotalDigits(a: Abacus, d: nat)
    requires WellSized(a) && d < |Weights|
    requires forall e :: 0 <= e < |Weights| ==> Digit(a, e) <= 9
    ensures DropDigits(Total(a), d) % 10 == Digit(a, d)
  {
    TotalIsHorner(a);
    HornerShift(a, d);
    var h := Horner(a, d);
    assert h == Digit(a, d) + 10 * Horner(a, d + 1);
    LastDigit(Digit(a, d), Horner(a, d + 1));
  }

  lemma LastDigit(c: nat, q: nat)
    requires c <= 9
    ensures (c + 10 * q) % 10 == c && (c + 10 * q) / 10 == q
  {
  }

  /** The display reads back as the total. */
  lemma DisplayReadsBack(a: Abacus)
    requires WellSized(a)
    ensures Text.ParseNat(Display(a)) == Total(a)
  {
    Text.ParseNatToString(Total(a));
  }
}

=== FILE: emoji_game.dfy ===
/**
 * The emoji picking game: a level first flashes its words one by one, then
 * shows a grid of emoji cards; the pupil finds the cards that match the
 * words. Finding the fourth right card schedules the win screen, and the
 * next level follows, wrapping to the first after the last.
 */
module EmojiGame {
  import opened Wrappers
  import opened Json

  /** Right cards to find before the win is scheduled. */
  const WinCount: nat := 4

  /** An option of a level: its emoji and the raw `isCorrect` value of the file. */
  datatype Choice = Choice(emoji: string, isCorrect: Json)

  datatype Level = Level(words: seq<string>, options: seq<Choice>)

  /** A card in the grid: `dataset.correct` holds `String(isCorrect)`; `found` is the `correct` class. */
  datatype Card = Card(emoji: string, correctData: string, found: bool, shaking: bool)

  datatype Screen = StartScreen | WordScreen | ChoiceScreen | WinScreen

  datatype Game = Game(
    levels: seq<Level>,
    wired: bool,             // the start and next buttons have listeners (the data loaded)
    levelIndex: nat,         // currentLevelIndex
    found: nat,              // correctFoundCount
    cards: seq<Card>,
    screen: Screen,
    winPending: bool,        // the 1000 ms timer of the win is running
    showingWords: seq<string>)

  const Initial: Game := Game([], false, 0, 0, [], StartScreen, false, [])

  /** `initGame` after the file has been read; on failure no button is wired. */
  function Loaded(g: Game, data: Option<seq<Level>>): (r: Game)
    ensures data.Some? ==> r.levels == data.value && r.wired
    ensures data.None? ==> r == g
  {
    if data.Some? then g.(levels := data.value, wired := true) else g
  }

  /**
   * `startLevel(index)`: an index past the last level restarts from level 0.
   * With no level at all reading `level.words` throws after the index and
   * the found count are reset.
   */
  function StartLevel(g: Game, index: nat): (r: Game)
    ensures index >= |g.levels| ==> r.levelIndex == 0
    ensures index < |g.levels| ==> r.levelIndex == g.levelIndex
    ensures g.levels == [] ==> r == g.(levelIndex := 0, found := 0)
    ensures g.levels != [] ==>
      && r.found == 0 && r.screen == WordScreen
      && r.showingWords == g.levels[if index < |g.levels| then index else 0].words
    ensures r.levels == g.levels && r.cards == g.cards
  {
    var g1 := if index >= |g.levels| then g.(levelIndex := 0) else g;
    var i := if index >= |g.levels| then 0 else index;
    if g.levels == [] then g1.(found := 0)
    else g1.(found := 0, screen := WordScreen, showingWords := g.levels[i].words)
  }

  /** The start button. */
  function Start(g: Game): (r: Game)
    ensures !g.wired ==> r == g
    ensures g.wired ==> r == StartLevel(g, g.levelIndex)
  {
    if g.wired then StartLevel(g, g.levelIndex) else g
  }

  /** Whether `order` lists every index below `n` exactly once. */
  predicate IsPermutation(order: seq<nat>, n: nat)
  {
    && |order| == n
    && (forall k :: 0 <= k < n ==> order[k] < n)
    && (forall j, k :: 0 <= j < k < n ==> order[j] != order[k])
  }

  function CardOf(c: Choice): Card
  {
    Card(c.emoji, ToJsString(c.isCorrect), false, false)
  }

  /**
   * `setupChoicePhase` for the current level once its words have been
   * shown. The random sort is an arbitrary permutation `order` of the options.
   */
  function WordsDone(g: Game, order: seq<nat>): (r: Game)
    requires g.levelIndex < |g.levels|
    requires IsPermutation(order, |g.levels[g.levelIndex].options|)
    ensures var options := g.levels[g.levelIndex].options;
      && |r.cards| == |options|
      && (forall k :: 0 <= k < |options| ==> r.cards[k] == CardOf(options[order[k]]))
      && (forall k :: 0 <= k < |r.cards| ==> !r.cards[k].found)
    ensures r.screen == ChoiceScreen && r.found == g.found
  {
    var options := g.levels[g.levelIndex].options;
    g.(screen := ChoiceScreen, cards := seq(|options|, k requires 0 <= k < |options| => CardOf(options[order[k]])))
  }

  /** A card counts as right when its stored text is exactly "true". */
  predicate IsRightCard(c: Card)
  {
    c.correctData == "true"
  }

  /**
   * `handleCardClick`: a card already found is ignored; a right card is
   * marked found and counted, and reaching exactly four schedules the win;
   * a wrong card only shakes.
   */
  function CardClick(g: Game, i: nat): (r: Game)
    requires i < |g.cards|
    ensures g.cards[i].found ==> r == g
    ensures !g.cards[i].found && IsRightCard(g.cards[i]) ==>
      && r.found == g.found + 1 && r.cards == g.cards[i := g.cards[i].(found := true)]
      && (r.winPending <==> g.winPending || r.found == WinCount)
    ensures !g.cards[i].found && !IsRightCard(g.cards[i]) ==>
      r == g.(cards := g.cards[i := g.cards[i].(shaking := true)])
  {
    var card := g.cards[i];
    if card.found then g
    else if IsRightCard(card) then
      var found := g.found + 1;
      g.(cards := g.cards[i := card.(found := true)], found := found,
         winPending := g.winPending || found == WinCount)
    else g.(cards := g.cards[i := card.(shaking := true)])
  }

  /** The 500 ms timer after a wrong card. */
  function ShakeDone(g: Game, i: nat): (r: Game)
    requires i < |g.cards|
    ensures r.cards == g.cards[i := g.cards[i].(shaking := false)] && r.found == g.found
  {
    g.(cards := g.cards[i := g.cards[i].(shaking := false)])
  }

  /** The 1000 ms timer after the fourth right card: `handleWin`. */
  function WinFired(g: Game): (r: Game)
    ensures r.screen == WinScreen && !r.winPending
    ensures r == g.(screen := WinScreen, winPending := false)
  {
    g.(screen := WinScreen, winPending := false)
  }

  /** `nextLevel`: the index moves on, then that level starts (wrapping after the last). */
  function NextLevel(g: Game): (r: Game)
    ensures !g.wired ==> r == g
    ensures g.wired && g.levels != [] ==>
      r.levelIndex == (if g.levelIndex + 1 < |g.levels| then g.levelIndex + 1 else 0)
    ensures g.wired ==> r == StartLevel(g.(levelIndex := g.levelIndex + 1), g.levelIndex + 1)
  {
    if g.wired then StartLevel(g.(levelIndex := g.levelIndex + 1), g.levelIndex + 1) else g
  }

  // ------------------------------------------------------------------ lemmas

  /** The number of cards marked found. */
  function CountFound(cards: seq<Card>): (n: nat)
    ensures n <= |cards|
  {
    if cards == [] then 0 else CountFound(cards[..|cards| - 1]) + (if cards[|cards| - 1].found then 1 else 0)
  }

  lemma {:induction false} CountFoundMark(cards: seq<Card>, i: nat, c: Card)
    requires i < |cards| && !cards[i].found && c.found
    ensures CountFound(cards[i := c]) == CountFound(cards) + 1
    decreases |cards|
  {
    var n := |cards| - 1;
    if i < n {
      assert cards[i := c][..n] == cards[..n][i := c];
      CountFoundMark(cards[..n], i, c);
    } else {
      assert cards[i := c][..n] == cards[..n];
    }
  }

  lemma {:induction false} CountFoundSame(cards: seq<Card>, i: nat, c: Card)
    requires i < |cards| && cards[i].found == c.found
    ensures CountFound(cards[i := c]) == CountFound(cards)
    decreases |cards|
  {
    var n := |cards| - 1;
    if i < n {
      assert cards[i := c][..n] == cards[..n][i := c];
      CountFoundSame(cards[..n], i, c);
    } else {
      assert cards[i := c][..n] == cards[..n];
    }
  }

  lemma {:induction false} NoneFound(cards: seq<Card>)
    requires forall k :: 0 <= k < |cards| ==> !cards[k].found
    ensures CountFound(cards) == 0
    decreases |cards|
  {
    if cards != [] {
      NoneFound(cards[..|cards| - 1]);
    }
  }

  /** In the choice phase the counter equals the number of cards marked found. */
  ghost predicate Counted(g: Game)
  {
    g.screen == ChoiceScreen ==> g.found == CountFound(g.cards)
  }

  lemma WordsDoneCounted(g: Game, order: seq<nat>)
    requires g.levelIndex < |g.levels| && g.found == 0
    requires IsPermutation(order, |g.levels[g.levelIndex].options|)
    ensures Counted(WordsDone(g, order))
  {
    NoneFound(WordsDone(g, order).cards);
  }

  /** Each right card is counted once, however often it is clicked. */
  lemma CardClickCounted(g: Game, i: nat)
    requires Counted(g) && g.screen == ChoiceScreen && i < |g.cards|
    ensures Counted(CardClick(g, i))
  {
    var card := g.cards[i];
    if !card.found {
      if IsRightCard(card) {
        CountFoundMark(g.cards, i, card.(found := true));
      } else {
        CountFoundSame(g.cards, i, card.(shaking := true));
      }
    }
  }

  lemma ShakeDoneCounted(g: Game, i: nat)
    requires Counted(g) && i < |g.cards|
    ensures Counted(ShakeDone(g, i))
  {
    CountFoundSame(g.cards, i, g.cards[i].(shaking := false));
  }

  /** Clicking the same right card twice counts it once. */
  lemma DoubleClickCountsOnce(g: Game, i: nat)
    requires i < |g.cards|
    ensures CardClick(CardClick(g, i), i).found == CardClick(g, i).found
  {
  }

  /** The win is scheduled by the click that brings the count to four, and by no other. */
  lemma WinExactlyAtFour(g: Game, i: nat)
    requires i < |g.cards| && !g.winPending
    ensures CardClick(g, i).winPending <==>
      !g.cards[i].found && IsRightCard(g.cards[i]) && g.found + 1 == WinCount
  {
  }

  /**
   * The click that finds the fourth right card, followed by its timer, ends
   * on the win screen with four cards marked found and nothing else changed.
   */
  lemma WinAfterFourthRight(g: Game, i: nat)
    requires Counted(g) && g.screen == ChoiceScreen && !g.winPending
    requires i < |g.cards| && !g.cards[i].found && IsRightCard(g.cards[i])
    requires g.found + 1 == WinCount
    ensures var w := WinFired(CardClick(g, i));
      && w.screen == WinScreen && !w.winPending
      && w.found == WinCount && CountFound(w.cards) == WinCount
      && w.cards == g.cards[i := g.cards[i].(found := true)]
      && w.levels == g.levels && w.levelIndex == g.levelIndex
  {
    CountFoundMark(g.cards, i, g.cards[i].(found := true));
  }

  /**
   * Once the file is read, the start button plays the first level: the
   * word phase begins with that level's words and nothing found. A failed
   * read leaves start inert.
   */
  lemma LoadedThenStart(levels: seq<Level>)
    requires levels != []
    ensures var r := Start(Loaded(Initial, Some(levels)));
      && r.screen == WordScreen && r.found == 0 && r.levelIndex == 0
      && r.showingWords == levels[0].words && r.levels == levels
    ensures Start(Loaded(Initial, None)) == Initial
  {
  }

  /** The grid holds exactly the level's options, each with its own flag. */
  lemma CardsAreTheOptions(g: Game, order: seq<nat>)
    requires g.levelIndex < |g.levels|
    requires IsPermutation(order, |g.levels[g.levelIndex].options|)
    ensures var options := g.levels[g.levelIndex].options;
      multiset(WordsDone(g, order).cards) == multiset(seq(|options|, k requires 0 <= k < |options| => CardOf(options[k])))
  {
    var options := g.levels[g.levelIndex].options;
    var cards := WordsDone(g, order).cards;
    var plain := seq(|options|, k requires 0 <= k < |options| => CardOf(options[k]));
    PermutedMultiset(plain, order, cards);
  }

  lemma {:induction false} PermutedMultiset<T>(a: seq<T>, order: seq<nat>, b: seq<T>)
    requires IsPermutation(order, |a|) && |b| == |a|
    requires forall k :: 0 <= k < |a| ==> b[k] == a[order[k]]
    ensures multiset(b) == multiset(a)
    decreases |a|
  {
    if |a| > 0 {
      var n := |a| - 1;
      // the position of the last element of `b` in `a` is order[n]
      var p := order[n];
      var a' := a[..p] + a[p + 1..];
      var order' := seq(n, k requires 0 <= k < n => if order[k] < p then order[k] else order[k] - 1);
      forall j, k | 0 <= j < k < n ensures order'[j] != order'[k] {
        assert order[j] != order[k] && order[j] != p && order[k] != p;
      }
      forall k | 0 <= k < n ensures b[..n][k] == a'[order'[k]] {
        assert order[k] != p;
      }
      PermutedMultiset(a', order', b[..n]);
      assert a == a[..p] + [a[p]] + a[p + 1..];
      assert b == b[..n] + [b[n]];
    }
  }

  /** A level past the last restarts at level 0 with the counter cleared. */
  lemma WrapsToFirstLevel(g: Game)
    requires g.wired && g.levels != [] && g.levelIndex + 1 == |g.levels|
    ensures NextLevel(g).levelIndex == 0 && NextLevel(g).found == 0
    ensures NextLevel(g).showingWords == g.levels[0].words
  {
  }
}

=== FILE: json.dfy ===
/**
 * The parsed JSON values the games read from their data files, with the
 * JavaScript notions the validators test: property reads, truthiness,
 * `Array.isArray`, `typeof` and `String(value)`.
 */
module Json {
  import opened Wrappers
  import Text

  /** A parsed JSON value. Numbers are kept as integers. */
  datatype Json =
    | JNull
    | JBool(b: bool)
    | JNum(n: int)
    | JStr(s: string)
    | JArr(items: seq<Json>)
    | JObj(fields: map<string, Json>)

  /**
   * `value.key` on a non-null value: the member when `value` is an object
   * that has it, `undefined` (None) otherwise. Reading a property of `null`
   * throws; callers test `JNull?` before reading.
   */
  function Get(value: Json, key: string): (r: Option<Json>)
    ensures r.Some? <==> value.JObj? && key in value.fields
    ensures r.Some? ==> r.value == value.fields[key]
  {
    if value.JObj? && key in value.fields then Some(value.fields[key]) else None
  }

  /** JavaScript truthiness of a possibly `undefined` value. */
  predicate Truthy(v: Option<Json>)
  {
    match v
    case None => false
    case Some(JNull) => false
    case Some(JBool(b)) => b
    case Some(JNum(n)) => n != 0
    case Some(JStr(s)) => s != ""
    case Some(_) => true
  }

  /** `Array.isArray(v)`. */
  predicate IsArray(v: Option<Json>)
  {
    v.Some? && v.value.JArr?
  }

  /** `typeof v === 'number'`. */
  predicate IsNumber(v: Option<Json>)
  {
    v.Some? && v.value.JNum?
  }

  /** `typeof v === 'string'`. */
  predicate IsString(v: Option<Json>)
  {
    v.Some? && v.value.JStr?
  }

  /**
   * `String(v)`, which is also what assigning to `textContent` or to a
   * `dataset` field stores. Array elements that are `null` print as empty.
   */
  function ToJsString(v: Json): string
    decreases v, 1
  {
    match v
    case JNull => "null"
    case JBool(b) => if b then "true" else "false"
    case JNum(n) => Text.IntToString(n)
    case JStr(s) => s
    case JArr(items) => JoinComma(items, v)
    case JObj(_) => "[object Object]"
  }

  /** The elements of an array joined by commas, as `String` does for arrays. */
  function JoinComma(items: seq<Json>, ghost whole: Json): string
    requires forall x :: x in items ==> x < whole
    decreases whole, 0, |items|
  {
    if items == [] then ""
    else
      assert items[0] in items;
      assert forall x :: x in items[1..] ==> x in items;
      var head := if items[0].JNull? then "" else ToJsString(items[0]);
      if |items| == 1 then head else head + "," + JoinComma(items[1..], whole)
  }

  /** `undefined` read into a string: how `dataset.x = undefined` renders. */
  function ToJsStringOpt(v: Option<Json>): string
  {
    if v.Some? then ToJsString(v.value) else "undefined"
  }
}

=== FILE: letter_fill.dfy ===
/**
 * The fill-the-letter exercise: a slide shows a sentence with blanks, the
 * pupil picks a letter from the alphabet and then clicks a blank; the blank
 * is filled when the letter matches its answer, ignoring case. Slides come
 * from a JSON file that is validated before it replaces the current tasks.
 */
module LetterFill {
  import opened Wrappers
  import opened Json
  import Text

  /** The 33 lower-case letters of the Russian alphabet, one card each. */
  const Alphabet: string := "абвгдеёжзийклмнопрстуфхцчшщъыьэюя"

  // ---------------------------------------------------------------- validation

  /** Why one task of the file is refused, in the order the tests run. */
  datatype TaskFault =
    | NullTask            // reading `.id` of `null` throws
    | BadId
    | BadSentence
    | BadParts
    | BadAnswers
    | BlankMismatch(blanks: nat, answers: nat)

  /**
   * Why a load fails. `NotFound` is a response that is not OK for the file
   * named `filename` + ".json"; `ReadFailed` is a rejected fetch or a body
   * that does not parse, carrying the message the browser gives; `task` is
   * the 1-based number the message shows.
   */
  datatype LoadError =
    | NotFound(filename: string)
    | ReadFailed(message: string)
    | NotArray
    | EmptyTasks
    | TaskError(task: nat, fault: TaskFault)

  /** A task that passed validation. */
  datatype Task = Task(id: int, sentence: string, parts: seq<Json>, answers: seq<Json>)

  /** `part === "_"`: only the one-character string is a blank. */
  predicate IsBlank(part: Json)
  {
    part == JStr("_")
  }

  /** `textParts.filter(part => part === "_").length`. */
  function CountBlanks(parts: seq<Json>): (n: nat)
    ensures n <= |parts|
  {
    if parts == [] then 0
    else CountBlanks(parts[..|parts| - 1]) + (if IsBlank(parts[|parts| - 1]) then 1 else 0)
  }

  /** What a task must satisfy to be accepted, stated property by property. */
  predicate TaskValid(t: Json)
  {
    && !t.JNull?
    && Truthy(Get(t, "id")) && IsNumber(Get(t, "id"))
    && Truthy(Get(t, "fullSentence")) && IsString(Get(t, "fullSentence"))
    && IsArray(Get(t, "textParts"))
    && IsArray(Get(t, "answers"))
    && CountBlanks(Get(t, "textParts").value.items) == |Get(t, "answers").value.items|
  }

  /** The first test one task fails, or None. */
  function CheckTask(t: Json): (r: Option<TaskFault>)
    ensures r.None? <==> TaskValid(t)
    ensures r == Some(NullTask) <==> t.JNull?
    ensures r == Some(BadId) <==> !t.JNull? && !(Truthy(Get(t, "id")) && IsNumber(Get(t, "id")))
    ensures r == Some(BadSentence) <==>
      && !t.JNull? && Truthy(Get(t, "id")) && IsNumber(Get(t, "id"))
      && !(Truthy(Get(t, "fullSentence")) && IsString(Get(t, "fullSentence")))
    ensures r == Some(BadParts) <==>
      && !t.JNull? && Truthy(Get(t, "id")) && IsNumber(Get(t, "id"))
      && Truthy(Get(t, "fullSentence")) && IsString(Get(t, "fullSentence"))
      && !IsArray(Get(t, "textParts"))
    ensures r == Some(BadAnswers) <==>
      && !t.JNull? && Truthy(Get(t, "id")) && IsNumber(Get(t, "id"))
      && Truthy(Get(t, "fullSentence")) && IsString(Get(t, "fullSentence"))
      && IsArray(Get(t, "textParts")) && !IsArray(Get(t, "answers"))
    ensures r.Some? && r.value.BlankMismatch? ==>
      && IsArray(Get(t, "textParts")) && IsArray(Get(t, "answers"))
      && r.value.blanks == CountBlanks(Get(t, "textParts").value.items)
      && r.value.answers == |Get(t, "answers").value.items|
      && r.value.blanks != r.value.answers
  {
    if t.JNull? then Some(NullTask)
    else if !Truthy(Get(t, "id")) || !IsNumber(Get(t, "id")) then Some(BadId)
    else if !Truthy(Get(t, "fullSentence")) || !IsString(Get(t, "fullSentence")) then Some(BadSentence)
    else if !IsArray(Get(t, "textParts")) then Some(BadParts)
    else if !IsArray(Get(t, "answers")) then Some(BadAnswers)
    else
      var blanks := CountBlanks(Get(t, "textParts").value.items);
      var answers := |Get(t, "answers").value.items|;
      if blanks != answers then Some(BlankMismatch(blanks, answers)) else None
  }

  /** The typed view of a task that passed validation. */
  function ToTask(t: Json): (r: Task)
    requires TaskValid(t)
    ensures JNum(r.id) == Get(t, "id").value && r.id != 0
    ensures JStr(r.sentence) == Get(t, "fullSentence").value && r.sentence != ""
    ensures r.parts == Get(t, "textParts").value.items
    ensures r.answers == Get(t, "answers").value.items
    ensures CountBlanks(r.parts) == |r.answers|
  {
    Task(Get(t, "id").value.n, Get(t, "fullSentence").value.s,
         Get(t, "textParts").value.items, Get(t, "answers").value.items)
  }

  /** Validation of the tasks from position `i` on. */
  function ValidateFrom(items: seq<Json>, i: nat): (r: Result<seq<Task>, LoadError>)
    requires i <= |items|
    ensures r.Ok? <==> forall k :: i <= k < |items| ==> TaskValid(items[k])
    ensures r.Ok? ==>
      && |r.value| == |items| - i
      && forall k :: i <= k < |items| ==> TaskValid(items[k]) && r.value[k - i] == ToTask(items[k])
    ensures r.Err? ==>
      && r.error.TaskError?
      && i < r.error.task <= |items|
      && (forall k :: i <= k < r.error.task - 1 ==> TaskValid(items[k]))
      && CheckTask(items[r.error.task - 1]) == Some(r.error.fault)
    decreases |items| - i
  {
    if i == |items| then Ok([])
    else
      match CheckTask(items[i])
      case Some(f) => Err(TaskError(i + 1, f))
      case None =>
        var rest := ValidateFrom(items, i + 1);
        if rest.Err? then rest else Ok([ToTask(items[i])] + rest.value)
  }

  /** `validateTasksData`: the file must be a non-empty array of valid tasks. */
  function Validate(data: Json): (r: Result<seq<Task>, LoadError>)
    ensures r.Ok? <==> data.JArr? && |data.items| > 0 && forall k :: 0 <= k < |data.items| ==> TaskValid(data.items[k])
    ensures !data.JArr? ==> r == Err(NotArray)
    ensures data.JArr? && data.items == [] ==> r == Err(EmptyTasks)
    ensures r.Ok? ==> |r.value| == |data.items| && forall k :: 0 <= k < |r.value| ==> r.value[k] == ToTask(data.items[k])
    ensures r.Err? && r.error.TaskError? ==>
      && data.JArr? && 1 <= r.error.task <= |data.items|
      && (forall k :: 0 <= k < r.error.task - 1 ==> TaskValid(data.items[k]))
      && !TaskValid(data.items[r.error.task - 1])
      && CheckTask(data.items[r.error.task - 1]) == Some(r.error.fault)
  {
    if !data.JArr? then Err(NotArray)
    else if data.items == [] then Err(EmptyTasks)
    else ValidateFrom(data.items, 0)
  }

  /** The prefix of every message about one task. */
  const TaskPrefix: string := "Задание "

  /** The head of the not-found message, up to the file name. */
  const NotFoundPrefix: string := "Файл \""

  /** "Задание <n>:" followed by `detail`; the number between the prefix and the colon reads back as `n`. */
  function TaskMessage(n: nat, detail: string): (m: string)
    ensures |m| > |TaskPrefix| && m[..|TaskPrefix|] == TaskPrefix
    ensures exists k :: (|TaskPrefix| < k < |m| && m[k] == ':'
      && Text.AllDigits(m[|TaskPrefix|..k]) && Text.ParseNat(m[|TaskPrefix|..k]) == n)
  {
    var digits := Text.NatToString(n);
    var m := TaskPrefix + digits + ":" + detail;
    Text.ParseNatToString(n);
    var k := |TaskPrefix| + |digits|;
    assert m[|TaskPrefix|..k] == digits && m[k] == ':';
    m
  }

  /** The browser's TypeError for reading `id` of `null`. */
  const NullTaskMessage: string := ['C'] + "annot read properties of null (reading 'id')"

  /**
   * `error.message` as the page shows it. A `null` task fails with the
   * browser's own TypeError, thrown past the validator, so its text has no
   * task number; every other refused task is named by its number.
   */
  function ErrorMessage(e: LoadError): (m: string)
    ensures e.NotFound? ==>
      |m| > |NotFoundPrefix| + |e.filename| && m[|NotFoundPrefix|..|NotFoundPrefix| + |e.filename|] == e.filename
    ensures e.ReadFailed? ==> m == e.message
    ensures e.TaskError? && !e.fault.NullTask? ==>
      && |m| > |TaskPrefix| && m[..|TaskPrefix|] == TaskPrefix
      && exists k :: (|TaskPrefix| < k < |m| && m[k] == ':'
        && Text.AllDigits(m[|TaskPrefix|..k]) && Text.ParseNat(m[|TaskPrefix|..k]) == e.task)
    ensures e.TaskError? && e.fault.NullTask? ==> !(|m| >= |TaskPrefix| && m[..|TaskPrefix|] == TaskPrefix)
  {
    match e
    case NotFound(filename) =>
      var m := NotFoundPrefix + filename + ".json\" не найден";
      assert m[|NotFoundPrefix|..|NotFoundPrefix| + |filename|] == filename;
      m
    case ReadFailed(message) => message
    case NotArray => "Данные должны быть массивом"
    case EmptyTasks => "Массив заданий пуст"
    case TaskError(n, f) =>
      match f
      case NullTask =>
        assert NullTaskMessage[0] != TaskPrefix[0];
        NullTaskMessage
      case BadId => TaskMessage(n, " отсутствует или некорректен id")
      case BadSentence => TaskMessage(n, " отсутствует или некорректен fullSentence")
      case BadParts => TaskMessage(n, " отсутствует или некорректен textParts")
      case BadAnswers => TaskMessage(n, " отсутствует или некорректен answers")
      case BlankMismatch(b, a) =>
        TaskMessage(n, " количество пропусков (" + Text.NatToString(b)
          + ") не соответствует количеству ответов (" + Text.NatToString(a) + ")")
  }

  // -------------------------------------------------------------------- slides

  /** A blank on the slide: its expected answer, whether it is filled, and the letter shown in it. */
  datatype Zone = Zone(answer: string, filled: bool, shown: string)

  datatype Piece = Words(text: string) | Blank(zone: Zone)

  /** `element.textContent = v`: `null` clears the text, anything else is `String(v)`. */
  function TextContent(v: Json): string
  {
    if v.JNull? then "" else ToJsString(v)
  }

  /** `dataset.answer = answers[k]`: an index past the end stores the text "undefined". */
  function AnswerText(answers: seq<Json>, k: nat): (r: string)
    ensures k < |answers| ==> r == ToJsString(answers[k])
  {
    ToJsStringOpt(if k < |answers| then Some(answers[k]) else None)
  }

  /** The pieces for `parts`, the first blank taking answer number `first`. */
  function Bind(parts: seq<Json>, answers: seq<Json>, first: nat): (r: seq<Piece>)
    ensures |r| == |parts|
    ensures forall i :: 0 <= i < |parts| ==> (r[i].Blank? <==> IsBlank(parts[i]))
    ensures forall i :: 0 <= i < |parts| && !IsBlank(parts[i]) ==> r[i] == Words(TextContent(parts[i]))
    ensures forall i :: 0 <= i < |parts| && r[i].Blank? ==> !r[i].zone.filled && r[i].zone.shown == ""
  {
    if parts == [] then []
    else if IsBlank(parts[0]) then
      [Blank(Zone(AnswerText(answers, first), false, ""))] + Bind(parts[1..], answers, first + 1)
    else [Words(TextContent(parts[0]))] + Bind(parts[1..], answers, first)
  }

  /** `loadSlide`: the slide of one task, every blank empty. */
  function LoadSlide(t: Task): (r: seq<Piece>)
    ensures |r| == |t.parts|
  {
    Bind(t.parts, t.answers, 0)
  }

  lemma CountBlanksCons(p: Json, rest: seq<Json>)
    ensures CountBlanks([p] + rest) == (if IsBlank(p) then 1 else 0) + CountBlanks(rest)
    decreases |rest|
  {
    if rest != [] {
      var last := rest[|rest| - 1];
      assert ([p] + rest)[..|rest|] == [p] + rest[..|rest| - 1];
      CountBlanksCons(p, rest[..|rest| - 1]);
    } else {
      assert ([p] + rest)[..0] == [];
    }
  }

  /** Blank number k of the slide (counting from 0, left to right) expects answer k. */
  lemma {:induction false} BindInOrder(parts: seq<Json>, answers: seq<Json>, first: nat, i: nat, k: nat)
    requires i < |parts| && IsBlank(parts[i])
    requires k == first + CountBlanks(parts[..i])
    ensures Bind(parts, answers, first)[i].zone.answer == AnswerText(answers, k)
    decreases i
  {
    if i > 0 {
      var next := if IsBlank(parts[0]) then first + 1 else first;
      BindTail(parts, answers, first);
      CountBlanksFront(parts, i);
      BindInOrder(parts[1..], answers, next, i - 1, k);
      assert Bind(parts, answers, first)[i] == Bind(parts[1..], answers, next)[i - 1];
    } else {
      assert parts[..0] == [];
      assert Bind(parts, answers, first)[0] == Blank(Zone(AnswerText(answers, first), false, ""));
    }
  }

  /** The blanks before position `i` are the first part's and those after it up to `i`. */
  lemma CountBlanksFront(parts: seq<Json>, i: nat)
    requires 0 < i <= |parts|
    ensures CountBlanks(parts[..i]) == (if IsBlank(parts[0]) then 1 else 0) + CountBlanks(parts[1..][..i - 1])
  {
    assert parts[..i] == [parts[0]] + parts[1..][..i - 1];
    CountBlanksCons(parts[0], parts[1..][..i - 1]);
  }

  /** After the first part, the binding goes on with the next answer when that part was a blank. */
  lemma BindTail(parts: seq<Json>, answers: seq<Json>, first: nat)
    requires parts != []
    ensures Bind(parts, answers, first)[1..] == Bind(parts[1..], answers, if IsBlank(parts[0]) then first + 1 else first)
  {
  }

  lemma CountBlanksPrefix(parts: seq<Json>, i: nat)
    requires i < |parts| && IsBlank(parts[i])
    ensures CountBlanks(parts[..i]) < CountBlanks(parts)
    decreases |parts|
  {
    if i + 1 < |parts| {
      CountBlanksPrefix(parts[..|parts| - 1], i);
      assert parts[..|parts| - 1][..i] == parts[..i];
    } else {
      assert parts[..|parts| - 1] == parts[..i];
    }
  }

  /**
   * On a validated task every blank gets a real answer: blank number k
   * shows `String(answers[k])`, never "undefined".
   */
  lemma SlideBindsAnswers(t: Task, i: nat)
    requires CountBlanks(t.parts) == |t.answers|
    requires i < |t.parts| && IsBlank(t.parts[i])
    ensures CountBlanks(t.parts[..i]) < |t.answers|
    ensures LoadSlide(t)[i] == Blank(Zone(ToJsString(t.answers[CountBlanks(t.parts[..i])]), false, ""))
  {
    var k := CountBlanks(t.parts[..i]);
    BindInOrder(t.parts, t.answers, 0, i, k);
    CountBlanksPrefix(t.parts, i);
    var piece := LoadSlide(t)[i];
    assert piece.Blank? && piece.zone.answer == AnswerText(t.answers, k);
    assert !piece.zone.filled && piece.zone.shown == "";
  }

  // ---------------------------------------------------------------- matching

  /** A capital of the Latin or the Russian alphabet. */
  predicate IsCapital(c: char)
  {
    'A' <= c <= 'Z' || '\U{410}' <= c <= '\U{42F}' || c == 'Ё'
  }

  /** `toLowerCase` on one character: Latin A–Z, Russian А–Я and Ё; everything else is kept. */
  function LowerChar(c: char): (r: char)
    ensures 'A' <= c <= 'Z' ==> r as int == c as int + 32
    ensures '\U{410}' <= c <= '\U{42F}' ==> r as int == c as int + 32
    ensures c == 'Ё' ==> r == 'ё'
    ensures !('A' <= c <= 'Z') && !('\U{410}' <= c <= '\U{42F}') && c != 'Ё' ==> r == c
    ensures !IsCapital(r)
  {
    if 'A' <= c <= 'Z' then (c as int + 32) as char
    else if '\U{410}' <= c <= '\U{42F}' then (c as int + 32) as char
    else if c == 'Ё' then 'ё'
    else c
  }

  /** Lower case is idempotent: a lowered character lowers to itself. */
  lemma LowerCharIdempotent(c: char)
    ensures LowerChar(LowerChar(c)) == LowerChar(c)
  {
  }

  function Lower(s: string): (r: string)
    ensures |r| == |s| && forall k :: 0 <= k < |s| ==> r[k] == LowerChar(s[k])
  {
    seq(|s|, k requires 0 <= k < |s| => LowerChar(s[k]))
  }

  /** `checkAnswer`: a filled zone ignores the letter; a match ignoring case fills it. */
  function CheckZone(z: Zone, letter: string): (r: Zone)
    ensures r.answer == z.answer
    ensures z.filled ==> r == z
    ensures !z.filled ==> (r.filled <==> Lower(letter) == Lower(z.answer))
    ensures !z.filled && r.filled ==> r.shown == letter
    ensures !r.filled ==> r == z
  {
    if z.filled then z
    else if Lower(letter) == Lower(z.answer) then z.(filled := true, shown := letter)
    else z
  }

  /** Every alphabet card is its own lower case. */
  lemma AlphabetIsLowerCase(card: nat)
    requires card < |Alphabet|
    ensures LowerChar(Alphabet[card]) == Alphabet[card]
  {
  }

  /** A single letter can never fill a blank whose answer has another length. */
  lemma LetterNeedsOneCharAnswer(z: Zone, card: nat)
    requires card < |Alphabet| && !z.filled && |z.answer| != 1
    ensures !CheckZone(z, [Alphabet[card]]).filled
  {
    assert |Lower([Alphabet[card]])| != |Lower(z.answer)|;
  }

  /** An upper-case answer is filled by its lower-case card. */
  lemma CapitalAnswerAccepted(z: Zone, card: nat)
    requires card < |Alphabet| && !z.filled
    requires |z.answer| == 1 && LowerChar(z.answer[0]) == Alphabet[card]
    ensures CheckZone(z, [Alphabet[card]]).filled
  {
    AlphabetIsLowerCase(card);
    assert Lower([Alphabet[card]]) == [Alphabet[card]] == Lower(z.answer);
  }

  // ------------------------------------------------------------------- screen

  /**
   * The exercise: the accepted tasks, the slide index, the slide on show,
   * the picked alphabet card (if a letter is "stuck" to the cursor), the
   * navigation buttons' disabled flags and the slide counter.
   */
  datatype Exercise = Exercise(
    tasks: seq<Task>,
    index: nat,
    slide: seq<Piece>,
    held: Option<nat>,
    prevDisabled: bool,
    nextDisabled: bool,
    counter: string)

  /** Before any file is loaded. */
  const Empty: Exercise := Exercise([], 0, [], None, false, false, "")

  /** `updateNavigation`. */
  function UpdateNavigation(e: Exercise): (r: Exercise)
    ensures r.prevDisabled <==> e.index == 0
    ensures r.nextDisabled <==> e.index + 1 == |e.tasks|
    ensures r.counter == Text.NatToString(e.index + 1) + " / " + Text.NatToString(|e.tasks|)
    ensures r == e.(prevDisabled := r.prevDisabled, nextDisabled := r.nextDisabled, counter := r.counter)
  {
    e.(prevDisabled := e.index == 0,
       nextDisabled := e.index == |e.tasks| - 1,
       counter := Text.NatToString(e.index + 1) + " / " + Text.NatToString(|e.tasks|))
  }

  /** The counter reads back as the slide number, then the number of tasks. */
  lemma CounterReadsBack(e: Exercise)
    ensures var c := UpdateNavigation(e).counter;
      exists k :: 0 < k && k + 3 < |c| && c[k..k + 3] == " / "
        && Text.AllDigits(c[..k]) && Text.ParseNat(c[..k]) == e.index + 1
        && Text.AllDigits(c[k + 3..]) && Text.ParseNat(c[k + 3..]) == |e.tasks|
  {
    var a, b := Text.NatToString(e.index + 1), Text.NatToString(|e.tasks|);
    var c := UpdateNavigation(e).counter;
    Text.ParseNatToString(e.index + 1);
    Text.ParseNatToString(|e.tasks|);
    assert c == a + " / " + b;
    assert c[..|a|] == a && c[|a|..|a| + 3] == " / " && c[|a| + 3..] == b;
  }

  /** `loadSlide(index)` followed by its `updateNavigation`. */
  function ShowSlide(e: Exercise): (r: Exercise)
    requires e.index < |e.tasks|
    ensures r.slide == LoadSlide(e.tasks[e.index])
    ensures r.tasks == e.tasks && r.index == e.index && r.held == e.held
    ensures (r.prevDisabled <==> e.index == 0) && (r.nextDisabled <==> e.index + 1 == |e.tasks|)
    ensures r.counter == Text.NatToString(e.index + 1) + " / " + Text.NatToString(|e.tasks|)
  {
    UpdateNavigation(e.(slide := LoadSlide(e.tasks[e.index])))
  }

  /** `slide` is `plain` with some of its blanks filled in. */
  predicate Fits(slide: seq<Piece>, plain: seq<Piece>)
  {
    && |slide| == |plain|
    && forall i :: 0 <= i < |plain| ==>
      && (plain[i].Words? ==> slide[i] == plain[i])
      && (plain[i].Blank? ==>
        && slide[i].Blank? && slide[i].zone.answer == plain[i].zone.answer
        && (!slide[i].zone.filled ==> slide[i].zone.shown == ""))
  }

  /**
   * The exercise's invariant: the index names a task, the slide is that
   * task's slide with some blanks filled, the buttons and the counter agree
   * with the index, and a picked card is an alphabet card.
   */
  ghost predicate Consistent(e: Exercise)
  {
    && (e.held.Some? ==> e.held.value < |Alphabet|)
    && (e.tasks == [] ==> e.index == 0 && e.slide == [])
    && (e.tasks != [] ==>
      && e.index < |e.tasks|
      && Fits(e.slide, LoadSlide(e.tasks[e.index]))
      && (e.prevDisabled <==> e.index == 0)
      && (e.nextDisabled <==> e.index == |e.tasks| - 1)
      && e.counter == Text.NatToString(e.index + 1) + " / " + Text.NatToString(|e.tasks|))
  }

  lemma FreshFits(t: Task)
    ensures Fits(LoadSlide(t), LoadSlide(t))
  {
  }

  /** What the fetch of `filename.json` produced. */
  datatype Fetched = NotOk | Failed(message: string) | Parsed(data: Json)

  /** `initApp(filename)` once the fetch has settled. */
  function Load(e: Exercise, filename: string, fetched: Fetched): (r: (Exercise, Result<(), LoadError>))
    ensures fetched.NotOk? ==> r == (e, Err(NotFound(filename)))
    ensures fetched.Failed? ==> r == (e, Err(ReadFailed(fetched.message)))
    ensures fetched.Parsed? && Validate(fetched.data).Err? ==> r == (e, Err(Validate(fetched.data).error))
    ensures r.1.Ok? <==> fetched.Parsed? && Validate(fetched.data).Ok?
    ensures r.1.Ok? ==>
      && r.0.tasks == Validate(fetched.data).value && r.0.tasks != []
      && r.0.index == 0 && r.0.held == e.held
      && r.0.slide == LoadSlide(r.0.tasks[0])
      && r.0.prevDisabled
  {
    match fetched
    case NotOk => (e, Err(NotFound(filename)))
    case Failed(message) => (e, Err(ReadFailed(message)))
    case Parsed(data) =>
      match Validate(data)
      case Err(err) => (e, Err(err))
      case Ok(tasks) => (ShowSlide(e.(tasks := tasks, index := 0)), Ok(()))
  }

  /** The previous-slide button. */
  function Prev(e: Exercise): (r: Exercise)
    requires e.index < |e.tasks| || e.index == 0
    ensures e.index > 0 ==> r.index == e.index - 1 && r.slide == LoadSlide(e.tasks[r.index])
    ensures e.index == 0 ==> r == e
    ensures r.tasks == e.tasks && r.held == e.held
  {
    if e.index > 0 then ShowSlide(e.(index := e.index - 1)) else e
  }

  /** The next-slide button. */
  function Next(e: Exercise): (r: Exercise)
    requires e.index < |e.tasks| || e.index == 0
    ensures e.index + 1 < |e.tasks| ==> r.index == e.index + 1 && r.slide == LoadSlide(e.tasks[r.index])
    ensures e.index + 1 >= |e.tasks| ==> r == e
    ensures r.tasks == e.tasks && r.held == e.held
  {
    if e.index + 1 < |e.tasks| then ShowSlide(e.(index := e.index + 1)) else e
  }

  /** `handleLetterClick`: with a letter already picked the click only cancels; otherwise it picks `card`. */
  function LetterClick(e: Exercise, card: nat): (r: Exercise)
    requires card < |Alphabet|
    ensures e.held.Some? ==> r == e.(held := None) && r.held.None?
    ensures e.held.None? ==> r == e.(held := Some(card))
  {
    if e.held.Some? then Cancel(e) else e.(held := Some(card))
  }

  /** `cancelDragging`. */
  function Cancel(e: Exercise): (r: Exercise)
    ensures r.held.None? && r == e.(held := None)
  {
    e.(held := None)
  }

  /** `handleDropZoneClick` on the blank at position `p`: check the picked letter against it, then cancel. */
  function ZoneClick(e: Exercise, p: nat): (r: Exercise)
    requires p < |e.slide| && e.slide[p].Blank?
    requires e.held.Some? ==> e.held.value < |Alphabet|
    ensures e.held.None? ==> r == e
    ensures r.held.None?
    ensures |r.slide| == |e.slide|
    ensures forall i :: 0 <= i < |e.slide| && i != p ==> r.slide[i] == e.slide[i]
    ensures e.held.Some? ==> r.slide[p] == Blank(CheckZone(e.slide[p].zone, [Alphabet[e.held.value]]))
    ensures r.tasks == e.tasks && r.index == e.index
  {
    if e.held.None? then e
    else
      var letter := [Alphabet[e.held.value]];
      Cancel(e.(slide := e.slide[p := Blank(CheckZone(e.slide[p].zone, letter))]))
  }

  /** A second letter click drops the picked letter instead of switching to the new one. */
  lemma LetterClickTwiceReleases(e: Exercise, first: nat, second: nat)
    requires e.held.None? && first < |Alphabet| && second < |Alphabet|
    ensures LetterClick(e, first).held == Some(first)
    ensures LetterClick(LetterClick(e, first), second) == e
  {
  }

  lemma EmptyConsistent()
    ensures Consistent(Empty)
  {
  }

  lemma LoadKeepsConsistent(e: Exercise, filename: string, fetched: Fetched)
    requires Consistent(e)
    ensures Consistent(Load(e, filename, fetched).0)
  {
    if fetched.Parsed? && Validate(fetched.data).Ok? {
      var tasks := Validate(fetched.data).value;
      ShowSlideConsistent(e.(tasks := tasks, index := 0));
      assert Load(e, filename, fetched).0 == ShowSlide(e.(tasks := tasks, index := 0));
    } else {
      assert Load(e, filename, fetched).0 == e;
    }
  }

  /** Showing any task's fresh slide, with a held card from the alphabet, is consistent. */
  lemma ShowSlideConsistent(e: Exercise)
    requires e.index < |e.tasks| && (e.held.Some? ==> e.held.value < |Alphabet|)
    ensures Consistent(ShowSlide(e))
  {
    FreshFits(e.tasks[e.index]);
  }

  /** The index stays within the tasks, and the buttons disable exactly at the ends. */
  lemma PrevKeepsConsistent(e: Exercise)
    requires Consistent(e)
    ensures Consistent(Prev(e))
  {
    if e.index > 0 {
      ShowSlideConsistent(e.(index := e.index - 1));
    }
  }

  lemma NextKeepsConsistent(e: Exercise)
    requires Consistent(e)
    ensures Consistent(Next(e))
  {
    if e.index + 1 < |e.tasks| {
      ShowSlideConsistent(e.(index := e.index + 1));
    }
  }

  lemma LetterClickKeepsConsistent(e: Exercise, card: nat)
    requires Consistent(e) && card < |Alphabet|
    ensures Consistent(LetterClick(e, card))
  {
  }

  lemma ZoneClickKeepsConsistent(e: Exercise, p: nat)
    requires Consistent(e) && p < |e.slide| && e.slide[p].Blank?
    ensures Consistent(ZoneClick(e, p))
  {
    var r := ZoneClick(e, p);
    if e.held.Some? {
      var plain := LoadSlide(e.tasks[e.index]);
      forall i | 0 <= i < |plain|
        ensures plain[i].Words? ==> r.slide[i] == plain[i]
        ensures plain[i].Blank? ==>
          && r.slide[i].Blank? && r.slide[i].zone.answer == plain[i].zone.answer
          && (!r.slide[i].zone.filled ==> r.slide[i].zone.shown == "")
      {
        if i != p {
          assert r.slide[i] == e.slide[i];
        }
      }
    }
  }

  /** A filled blank stays filled and keeps its letter, whatever is clicked next. */
  lemma FilledZoneIsFinal(e: Exercise, p: nat, q: nat)
    requires p < |e.slide| && e.slide[p].Blank? && e.slide[p].zone.filled
    requires q < |e.slide| && e.slide[q].Blank?
    requires e.held.Some? ==> e.held.value < |Alphabet|
    ensures ZoneClick(e, q).slide[p] == e.slide[p]
  {
  }
}

=== FILE: memory_pairs.dfy ===
/**
 * The memory game: face-down cards are turned two at a time; a pair with
 * the same `framework` stays face up and stops listening for clicks, a
 * mismatch counts a mistake and turns both back after a pause. The game
 * ends when every pair is found.
 */
module MemoryPairs {
  import opened Wrappers
  import Text

  /** A card: its `data-framework`, whether it shows the `flip` class and whether it still listens for clicks. */
  datatype Card = Card(framework: string, flipped: bool, listening: bool)

  datatype Results = Results(seconds: nat, mistakes: nat)

  datatype Board = Board(
    cards: seq<Card>,
    hasFlipped: bool,        // hasFlippedCard
    locked: bool,            // lockBoard
    first: Option<nat>,      // firstCard
    second: Option<nat>,     // secondCard
    mistakes: nat,
    elapsed: nat,            // timeElapsed, in seconds
    timerSet: bool,          // `timer` holds an interval id
    ticking: bool,           // that interval has not been cleared
    matches: nat,            // matchesFound
    timerText: string,
    results: Option<Results>)

  function TimerText(seconds: nat): string
  {
    "Время: " + Text.NatToString(seconds) + "s"
  }

  /** The page as loaded: every card face down and listening. */
  function Initial(frameworks: seq<string>): (b: Board)
    ensures |b.cards| == |frameworks|
    ensures forall i :: 0 <= i < |b.cards| ==> b.cards[i] == Card(frameworks[i], false, true)
  {
    Board(seq(|frameworks|, i requires 0 <= i < |frameworks| => Card(frameworks[i], false, true)),
          false, false, None, None, 0, 0, false, false, 0, TimerText(0), None)
  }

  /** `resetBoard`. */
  function ResetBoard(b: Board): (r: Board)
    ensures !r.hasFlipped && !r.locked && r.first.None? && r.second.None?
    ensures r == b.(hasFlipped := false, locked := false, first := None, second := None)
  {
    b.(hasFlipped := false, locked := false, first := None, second := None)
  }

  /** `startTimer`: a second interval is never started while `timer` is set. */
  function StartTimer(b: Board): (r: Board)
    ensures b.timerSet ==> r == b
    ensures !b.timerSet ==> r == b.(timerSet := true, ticking := true)
  {
    if b.timerSet then b else b.(timerSet := true, ticking := true)
  }

  /** One second of the interval. */
  function Tick(b: Board): (r: Board)
    ensures b.ticking ==> r.elapsed == b.elapsed + 1 && r.timerText == TimerText(r.elapsed)
    ensures !b.ticking ==> r == b
  {
    if b.ticking then b.(elapsed := b.elapsed + 1, timerText := TimerText(b.elapsed + 1)) else b
  }

  /** `endGame`: the interval stops and the results show the time and the mistakes. */
  function EndGame(b: Board): (r: Board)
    ensures !r.ticking && r.results == Some(Results(b.elapsed, b.mistakes))
    ensures r.cards == b.cards && r.matches == b.matches && r.mistakes == b.mistakes
  {
    b.(ticking := false, results := Some(Results(b.elapsed, b.mistakes)))
  }

  /** `disableCards`: both cards stop listening, one more match, the end when every pair is found. */
  function DisableCards(b: Board, i: nat, j: nat): (r: Board)
    requires i < |b.cards| && j < |b.cards|
    ensures r.matches == b.matches + 1 && |r.cards| == |b.cards|
    ensures !r.cards[i].listening && !r.cards[j].listening
    ensures r.results.Some? <==> b.results.Some? || 2 * r.matches == |b.cards|
    ensures !r.hasFlipped && !r.locked && r.first.None? && r.second.None?
  {
    var cards := b.cards[i := b.cards[i].(listening := false)];
    var cards := cards[j := cards[j].(listening := false)];
    var b1 := b.(cards := cards, matches := b.matches + 1);
    // `matchesFound === totalPairs` with `totalPairs = cards.length / 2`
    var b2 := if 2 * b1.matches == |b.cards| then EndGame(b1) else b1;
    ResetBoard(b2)
  }

  /** `unflipCards`: a mistake is counted and the board locked until the pause ends. */
  function UnflipCards(b: Board): (r: Board)
    ensures r == b.(locked := true, mistakes := b.mistakes + 1)
  {
    b.(locked := true, mistakes := b.mistakes + 1)
  }

  /** `checkForMatch` for the two turned cards. */
  predicate IsMatch(b: Board, i: nat, j: nat)
    requires i < |b.cards| && j < |b.cards|
  {
    b.cards[i].framework == b.cards[j].framework
  }

  /**
   * `flipCard` on card i. Nothing happens for a card that no longer
   * listens, while the board is locked, or on the card already turned
   * first; otherwise the card turns, and the second turned card is
   * compared with the first.
   */
  function Flip(b: Board, i: nat): (r: Board)
    requires i < |b.cards|
    requires b.first.Some? ==> b.first.value < |b.cards|
    ensures !b.cards[i].listening || b.locked || b.first == Some(i) ==> r == b
    ensures b.cards[i].listening && !b.locked && b.first != Some(i) && !b.hasFlipped ==>
      r == StartTimer(b.(cards := b.cards[i := b.cards[i].(flipped := true)], hasFlipped := true, first := Some(i)))
    ensures b.cards[i].listening && !b.locked && b.first != Some(i) && b.hasFlipped && b.first.Some? ==>
      var turned := b.(cards := b.cards[i := b.cards[i].(flipped := true)], second := Some(i));
      r == if IsMatch(turned, b.first.value, i) then DisableCards(turned, b.first.value, i) else UnflipCards(turned)
  {
    if !b.cards[i].listening || b.locked || b.first == Some(i) then b
    else
      var turned := b.(cards := b.cards[i := b.cards[i].(flipped := true)]);
      if !b.hasFlipped then StartTimer(turned.(hasFlipped := true, first := Some(i)))
      else if b.first.None? then turned.(second := Some(i)) // `firstCard.dataset` of null throws
      else
        var turned := turned.(second := Some(i));
        if IsMatch(turned, b.first.value, i) then DisableCards(turned, b.first.value, i)
        else UnflipCards(turned)
  }

  /** The 900 ms pause after a mismatch: both cards turn back and the board is reset. */
  function UnflipFired(b: Board): (r: Board)
    requires b.first.Some? ==> b.first.value < |b.cards|
    requires b.second.Some? ==> b.second.value < |b.cards|
    ensures |r.cards| == |b.cards|
    ensures b.first.Some? && b.second.Some? ==>
      && !r.cards[b.first.value].flipped && !r.cards[b.second.value].flipped
      && !r.locked && !r.hasFlipped && r.first.None? && r.second.None?
      && r.mistakes == b.mistakes && r.matches == b.matches
  {
    if b.first.None? || b.second.None? then b // reading `classList` of null throws
    else
      var cards := b.cards[b.first.value := b.cards[b.first.value].(flipped := false)];
      var cards := cards[b.second.value := cards[b.second.value].(flipped := false)];
      ResetBoard(b.(cards := cards))
  }

  /** `restartGame`, behind the button of the results screen. */
  function Restart(b: Board): (r: Board)
    ensures b.results.None? ==> r == b
    ensures b.results.Some? ==>
      && r.matches == 0 && r.mistakes == 0 && r.elapsed == 0 && !r.timerSet && r.results.None?
      && |r.cards| == |b.cards|
      && (forall k :: 0 <= k < |r.cards| ==>
            r.cards[k] == Card(b.cards[k].framework, false, true))
  {
    if b.results.None? then b
    else
      b.(matches := 0, mistakes := 0, elapsed := 0, timerSet := false, timerText := TimerText(0), results := None,
         cards := seq(|b.cards|, k requires 0 <= k < |b.cards| => Card(b.cards[k].framework, false, true)))
  }

  // ------------------------------------------------------------------ lemmas

  /** The number of cards that no longer listen: the cards of found pairs. */
  function CountMatched(cards: seq<Card>): (n: nat)
    ensures n <= |cards|
  {
    if cards == [] then 0 else CountMatched(cards[..|cards| - 1]) + (if cards[|cards| - 1].listening then 0 else 1)
  }

  lemma {:induction false} CountMatchedDisable(cards: seq<Card>, i: nat, c: Card)
    requires i < |cards| && cards[i].listening && !c.listening
    ensures CountMatched(cards[i := c]) == CountMatched(cards) + 1
    decreases |cards|
  {
    var n := |cards| - 1;
    if i < n {
      assert cards[i := c][..n] == cards[..n][i := c];
      CountMatchedDisable(cards[..n], i, c);
    } else {
      assert cards[i := c][..n] == cards[..n];
    }
  }

  lemma {:induction false} CountMatchedSame(cards: seq<Card>, i: nat, c: Card)
    requires i < |cards| && cards[i].listening == c.listening
    ensures CountMatched(cards[i := c]) == CountMatched(cards)
    decreases |cards|
  {
    var n := |cards| - 1;
    if i < n {
      assert cards[i := c][..n] == cards[..n][i := c];
      CountMatchedSame(cards[..n], i, c);
    } else {
      assert cards[i := c][..n] == cards[..n];
    }
  }

  lemma {:induction false} AllListening(cards: seq<Card>)
    requires forall k :: 0 <= k < |cards| ==> cards[k].listening
    ensures CountMatched(cards) == 0
    decreases |cards|
  {
    if cards != [] {
      AllListening(cards[..|cards| - 1]);
    }
  }

  /** When every card counts as matched, none listens. */
  lemma {:induction false} AllMatched(cards: seq<Card>)
    requires CountMatched(cards) == |cards|
    ensures forall k :: 0 <= k < |cards| ==> !cards[k].listening
    decreases |cards|
  {
    if cards != [] {
      var n := |cards| - 1;
      AllMatched(cards[..n]);
      forall k | 0 <= k < |cards| ensures !cards[k].listening {
        if k < n {
          assert cards[..n][k] == cards[k];
        }
      }
    }
  }

  predicate InRange(b: Board)
  {
    && (b.first.Some? ==> b.first.value < |b.cards|)
    && (b.second.Some? ==> b.second.value < |b.cards|)
  }

  /**
   * The board's invariant: a turn holds at most two listening cards, the
   * second only while the board is locked on a mismatch; the face-up cards
   * are the found ones plus those of the turn; and the found cards are
   * twice the matches.
   */
  ghost predicate Consistent(b: Board)
  {
    && InRange(b)
    && (b.hasFlipped <==> b.first.Some?)
    && (b.locked <==> b.second.Some?)
    && (b.second.Some? ==>
          && b.first.Some? && b.first.value != b.second.value
          && b.cards[b.first.value].framework != b.cards[b.second.value].framework)
    && (b.first.Some? ==> b.cards[b.first.value].listening)
    && (b.second.Some? ==> b.cards[b.second.value].listening)
    && (forall k :: 0 <= k < |b.cards| ==>
          (b.cards[k].flipped <==> !b.cards[k].listening || b.first == Some(k) || b.second == Some(k)))
    && CountMatched(b.cards) == 2 * b.matches
    && (b.results.Some? <==> 2 * b.matches == |b.cards|)
  }

  lemma InitialConsistent(frameworks: seq<string>)
    requires |frameworks| > 0
    ensures Consistent(Initial(frameworks))
  {
    AllListening(Initial(frameworks).cards);
  }

  lemma FlipKeepsConsistent(b: Board, i: nat)
    requires Consistent(b) && i < |b.cards|
    ensures Consistent(Flip(b, i))
  {
    if b.cards[i].listening && !b.locked && b.first != Some(i) {
      if !b.hasFlipped {
        FirstFlipConsistent(b, i);
      } else if IsMatch(b, b.first.value, i) {
        MatchConsistent(b, i);
      } else {
        MismatchConsistent(b, i);
      }
    }
  }

  /** Turning the first card of a turn. */
  lemma FirstFlipConsistent(b: Board, i: nat)
    requires Consistent(b) && i < |b.cards|
    requires b.cards[i].listening && !b.locked && !b.hasFlipped
    ensures Consistent(Flip(b, i))
  {
    var cards := b.cards[i := b.cards[i].(flipped := true)];
    CountMatchedSame(b.cards, i, b.cards[i].(flipped := true));
    var r := Flip(b, i);
    assert r == StartTimer(b.(cards := cards, hasFlipped := true, first := Some(i)));
    assert r.cards == cards && r.first == Some(i) && r.second.None? && r.hasFlipped && !r.locked;
    assert r.matches == b.matches && r.results == b.results;
  }

  /** Turning the second card of a pair: both stop listening and the match is counted. */
  lemma MatchConsistent(b: Board, i: nat)
    requires Consistent(b) && i < |b.cards|
    requires b.cards[i].listening && !b.locked && b.first != Some(i) && b.hasFlipped
    requires IsMatch(b, b.first.value, i)
    ensures Consistent(Flip(b, i))
  {
    var j := b.first.value;
    var t := b.(cards := b.cards[i := b.cards[i].(flipped := true)], second := Some(i));
    CountMatchedSame(b.cards, i, b.cards[i].(flipped := true));
    var c1 := t.cards[j := t.cards[j].(listening := false)];
    CountMatchedDisable(t.cards, j, t.cards[j].(listening := false));
    CountMatchedDisable(c1, i, c1[i].(listening := false));
    var r := Flip(b, i);
    assert r == DisableCards(t, j, i);
    assert r.cards == c1[i := c1[i].(listening := false)];
  }

  /** Turning the second card of a mismatch: the board locks with both cards up. */
  lemma MismatchConsistent(b: Board, i: nat)
    requires Consistent(b) && i < |b.cards|
    requires b.cards[i].listening && !b.locked && b.first != Some(i) && b.hasFlipped
    requires !IsMatch(b, b.first.value, i)
    ensures Consistent(Flip(b, i))
  {
    var j := b.first.value;
    var cards := b.cards[i := b.cards[i].(flipped := true)];
    CountMatchedSame(b.cards, i, b.cards[i].(flipped := true));
    var r := Flip(b, i);
    assert r == UnflipCards(b.(cards := cards, second := Some(i)));
    assert r.cards == cards && r.first == Some(j) && r.second == Some(i) && r.locked;
  }

  lemma UnflipFiredKeepsConsistent(b: Board)
    requires Consistent(b) && b.locked
    ensures Consistent(UnflipFired(b))
  {
    var i := b.first.value;
    var j := b.second.value;
    var c1 := b.cards[i := b.cards[i].(flipped := false)];
    CountMatchedSame(b.cards, i, b.cards[i].(flipped := false));
    CountMatchedSame(c1, j, c1[j].(flipped := false));
  }

  lemma TickKeepsConsistent(b: Board)
    requires Consistent(b)
    ensures Consistent(Tick(b))
  {
  }

  lemma RestartKeepsConsistent(b: Board)
    requires Consistent(b) && b.results.Some? && |b.cards| > 0
    ensures Consistent(Restart(b))
  {
    AllMatched(b.cards);
    assert b.first.None? && b.second.None?;
    AllListening(Restart(b).cards);
  }

  /** While the board is locked no click changes anything. */
  lemma LockedBoardIgnoresClicks(b: Board, i: nat)
    requires Consistent(b) && b.locked && i < |b.cards|
    ensures Flip(b, i) == b
  {
  }

  /** Clicking the first card of a turn again does nothing. */
  lemma SameCardTwiceIgnored(b: Board, i: nat)
    requires Consistent(b) && i < |b.cards|
    ensures var once := Flip(b, i); once.first == Some(i) ==> Flip(once, i) == once
  {
  }

  /** The game ends exactly when every card has been matched, and then no card listens. */
  lemma EndMeansAllFound(b: Board)
    requires Consistent(b)
    ensures b.results.Some? <==> CountMatched(b.cards) == |b.cards|
    ensures b.results.Some? ==> forall k :: 0 <= k < |b.cards| ==> !b.cards[k].listening && b.cards[k].flipped
  {
    if b.results.Some? {
      AllMatched(b.cards);
    }
  }

  /** A matched card never listens again until a restart. */
  lemma MatchedStaysMatched(b: Board, i: nat, k: nat)
    requires Consistent(b) && i < |b.cards| && k < |b.cards| && !b.cards[k].listening
    ensures !Flip(b, i).cards[k].listening && Flip(b, i).cards[k].flipped
    ensures !UnflipFired(b).cards[k].listening
  {
    FlipKeepsConsistent(b, i);
  }

  /**
   * The interval starts once: starting it again changes nothing, and a
   * start never touches the elapsed time.
   */
  lemma TimerStartsOnce(b: Board)
    ensures StartTimer(StartTimer(b)) == StartTimer(b)
    ensures StartTimer(b).timerSet && StartTimer(b).elapsed == b.elapsed
    ensures StartTimer(b).ticking == (b.ticking || !b.timerSet)
  {
  }

  /**
   * The match that finds the last pair ends the game: the clock stops and
   * the results hold the elapsed time and the mistakes made.
   */
  lemma LastPairEndsGame(b: Board, i: nat)
    requires Consistent(b) && i < |b.cards|
    requires b.cards[i].listening && !b.locked && b.hasFlipped && b.first != Some(i)
    requires IsMatch(b, b.first.value, i)
    requires 2 * (b.matches + 1) == |b.cards|
    ensures var r := Flip(b, i);
      && r.results == Some(Results(b.elapsed, b.mistakes)) && !r.ticking
      && r.matches == b.matches + 1 && r.mistakes == b.mistakes
  {
    var t := b.(cards := b.cards[i := b.cards[i].(flipped := true)], second := Some(i));
    assert Flip(b, i) == DisableCards(t, b.first.value, i);
  }

  /** Each mismatch costs one mistake; a match never does. */
  lemma MistakesCountMismatches(b: Board, i: nat)
    requires Consistent(b) && i < |b.cards|
    ensures Flip(b, i).mistakes == b.mistakes + (if Flip(b, i).locked && !b.locked then 1 else 0)
  {
  }
}

=== FILE: number_quiz.dfy ===
/**
 * The number-entry quiz: the pupil types a name, picks a difficulty, and
 * answers up to ten questions by building the answer on an on-screen
 * keyboard. Each check shows a feedback screen; a wrong answer may be
 * retried. The results give the score and the time taken as `MM:SS`.
 */
module NumberQuiz {
  import opened Wrappers
  import opened Json
  import Text
  import Numeric

  /** `nextQuestion` stops after this many questions. */
  const QuestionLimit: nat := 10

  /** One question of the file; `answer` is compared with `===`, so only a string can match. */
  datatype Question = Question(question: string, answer: Json)

  datatype Summary = Summary(name: string, level: string, score: string, time: string)

  /**
   * The game. Screens are the four `active` classes, which the source sets
   * and clears independently.
   */
  datatype Game = Game(
    userName: string,
    difficulty: string,
    current: nat,             // currentQuestion
    correct: nat,             // correctAnswers
    wrong: nat,               // wrongAnswers
    startTime: Option<int>,   // milliseconds
    questions: seq<Question>,
    nameField: string,
    input: string,            // the answer field
    startActive: bool,
    taskActive: bool,
    feedbackActive: bool,
    resultsActive: bool,
    lastCorrect: bool,        // which feedback block is displayed
    progress: string,
    timerText: string,
    summary: Option<Summary>)

  const Initial: Game :=
    Game("", "", 0, 0, 0, None, [], "", "", true, false, false, false, false, "", "", None)

  /** `getDifficultyName`. */
  function DifficultyName(difficulty: string): (name: string)
    ensures difficulty == "easy" ==> name == "Лёгкий"
    ensures difficulty == "medium" ==> name == "Средний"
    ensures difficulty == "hard" ==> name == "Сложный"
    ensures name == "" <==> difficulty !in {"easy", "medium", "hard"}
  {
    match difficulty
    case "easy" => "Лёгкий"
    case "medium" => "Средний"
    case "hard" => "Сложный"
    case _ => ""
  }

  /**
   * Elapsed milliseconds as `MM:SS`: the floor of the minutes, and the floor of
   * the seconds' JavaScript remainder by 60, each padded to two characters.
   * A clock that went back gives negative parts.
   */
  function ElapsedText(ms: int): string
  {
    Text.ClockText(ms / 60000, Numeric.JsRem(ms, 60000) / 1000, 2)
  }

  /** Typing into the name field. */
  function TypeName(g: Game, text: string): (r: Game)
    ensures r == g.(nameField := text)
  {
    g.(nameField := text)
  }

  /**
   * `startGame(difficulty)` up to the request for the question file. A
   * name that is empty after trimming only raises an alert; otherwise the
   * name, the difficulty, the question index, both counters and the start
   * time are set.
   */
  function StartGame(g: Game, difficulty: string, now: int): (r: Game)
    ensures Text.AllSpace(g.nameField) ==> r == g
    ensures !Text.AllSpace(g.nameField) ==>
      && r.userName == Text.Trim(g.nameField) && r.userName != ""
      && r.difficulty == difficulty
      && r.current == 0 && r.correct == 0 && r.wrong == 0 && r.startTime == Some(now)
      && r == g.(userName := r.userName, difficulty := difficulty, current := 0, correct := 0,
                 wrong := 0, startTime := Some(now))
  {
    Text.TrimEmptyIff(g.nameField);
    var name := Text.Trim(g.nameField);
    if name == "" then g
    else g.(userName := name, difficulty := difficulty, current := 0, correct := 0, wrong := 0,
            startTime := Some(now))
  }

  /** `showTaskScreen`, without the timer. */
  function ShowTaskScreen(g: Game): (r: Game)
    ensures r.taskActive && !r.startActive && !r.feedbackActive && !r.resultsActive
    ensures r.current == g.current && r.correct == g.correct && r.wrong == g.wrong
    ensures r.input == g.input && r.questions == g.questions && r.startTime == g.startTime
  {
    g.(startActive := false, taskActive := true, feedbackActive := false, resultsActive := false)
  }

  /**
   * Milliseconds from the start to `now`. A date minus `null` is the date's
   * own milliseconds, so with no start recorded it is `now` itself.
   */
  function PlayTime(g: Game, now: int): (ms: int)
    ensures g.startTime.Some? ==> ms + g.startTime.value == now
    ensures g.startTime.None? ==> ms == now
  {
    if g.startTime.Some? then now - g.startTime.value else now
  }

  /** `showResults` at time `now`. */
  function ShowResults(g: Game, now: int): (r: Game)
    ensures r.resultsActive && !r.feedbackActive
    ensures r.startActive == g.startActive && r.taskActive == g.taskActive
    ensures r.summary.Some? && r.summary.value.level == DifficultyName(g.difficulty)
    ensures r.summary.value.score == Text.NatToString(g.correct) + " из " + Text.NatToString(|g.questions|)
    ensures r.summary.value.name == g.userName
    ensures r.summary.value.time == ElapsedText(PlayTime(g, now))
    ensures r.current == g.current && r.correct == g.correct && r.wrong == g.wrong
  {
    var summary := Summary(g.userName, DifficultyName(g.difficulty),
                           Text.NatToString(g.correct) + " из " + Text.NatToString(|g.questions|),
                           ElapsedText(PlayTime(g, now)));
    g.(feedbackActive := false, resultsActive := true, summary := Some(summary))
  }

  /** `loadQuestion`: past the last question it shows the results; otherwise it clears the answer. */
  function LoadQuestion(g: Game, now: int): (r: Game)
    ensures g.current >= |g.questions| ==> r == ShowResults(g, now)
    ensures g.current < |g.questions| ==>
      && r.input == "" && r.resultsActive == g.resultsActive && r.taskActive == g.taskActive
      && r.progress == "Вопрос " + Text.NatToString(g.current + 1) + "/" + Text.NatToString(|g.questions|)
    ensures r.current == g.current && r.correct == g.correct && r.wrong == g.wrong && r.questions == g.questions
  {
    if g.current >= |g.questions| then ShowResults(g, now)
    else g.(input := "",
            progress := "Вопрос " + Text.NatToString(g.current + 1) + "/" + Text.NatToString(|g.questions|))
  }

  /** The question file arrived (`None`: the request or the parse failed, which only alerts). */
  function Fetched(g: Game, data: Option<seq<Question>>, now: int): (r: Game)
    ensures data.None? ==> r == g
    ensures data.Some? ==> r.questions == data.value && r.current == g.current
    ensures data.Some? && g.current < |data.value| ==>
      && r.taskActive && !r.resultsActive && !r.startActive && r.input == ""
      && r.progress == "Вопрос " + Text.NatToString(g.current + 1) + "/" + Text.NatToString(|data.value|)
    ensures data.Some? && g.current >= |data.value| ==> r.resultsActive && r.taskActive
  {
    if data.None? then g else LoadQuestion(ShowTaskScreen(g.(questions := data.value)), now)
  }

  /** `appendToAnswer`. */
  function Append(g: Game, key: string): (r: Game)
    ensures r.input == g.input + key && r == g.(input := r.input)
  {
    g.(input := g.input + key)
  }

  /** `backspace`: `slice(0, -1)`, which leaves an empty answer empty. */
  function Backspace(g: Game): (r: Game)
    ensures g.input == [] ==> r == g
    ensures g.input != [] ==> r.input + [g.input[|g.input| - 1]] == g.input
    ensures r == g.(input := r.input)
  {
    g.(input := if g.input == [] then [] else g.input[..|g.input| - 1])
  }

  /** `resetAnswer`. */
  function ResetAnswer(g: Game): (r: Game)
    ensures r.input == [] && r == g.(input := [])
  {
    g.(input := [])
  }

  /** `userAnswer === correctAnswer` with the trimmed input. */
  predicate Matches(input: string, answer: Json)
  {
    answer == JStr(Text.Trim(input))
  }

  /**
   * `checkAnswer`: exactly one of the counters grows, and the feedback
   * screen replaces the task screen. The question index does not move.
   * Reading the answer of a question past the end throws and changes
   * nothing.
   */
  function CheckAnswer(g: Game): (r: Game)
    ensures g.current >= |g.questions| ==> r == g
    ensures g.current < |g.questions| ==>
      && r.current == g.current
      && (r.lastCorrect <==> Matches(g.input, g.questions[g.current].answer))
      && (r.lastCorrect ==> r.correct == g.correct + 1 && r.wrong == g.wrong)
      && (!r.lastCorrect ==> r.wrong == g.wrong + 1 && r.correct == g.correct)
      && r.feedbackActive && !r.taskActive
      && r == g.(correct := r.correct, wrong := r.wrong, lastCorrect := r.lastCorrect,
                 taskActive := false, feedbackActive := true)
  {
    if g.current >= |g.questions| then g
    else
      var ok := Matches(g.input, g.questions[g.current].answer);
      var g1 := if ok then g.(correct := g.correct + 1) else g.(wrong := g.wrong + 1);
      g1.(lastCorrect := ok, taskActive := false, feedbackActive := true)
  }

  /** `backToQuestion`: the same question again, the typed answer kept. */
  function BackToQuestion(g: Game): (r: Game)
    ensures !r.feedbackActive && r.taskActive
    ensures r == g.(feedbackActive := false, taskActive := true)
  {
    g.(feedbackActive := false, taskActive := true)
  }

  /**
   * `nextQuestion` as written: below the limit it activates the task
   * screen before `loadQuestion` finds there is no question left, so the
   * task screen stays active beside the results.
   */
  function NextAsWritten(g: Game, now: int): (r: Game)
    ensures r.current == g.current + 1
    ensures r.current >= QuestionLimit ==> r.resultsActive
    ensures r.current < QuestionLimit ==> r.taskActive
    ensures r.current < QuestionLimit && r.current < |g.questions| ==> !r.resultsActive && r.input == ""
  {
    var g1 := g.(current := g.current + 1);
    if g1.current < QuestionLimit then LoadQuestion(ShowTaskScreen(g1), now) else ShowResults(g1, now)
  }

  /** `nextQuestion` with the task screen activated only when a question is left. */
  function NextQuestion(g: Game, now: int): (r: Game)
    ensures r.current == g.current + 1 && r.correct == g.correct && r.wrong == g.wrong
    ensures r.current < QuestionLimit && r.current < |g.questions| ==>
      r.taskActive && !r.resultsActive && r.input == ""
    ensures r.current >= QuestionLimit || r.current >= |g.questions| ==>
      r.resultsActive && r.taskActive == g.taskActive
  {
    var g1 := g.(current := g.current + 1);
    if g1.current < QuestionLimit && g1.current < |g.questions| then LoadQuestion(ShowTaskScreen(g1), now)
    else ShowResults(g1, now)
  }

  /** `restartGame`: back to the start screen with the last name in the field; the counters stay until the next start. */
  function RestartGame(g: Game): (r: Game)
    ensures r.startActive && !r.resultsActive && r.nameField == g.userName
    ensures r.correct == g.correct && r.wrong == g.wrong && r.current == g.current
  {
    g.(resultsActive := false, startActive := true, nameField := g.userName)
  }

  /** One tick of `updateTimer`: it writes only while the game has started and the task screen is active. */
  function Tick(g: Game, now: int): (r: Game)
    ensures g.startTime.Some? && g.taskActive ==> r.timerText == ElapsedText(now - g.startTime.value)
    ensures !(g.startTime.Some? && g.taskActive) ==> r == g
  {
    if g.startTime.Some? && g.taskActive then g.(timerText := ElapsedText(now - g.startTime.value)) else g
  }

  // ------------------------------------------------------------------ lemmas

  /** A name made of white space only never starts a game. */
  lemma BlankNameRefused(g: Game, difficulty: string, now: int)
    requires Text.Trim(g.nameField) == ""
    ensures StartGame(g, difficulty, now) == g
  {
    Text.TrimEmptyIff(g.nameField);
  }

  /** A key followed by backspace restores the answer. */
  lemma BackspaceUndoesKey(g: Game, key: char)
    ensures Backspace(Append(g, [key])) == g
  {
    assert (g.input + [key])[..|g.input|] == g.input;
  }

  /** An answer stored as a number in the file can never be matched. */
  lemma NumericAnswerNeverMatches(g: Game)
    requires g.current < |g.questions| && g.questions[g.current].answer.JNum?
    ensures !CheckAnswer(g).lastCorrect && CheckAnswer(g).wrong == g.wrong + 1
  {
  }

  /** Pressing the keys `keys` one after another: the field grows by each key's value in turn. */
  function TypeKeys(g: Game, keys: seq<string>): (r: Game)
    ensures r.input == g.input + Text.Join(keys)
    ensures r == g.(input := r.input)
    decreases |keys|
  {
    if keys == [] then g
    else
      var r := TypeKeys(Append(g, keys[0]), keys[1..]);
      assert (g.input + keys[0]) + Text.Join(keys[1..]) == g.input + (keys[0] + Text.Join(keys[1..]));
      r
  }

  /**
   * Clearing the field, pressing the keys of the answer one by one and
   * checking counts as correct; spaces among the first or last keys do not
   * matter.
   */
  lemma TypedAnswerAccepted(g: Game, keys: seq<string>)
    requires g.current < |g.questions| && g.questions[g.current].answer == JStr(Text.Trim(Text.Join(keys)))
    ensures CheckAnswer(TypeKeys(ResetAnswer(g), keys)).lastCorrect
    ensures CheckAnswer(TypeKeys(ResetAnswer(g), keys)).correct == g.correct + 1
  {
    var a := TypeKeys(ResetAnswer(g), keys);
    assert [] + Text.Join(keys) == Text.Join(keys);
    assert a.input == Text.Join(keys) && a.current == g.current && a.questions == g.questions && a.correct == g.correct;
    assert Matches(a.input, a.questions[a.current].answer);
  }

  /** The name typed last is the one a start takes, trimmed. */
  lemma TypedNameStarts(g: Game, text: string, difficulty: string, now: int)
    requires !Text.AllSpace(text)
    ensures StartGame(TypeName(g, text), difficulty, now).userName == Text.Trim(text)
    ensures StartGame(TypeName(g, text), difficulty, now).startTime == Some(now)
  {
  }

  /** A new round after the results starts under the previous player's name, with the counters cleared. */
  lemma RestartReplaysName(g: Game, difficulty: string, now: int)
    requires !Text.AllSpace(g.userName)
    ensures var r := StartGame(RestartGame(g), difficulty, now);
      && r.userName == Text.Trim(g.userName) && r.difficulty == difficulty
      && r.current == 0 && r.correct == 0 && r.wrong == 0 && r.startTime == Some(now)
  {
  }

  /** The tick due while the feedback shows writes nothing: a check leaves the task screen. */
  lemma TickAfterCheckWritesNothing(g: Game, now: int)
    requires g.current < |g.questions|
    ensures Tick(CheckAnswer(g), now) == CheckAnswer(g)
  {
  }

  /** `k` wrong checks of the same question, each followed by a return to it. */
  function Retry(g: Game, k: nat): Game
    decreases k
  {
    if k == 0 then g else Retry(BackToQuestion(CheckAnswer(g)), k - 1)
  }

  /**
   * Retrying never moves on: after `k` wrong attempts at one question the
   * wrong counter has grown by `k`, however many questions the file has.
   */
  lemma {:induction false} WrongAnswersUnbounded(g: Game, k: nat)
    requires g.current < |g.questions| && !Matches(g.input, g.questions[g.current].answer)
    ensures Retry(g, k).wrong == g.wrong + k
    ensures Retry(g, k).current == g.current && Retry(g, k).correct == g.correct
    decreases k
  {
    if k == 0 {
      assert Retry(g, k) == g;
    } else {
      var g1 := BackToQuestion(CheckAnswer(g));
      WrongRetryStep(g);
      assert g1.questions[g1.current].answer == g.questions[g.current].answer;
      WrongAnswersUnbounded(g1, k - 1);
      var r := Retry(g1, k - 1);
      assert Retry(g, k) == r;
      assert r.wrong == g1.wrong + (k - 1) && g1.wrong == g.wrong + 1;
    }
  }

  /** One wrong attempt and the way back: the same question and input, one more wrong answer. */
  lemma WrongRetryStep(g: Game)
    requires g.current < |g.questions| && !Matches(g.input, g.questions[g.current].answer)
    ensures var g1 := BackToQuestion(CheckAnswer(g));
      && g1.wrong == g.wrong + 1 && g1.correct == g.correct
      && g1.input == g.input && g1.questions == g.questions && g1.current == g.current
  {
    var c := CheckAnswer(g);
    assert c.wrong == g.wrong + 1 && c.correct == g.correct;
  }

  /** The question on screen: the task screen is active without the results. */
  predicate Asking(g: Game)
  {
    g.taskActive && !g.resultsActive
  }

  /** A question is on screen only while its index is below both the limit and the file's length. */
  lemma AtMostTenQuestions(g: Game, now: int)
    ensures Asking(NextQuestion(g, now)) ==>
      NextQuestion(g, now).current < QuestionLimit && NextQuestion(g, now).current < |g.questions|
  {
  }

  /** Finding, as written: a file of fewer than ten questions ends with both the task and the results screen active. */
  lemma ShortFileLeavesTaskActive(g: Game, now: int)
    requires g.current + 1 == |g.questions| < QuestionLimit
    ensures NextAsWritten(g, now).taskActive && NextAsWritten(g, now).resultsActive
  {
  }

  /** Repaired: moving past the last question of a short file leaves only the results (from the feedback screen). */
  lemma ShortFileShowsOnlyResults(g: Game, now: int)
    requires g.current + 1 == |g.questions| < QuestionLimit
    requires g.feedbackActive && !g.taskActive && !g.startActive
    ensures var r := NextQuestion(g, now);
      r.resultsActive && !r.taskActive && !r.feedbackActive && !r.startActive
  {
  }

  /** For a clock that has not gone back, the text reads back as the whole minutes and the whole seconds past them. */
  lemma ElapsedTextReadsBack(ms: nat)
    ensures |ElapsedText(ms)| >= 5 && Text.ReadsAsClock(ElapsedText(ms), ms / 60000, (ms % 60000) / 1000)
  {
    var minutes, seconds := ms / 60000, (ms % 60000) / 1000;
    assert Numeric.JsRem(ms, 60000) / 1000 == seconds < 60;
    Text.ClockTextRoundTrip(minutes, seconds, 2);
    assert |Text.PadZeros(Text.NatToString(minutes), 2)| >= 2;
    assert ElapsedText(ms) == Text.ClockText(minutes, seconds, 2);
  }

  /**
   * A clock that went back shows a minus sign first, and seconds in `-60..0`:
   * the floor of a remainder that JavaScript gives the dividend's sign.
   */
  lemma ElapsedTextWhenClockWentBack(ms: int)
    requires ms < 0
    ensures ElapsedText(ms)[0] == '-'
    ensures -60 <= Numeric.JsRem(ms, 60000) / 1000 <= 0
  {
    Text.ClockTextNegative(ms / 60000, Numeric.JsRem(ms, 60000) / 1000, 2);
  }
}

=== FILE: numeric.dfy ===
/** Integer views of the games' `Math.round` and `Math.floor` arithmetic. */
module Numeric {

  /**
   * `Math.round(num / den)` for a positive denominator: the integer nearest
   * to the quotient, halves rounded up (towards +infinity).
   */
  function RoundHalfUp(num: int, den: nat): (r: int)
    requires den > 0
    ensures 2 * den * r <= 2 * num + den < 2 * den * (r + 1)
  {
    (2 * num + den) / (2 * den)
  }

  /** A whole multiple of the denominator rounds to its exact quotient. */
  lemma RoundHalfUpExact(q: int, den: nat)
    requires den > 0
    ensures RoundHalfUp(den * q, den) == q
  {
    var r := RoundHalfUp(den * q, den);
    if r > q {
      MulMonotone(2 * den, q + 1, r);
      assert false;
    }
    if r < q {
      MulMonotone(2 * den, r + 1, q);
      assert false;
    }
  }

  /**
   * JavaScript's `a % b` for a positive divisor: the remainder takes the sign
   * of the dividend (it truncates towards zero), unlike Dafny's `%`.
   */
  function JsRem(a: int, b: nat): (r: int)
    requires b > 0
    ensures a >= 0 ==> 0 <= r < b
    ensures a < 0 ==> 0 - b < r <= 0
  {
    if a >= 0 then a % b else -((-a) % b)
  }

  /** JavaScript's remainder differs from the dividend by a whole multiple of the divisor, and agrees with `%` on non-negative dividends. */
  lemma JsRemCongruent(a: int, b: nat)
    requires b > 0
    ensures (a - JsRem(a, b)) % b == 0
    ensures a >= 0 ==> JsRem(a, b) == a % b
  {
    if a >= 0 {
      MultipleModZero(b, a / b);
      assert a - JsRem(a, b) == b * (a / b);
    } else {
      MultipleModZero(b, -((-a) / b));
      assert a - JsRem(a, b) == b * -((-a) / b);
    }
  }

  /** A whole multiple of `b` leaves no remainder. */
  lemma MultipleModZero(b: nat, k: int)
    requires b > 0
    ensures (b * k) % b == 0
  {
    var q, m := (b * k) / b, (b * k) % b;
    assert m == b * (k - q);
    if k - q >= 1 {
      MulMonotone(b, 1, k - q);
      assert false;
    } else if k - q <= -1 {
      MulMonotone(b, k - q, -1);
      assert false;
    }
  }

  /** `Math.round((part / whole) * 100)`: a percentage rounded half up. */
  function Percent(part: nat, whole: nat): int
    requires whole > 0
  {
    RoundHalfUp(100 * part, whole)
  }

  /** Multiplying by a non-negative factor keeps the order. */
  lemma MulMonotone(w: nat, x: int, y: int)
    requires x <= y
    ensures w * x <= w * y
  {
    var d := y - x;
    assert w * y == w * x + w * d;
  }

  /** A share of at most the whole is a percentage between 0 and 100. */
  lemma PercentBounds(part: nat, whole: nat)
    requires whole > 0 && part <= whole
    ensures 0 <= Percent(part, whole) <= 100
  {
    var r := Percent(part, whole);
    var w2 := 2 * whole;
    MulMonotone(200, part, whole);
    assert w2 * 101 == 202 * whole;
    if r > 100 {
      MulMonotone(w2, 101, r);
      assert false;
    }
    if r < 0 {
      MulMonotone(w2, r + 1, 0);
      assert false;
    }
  }

  /** The percentage grows with the share. */
  lemma PercentMonotone(a: nat, b: nat, whole: nat)
    requires whole > 0 && a <= b
    ensures Percent(a, whole) <= Percent(b, whole)
  {
    var ra, rb := Percent(a, whole), Percent(b, whole);
    MulMonotone(100, a, b);
    if ra > rb {
      MulMonotone(2 * whole, rb + 1, ra);
      assert false;
    }
  }
}

=== FILE: quiz.dfy ===
/**
 * The multiple-choice quiz: questions are loaded from a JSON file, one
 * question is shown at a time, the first option clicked is the answer, and
 * the result screen gives the score, a percentage and a feedback band.
 */
module Quiz {
  import opened Wrappers
  import opened Json
  import Numeric
  import Text

  /**
   * A question as the quiz reads it. `correct` is the raw `correct` member
   * (None when it is missing): it is both compared with `===` to the chosen
   * index and used as a property key of the option buttons.
   */
  datatype Question = Question(text: string, options: seq<string>, correct: Option<Json>)

  datatype Screen = StartScreen | QuizScreen | ResultScreen

  /** `Math.round(score / length * 100)`: a number, NaN (0/0) or Infinity (k/0). */
  datatype Percentage = Finite(value: int) | NaN | Infinity

  datatype Band = Excellent | Good | TryAgain

  datatype Outcome = Outcome(score: nat, total: nat, percentage: Percentage, band: Band)

  datatype QuizState = QuizState(
    questions: seq<Question>,
    index: nat,               // currentQuestionIndex
    score: nat,
    selected: Option<nat>,    // selectedOption
    completed: bool,          // quizCompleted
    nextHidden: bool,
    screen: Screen,
    outcome: Option<Outcome>,
    highlighted: Option<nat>) // the option button given the `correct` class

  const Initial: QuizState := QuizState([], 0, 0, None, false, true, StartScreen, None, None)

  /** `textContent = value`: `undefined` and `null` show nothing. */
  function Shown(v: Option<Json>): string
  {
    if v.None? || v.value.JNull? then "" else ToJsString(v.value)
  }

  /** How a question object is read by the quiz screen. */
  function ReadQuestion(j: Json): (q: Question)
    ensures q.correct == Get(j, "correct")
    ensures IsArray(Get(j, "options")) ==> |q.options| == |Get(j, "options").value.items|
    ensures !IsArray(Get(j, "options")) ==> q.options == []
  {
    var options := if IsArray(Get(j, "options")) then Get(j, "options").value.items else [];
    Question(Shown(Get(j, "text")),
             seq(|options|, k requires 0 <= k < |options| => Shown(Some(options[k]))),
             Get(j, "correct"))
  }

  /**
   * The index a property key names on the list of option buttons: only the
   * canonical decimal form of a whole number is an index.
   */
  function KeyIndex(key: string): (r: Option<nat>)
    ensures r.Some? ==> Text.NatToString(r.value) == key
  {
    if |key| > 0 && Text.AllDigits(key) && Text.NatToString(Text.ParseNat(key)) == key
    then Some(Text.ParseNat(key)) else None
  }

  /** Every whole number's decimal form names that index. */
  lemma KeyIndexOfNumber(n: nat)
    ensures KeyIndex(Text.NatToString(n)) == Some(n)
  {
    Text.ParseNatToString(n);
  }

  /**
   * `options[currentQuestion.correct]`: the key is `String(correct)`, and a
   * key that names no button gives `undefined`, whose `classList` read throws.
   */
  function MarkedOption(q: Question): (r: Option<nat>)
    ensures r.Some? ==> r.value < |q.options| && KeyIndex(ToJsStringOpt(q.correct)) == r
    ensures r.None? ==> KeyIndex(ToJsStringOpt(q.correct)).None? || KeyIndex(ToJsStringOpt(q.correct)).value >= |q.options|
  {
    var k := KeyIndex(ToJsStringOpt(q.correct));
    if k.Some? && k.value < |q.options| then k else None
  }

  /** `optionIndex === currentQuestion.correct`: only the number itself is equal. */
  predicate IsRightChoice(q: Question, option: nat)
  {
    q.correct == Some(JNum(option))
  }

  /** The test `loadQuestions` makes of the file: `questions` must be a non-empty array. */
  function LoadQuestions(data: Json): (r: Option<seq<Json>>)
    ensures r.Some? <==>
      && Truthy(Get(data, "questions")) && IsArray(Get(data, "questions"))
      && |Get(data, "questions").value.items| > 0
    ensures r.Some? ==> r.value == Get(data, "questions").value.items
  {
    var qs := Get(data, "questions");
    if !Truthy(qs) || !IsArray(qs) || |qs.value.items| == 0 then None else Some(qs.value.items)
  }

  /** `resetState`: no option chosen, the next button hidden and the buttons removed. */
  function ResetState(q: QuizState): (r: QuizState)
    ensures r == q.(selected := None, nextHidden := true, highlighted := None)
  {
    q.(selected := None, nextHidden := true, highlighted := None)
  }

  /**
   * `startQuiz` once the file has been fetched (`None` when the request or
   * the parse failed). The state is reset only after a successful load; a
   * failure only raises an alert.
   */
  function StartQuiz(q: QuizState, data: Option<Json>): (r: QuizState)
    ensures data.None? || LoadQuestions(data.value).None? ==> r == q
    ensures data.Some? && LoadQuestions(data.value).Some? ==>
      && |r.questions| == |LoadQuestions(data.value).value| > 0
      && r.index == 0 && r.score == 0 && !r.completed
      && r.selected.None? && r.nextHidden && r.screen == QuizScreen
  {
    if data.None? then q
    else
      match LoadQuestions(data.value)
      case None => q
      case Some(items) =>
        var questions := seq(|items|, k requires 0 <= k < |items| => ReadQuestion(items[k]));
        ResetState(q.(questions := questions, index := 0, score := 0, completed := false, screen := QuizScreen))
  }

  /**
   * `selectOption`: only the first click on a question counts. The score
   * grows by one when the chosen index is `===` to `correct`, and the button
   * `options[correct]` is marked right. When that key names no button the
   * marking throws, after the choice is recorded and before the score or
   * the next button change.
   */
  function SelectOption(q: QuizState, option: nat): (r: QuizState)
    requires q.screen == QuizScreen && q.index < |q.questions|
    requires option < |q.questions[q.index].options|
    ensures q.selected.Some? ==> r == q
    ensures q.selected.None? ==> r.selected == Some(option)
    ensures q.selected.None? ==>
      var question := q.questions[q.index];
      if MarkedOption(question).Some? then
        && r.score == q.score + (if IsRightChoice(question, option) then 1 else 0)
        && !r.nextHidden && r.highlighted == MarkedOption(question)
        && r == q.(selected := Some(option), score := r.score, nextHidden := false, highlighted := r.highlighted)
      else r == q.(selected := Some(option))
  {
    if q.selected.Some? then q
    else
      var question := q.questions[q.index];
      var marked := MarkedOption(question);
      if marked.None? then q.(selected := Some(option))
      else
        var score := if IsRightChoice(question, option) then q.score + 1 else q.score;
        q.(selected := Some(option), score := score, nextHidden := false, highlighted := marked)
  }

  /**
   * With `correct` a number that indexes an option, the first click scores
   * exactly when it picks that option, the option is marked right and next
   * is revealed.
   */
  lemma NumericIndexScores(q: QuizState, option: nat, c: nat)
    requires q.screen == QuizScreen && q.index < |q.questions| && q.selected.None?
    requires option < |q.questions[q.index].options|
    requires q.questions[q.index].correct == Some(JNum(c)) && c < |q.questions[q.index].options|
    ensures var r := SelectOption(q, option);
      && (r.score == q.score + 1 <==> option == c)
      && (option != c ==> r.score == q.score)
      && r.highlighted == Some(c) && !r.nextHidden
  {
    KeyIndexOfNumber(c);
    assert ToJsStringOpt(Some(JNum(c))) == Text.NatToString(c);
  }

  /**
   * An index written as a string, such as "1", marks its option right and
   * reveals next, but no click can equal it, so the question never scores.
   */
  lemma StringIndexNeverScores(q: QuizState, option: nat, c: nat)
    requires q.screen == QuizScreen && q.index < |q.questions| && q.selected.None?
    requires option < |q.questions[q.index].options|
    requires q.questions[q.index].correct == Some(JStr(Text.NatToString(c))) && c < |q.questions[q.index].options|
    ensures var r := SelectOption(q, option);
      && r.score == q.score && r.highlighted == Some(c) && !r.nextHidden
  {
    KeyIndexOfNumber(c);
  }

  /** The percentage as JavaScript computes it; exact rounding half up for a non-zero length. */
  function PercentageOf(score: nat, total: nat): (p: Percentage)
    ensures total > 0 ==> p == Finite(Numeric.Percent(score, total))
    ensures total == 0 ==> (p.NaN? <==> score == 0) && (p.Infinity? <==> score > 0)
  {
    if total > 0 then Finite(Numeric.Percent(score, total))
    else if score == 0 then NaN
    else Infinity
  }

  /** The feedback text's band: at least 80, at least 50, otherwise. NaN fails both tests. */
  function BandOf(p: Percentage): (b: Band)
    ensures b == Excellent <==> p.Infinity? || (p.Finite? && p.value >= 80)
    ensures b == Good <==> p.Finite? && 50 <= p.value < 80
  {
    match p
    case Finite(v) => if v >= 80 then Excellent else if v >= 50 then Good else TryAgain
    case NaN => TryAgain
    case Infinity => Excellent
  }

  function FeedbackText(b: Band): string
  {
    match b
    case Excellent => "Отличный результат! Вы настоящий эксперт!"
    case Good => "Хороший результат! Еще немного практики и вы станете лучше!"
    case TryAgain => "Попробуйте еще раз! Вы обязательно улучшите свой результат!"
  }

  /** `showResults`. */
  function ShowResults(q: QuizState): (r: QuizState)
    ensures r.completed && r.screen == ResultScreen
    ensures r.outcome == Some(Outcome(q.score, |q.questions|, PercentageOf(q.score, |q.questions|),
                                      BandOf(PercentageOf(q.score, |q.questions|))))
    ensures r.index == q.index && r.score == q.score && r.questions == q.questions
  {
    var p := PercentageOf(q.score, |q.questions|);
    q.(completed := true, screen := ResultScreen, outcome := Some(Outcome(q.score, |q.questions|, p, BandOf(p))))
  }

  /** `showNextQuestion`, behind the next button that an answer reveals. */
  function ShowNextQuestion(q: QuizState): (r: QuizState)
    requires q.screen == QuizScreen && !q.nextHidden
    ensures r.index == q.index + 1 && r.score == q.score
    ensures r.index < |q.questions| ==> r.screen == QuizScreen && r.selected.None? && r.nextHidden && r.completed == q.completed
    ensures r.index >= |q.questions| ==> r.screen == ResultScreen && r.completed
  {
    var q1 := q.(index := q.index + 1);
    if q1.index < |q.questions| then ResetState(q1) else ShowResults(q1)
  }

  /** `restartQuiz`: back to the first question with no score. */
  function RestartQuiz(q: QuizState): (r: QuizState)
    ensures r.index == 0 && r.score == 0 && !r.completed
    ensures r.screen == QuizScreen && r.selected.None? && r.nextHidden
    ensures r.questions == q.questions
  {
    ResetState(q.(index := 0, score := 0, completed := false, screen := QuizScreen))
  }

  /** `goToHome`: the same reset without `resetState`, so the last choice is kept. */
  function GoToHome(q: QuizState): (r: QuizState)
    ensures r.index == 0 && r.score == 0 && !r.completed && r.screen == StartScreen
    ensures r.selected == q.selected && r.nextHidden == q.nextHidden && r.questions == q.questions
  {
    q.(index := 0, score := 0, completed := false, screen := StartScreen)
  }

  // ------------------------------------------------------------------ lemmas

  /**
   * The quiz's invariant: at most one point per question answered so far,
   * the next button shows only after a choice, the quiz screen always has a
   * question and the result screen comes after the last one.
   */
  ghost predicate Sound(q: QuizState)
  {
    && q.score <= q.index + (if q.selected.Some? then 1 else 0)
    && (!q.nextHidden ==> q.selected.Some?)
    && (q.screen == QuizScreen ==> q.index < |q.questions|)
    && (q.screen == ResultScreen ==> q.index == |q.questions| > 0)
  }

  lemma InitialSound()
    ensures Sound(Initial)
  {
  }

  lemma StartQuizKeepsSound(q: QuizState, data: Option<Json>)
    requires Sound(q)
    ensures Sound(StartQuiz(q, data))
  {
  }

  lemma SelectOptionKeepsSound(q: QuizState, option: nat)
    requires Sound(q) && q.screen == QuizScreen && q.index < |q.questions|
    requires option < |q.questions[q.index].options|
    ensures Sound(SelectOption(q, option))
  {
  }

  lemma ShowNextQuestionKeepsSound(q: QuizState)
    requires Sound(q) && q.screen == QuizScreen && !q.nextHidden
    ensures Sound(ShowNextQuestion(q))
  {
  }

  lemma RestartAndHomeKeepSound(q: QuizState)
    requires Sound(q) && |q.questions| > 0
    ensures Sound(RestartQuiz(q)) && Sound(GoToHome(q))
  {
  }

  /** On the result screen the percentage is a whole number between 0 and 100, and so is the band's input. */
  lemma ResultsInRange(q: QuizState)
    requires Sound(q) && q.screen == QuizScreen && !q.nextHidden && q.index + 1 == |q.questions|
    ensures var r := ShowNextQuestion(q);
      && r.outcome.Some? && r.outcome.value.score <= r.outcome.value.total
      && r.outcome.value.percentage.Finite?
      && 0 <= r.outcome.value.percentage.value <= 100
  {
    Numeric.PercentBounds(q.score, |q.questions|);
  }

  /** A higher score never gets a lower band. */
  lemma BandMonotone(a: nat, b: nat, total: nat)
    requires total > 0 && a <= b
    ensures BandOf(PercentageOf(a, total)) == Excellent ==> BandOf(PercentageOf(b, total)) == Excellent
    ensures BandOf(PercentageOf(a, total)) == Good ==> BandOf(PercentageOf(b, total)) != TryAgain
  {
    Numeric.PercentMonotone(a, b, total);
  }

  /** A second click on the same question never changes the score. */
  lemma OnlyFirstClickCounts(q: QuizState, first: nat, second: nat)
    requires q.screen == QuizScreen && q.index < |q.questions| && q.selected.None?
    requires first < |q.questions[q.index].options| && second < |q.questions[q.index].options|
    ensures SelectOption(SelectOption(q, first), second) == SelectOption(q, first)
  {
  }
}

=== FILE: shuffle.dfy ===
/**
 * The Fisher-Yates shuffle the word trainer uses (`shuffleArray`). The random
 * draws are a parameter: `rand(i)` stands for the integer the source computes
 * as `Math.floor(Math.random() * (i + 1))`, reduced into `0..i`.
 */
module Shuffle {

  function Swap<T>(a: seq<T>, i: nat, j: nat): (r: seq<T>)
    requires i < |a| && j < |a|
    ensures |r| == |a| && multiset(r) == multiset(a)
    ensures r[i] == a[j] && r[j] == a[i]
    ensures forall k :: 0 <= k < |a| && k != i && k != j ==> r[k] == a[k]
  {
    a[i := a[j]][j := a[i]]
  }

  /** The loop of `shuffleArray` from position `i` down to 1. */
  function ShuffleDown<T>(a: seq<T>, rand: nat -> nat, i: nat): (r: seq<T>)
    requires i < |a|
    ensures |r| == |a| && multiset(r) == multiset(a)
    decreases i
  {
    if i == 0 then a else ShuffleDown(Swap(a, i, rand(i) % (i + 1)), rand, i - 1)
  }

  /**
   * `shuffleArray(array)`: a fresh sequence holding a permutation of the
   * input (the input itself is an immutable value and is left as it was).
   */
  function Shuffle<T>(a: seq<T>, rand: nat -> nat): (r: seq<T>)
    ensures |r| == |a| && multiset(r) == multiset(a)
  {
    if |a| <= 1 then a else ShuffleDown(a, rand, |a| - 1)
  }

}

=== FILE: text.dfy ===
/**
 * String helpers the games rely on: `Array.prototype.join('')`,
 * `String.prototype.trim`, decimal rendering of non-negative integers and
 * `padStart(width, '0')`.
 */
module Text {

  /** `parts.join('')`: the concatenation of the parts in order. */
  function Join(parts: seq<string>): string
  {
    if parts == [] then "" else parts[0] + Join(parts[1..])
  }

  lemma {:induction false} JoinAppend(a: seq<string>, b: seq<string>)
    ensures Join(a + b) == Join(a) + Join(b)
  {
    if a == [] {
      assert a + b == b;
    } else {
      assert (a + b)[1..] == a[1..] + b;
      JoinAppend(a[1..], b);
    }
  }

  /**
   * The characters JavaScript's `trim` removes: the WhiteSpace and
   * LineTerminator productions of ECMAScript (section 12.2 and 12.3 of
   * ECMA-262).
   */
  predicate IsJsSpace(c: char)
  {
    || c == '\t' || c == '\n' || c == '\U{B}' || c == '\U{C}' || c == '\r'
    || c == ' ' || c == '\U{A0}' || c == '\U{1680}'
    || ('\U{2000}' <= c <= '\U{200A}')
    || c == '\U{2028}' || c == '\U{2029}' || c == '\U{202F}' || c == '\U{205F}'
    || c == '\U{3000}' || c == '\U{FEFF}'
  }

  predicate AllSpace(s: string)
  {
    forall k :: 0 <= k < |s| ==> IsJsSpace(s[k])
  }

  /** The first position at or after `i` that is not white space, or `|s|`. */
  function FirstNonSpace(s: string, i: nat): (k: nat)
    requires i <= |s|
    ensures i <= k <= |s|
    ensures forall j :: i <= j < k ==> IsJsSpace(s[j])
    ensures k < |s| ==> !IsJsSpace(s[k])
    decreases |s| - i
  {
    if i == |s| || !IsJsSpace(s[i]) then i else FirstNonSpace(s, i + 1)
  }

  /** The end of `s[..j]` once its trailing white space is dropped. */
  function EndNonSpace(s: string, j: nat): (k: nat)
    requires j <= |s|
    ensures k <= j
    ensures forall m :: k <= m < j ==> IsJsSpace(s[m])
    ensures k > 0 ==> !IsJsSpace(s[k - 1])
  {
    if j == 0 || !IsJsSpace(s[j - 1]) then j else EndNonSpace(s, j - 1)
  }

  /** `s.trim()`: leading white space is dropped, then trailing white space. */
  function Trim(s: string): string
  {
    var t := s[FirstNonSpace(s, 0)..];
    t[..EndNonSpace(t, |t|)]
  }

  /**
   * The trimmed string is the part of `s` that starts at its first
   * non-space character; everything around it is white space, and it
   * neither starts nor ends with white space.
   */
  lemma TrimIsInfix(s: string)
    ensures var r := Trim(s); var i := FirstNonSpace(s, 0);
      && i + |r| <= |s| && r == s[i..i + |r|]
      && (forall k :: 0 <= k < i ==> IsJsSpace(s[k]))
      && (forall k :: i + |r| <= k < |s| ==> IsJsSpace(s[k]))
      && (r == [] || (!IsJsSpace(r[0]) && !IsJsSpace(r[|r| - 1])))
  {
    var i := FirstNonSpace(s, 0);
    var t := s[i..];
    var j := EndNonSpace(t, |t|);
    assert forall m :: i + j <= m < |s| ==> s[m] == t[m - i];
  }

  /** A string trims to nothing exactly when every character is white space. */
  lemma TrimEmptyIff(s: string)
    ensures Trim(s) == [] <==> AllSpace(s)
  {
    var i := FirstNonSpace(s, 0);
    if i < |s| {
      assert !IsJsSpace(s[i]);
      assert Trim(s) != [] by {
        var t := s[i..];
        assert !IsJsSpace(t[0]);
        assert EndNonSpace(t, |t|) > 0;
      }
    }
  }

  predicate IsDigit(c: char)
  {
    '0' <= c <= '9'
  }

  predicate AllDigits(s: string)
  {
    forall k :: 0 <= k < |s| ==> IsDigit(s[k])
  }

  function DigitChar(d: nat): (c: char)
    requires d < 10
    ensures IsDigit(c)
  {
    "0123456789"[d]
  }

  function DigitValue(c: char): nat
    requires IsDigit(c)
  {
    (c as int - '0' as int) as nat
  }

  /** The base-10 value of a string of digits (leading zeros allowed). */
  function ParseNat(s: string): nat
    requires AllDigits(s)
  {
    if s == [] then 0 else ParseNat(s[..|s| - 1]) * 10 + DigitValue(s[|s| - 1])
  }

  /** `n.toString()` for a non-negative integer: shortest decimal form. */
  function NatToString(n: nat): (r: string)
    ensures |r| >= 1 && AllDigits(r)
    ensures r[0] == '0' ==> n == 0
    ensures n < 10 <==> |r| == 1
  {
    if n < 10 then [DigitChar(n)] else NatToString(n / 10) + [DigitChar(n % 10)]
  }

  /** `n.toString()` for any integer. */
  function IntToString(n: int): string
  {
    if n < 0 then "-" + NatToString(-n) else NatToString(n)
  }

  /** Reading back what `NatToString` wrote gives the number. */
  lemma {:induction false} ParseNatToString(n: nat)
    ensures ParseNat(NatToString(n)) == n
  {
    if n >= 10 {
      var r := NatToString(n);
      assert r[..|r| - 1] == NatToString(n / 10);
      ParseNatToString(n / 10);
    } else {
      assert DigitValue(DigitChar(n)) == n;
    }
  }

  /** `s.padStart(width, '0')`: zeros on the left up to `width` characters. */
  function PadZeros(s: string, width: nat): (r: string)
    ensures |r| == if |s| >= width then |s| else width
    ensures r[|r| - |s|..] == s
    ensures forall k :: 0 <= k < |r| - |s| ==> r[k] == '0'
    decreases width - |s|
  {
    if |s| >= width then s else PadZeros("0" + s, width)
  }

  /** Leading zeros do not change the parsed value. */
  lemma {:induction false} ParseNatLeadingZero(s: string)
    requires AllDigits(s)
    ensures AllDigits("0" + s) && ParseNat("0" + s) == ParseNat(s)
  {
    if s != [] {
      assert ("0" + s)[..|"0" + s| - 1] == "0" + s[..|s| - 1];
      ParseNatLeadingZero(s[..|s| - 1]);
    } else {
      assert ParseNat("0") == ParseNat("") * 10 + DigitValue('0');
    }
  }

  lemma {:induction false} ParseNatPadZeros(s: string, width: nat)
    requires AllDigits(s)
    ensures AllDigits(PadZeros(s, width)) && ParseNat(PadZeros(s, width)) == ParseNat(s)
    decreases width - |s|
  {
    if |s| < width {
      ParseNatLeadingZero(s);
      ParseNatPadZeros("0" + s, width);
    }
  }

  /**
   * A clock reading `M:SS`: `toString()` of the minutes padded with `padStart`
   * to `minuteWidth` characters, a colon, and the seconds padded to two. A
   * negative part keeps its minus sign, so `-1` and `-5` read `-1:-5`.
   */
  function ClockText(minutes: int, seconds: int, minuteWidth: nat): string
  {
    PadZeros(IntToString(minutes), minuteWidth) + ":" + PadZeros(IntToString(seconds), 2)
  }

  /** `t` is a clock reading whose digits before and after the colon read back as `minutes` and `seconds`. */
  predicate ReadsAsClock(t: string, minutes: int, seconds: int)
  {
    && |t| >= 4 && t[|t| - 3] == ':'
    && AllDigits(t[..|t| - 3]) && ParseNat(t[..|t| - 3]) == minutes
    && AllDigits(t[|t| - 2..]) && ParseNat(t[|t| - 2..]) == seconds
  }

  /**
   * For seconds below 60 the reading has a colon three places from the end,
   * and the digits on either side of it read back as the minutes and seconds.
   */
  lemma ClockTextRoundTrip(minutes: nat, seconds: nat, minuteWidth: nat)
    requires seconds < 60
    ensures ReadsAsClock(ClockText(minutes, seconds, minuteWidth), minutes, seconds)
  {
    var m := PadZeros(NatToString(minutes), minuteWidth);
    var sec := PadZeros(NatToString(seconds), 2);
    assert IntToString(minutes) == NatToString(minutes) && IntToString(seconds) == NatToString(seconds);
    TwoDigitsAtMost(seconds);
    ParseNatPadZeros(NatToString(minutes), minuteWidth);
    ParseNatPadZeros(NatToString(seconds), 2);
    ParseNatToString(minutes);
    ParseNatToString(seconds);
    assert |sec| == 2 && |m| >= 1;
    assert AllDigits(m) && ParseNat(m) == minutes;
    assert AllDigits(sec) && ParseNat(sec) == seconds;
    SplitAtColon(m, sec, minutes, seconds);
    assert ClockText(minutes, seconds, minuteWidth) == m + ":" + sec;
  }

  /** Negative minutes show as a reading that starts with a minus sign, whenever the padding is at most two. */
  lemma ClockTextNegative(minutes: int, seconds: int, minuteWidth: nat)
    requires minutes < 0 && minuteWidth <= 2
    ensures ClockText(minutes, seconds, minuteWidth) == IntToString(minutes) + ":" + PadZeros(IntToString(seconds), 2)
    ensures ClockText(minutes, seconds, minuteWidth)[0] == '-'
  {
    var m := IntToString(minutes);
    assert m == "-" + NatToString(-minutes);
    assert |m| >= 2 && m[0] == '-';
    assert PadZeros(m, minuteWidth) == m;
    var r := m + ":" + PadZeros(IntToString(seconds), 2);
    assert ClockText(minutes, seconds, minuteWidth) == r;
    assert r[0] == m[0];
  }

  lemma TwoDigitsAtMost(n: nat)
    requires n < 100
    ensures |NatToString(n)| <= 2
  {
    if n >= 10 {
      assert NatToString(n) == NatToString(n / 10) + [DigitChar(n % 10)];
    }
  }

  lemma SplitAtColon(m: string, sec: string, minutes: nat, seconds: nat)
    requires |sec| == 2 && |m| >= 1
    requires AllDigits(m) && ParseNat(m) == minutes
    requires AllDigits(sec) && ParseNat(sec) == seconds
    ensures var r := m + ":" + sec;
      && |r| >= 4 && r[|r| - 3] == ':'
      && AllDigits(r[..|r| - 3]) && ParseNat(r[..|r| - 3]) == minutes
      && AllDigits(r[|r| - 2..]) && ParseNat(r[|r| - 2..]) == seconds
  {
    var r := m + ":" + sec;
    assert r[..|m|] == m;
    assert r[|m| + 1..] == sec;
  }
}

=== FILE: verb_endings.dfy ===
/**
 * The verb-ending chooser: every word shows its stem and two candidate
 * endings; the pupil selects one ending per word, then checks the whole
 * set at once. Checking marks each answered word right or wrong, counts the
 * score and locks the options until the exercise is reset. Two data files
 * are browsed with next and previous buttons.
 */
module VerbEndings {
  import opened Wrappers
  import Text

  /** `dataFiles.length`. */
  const FileCount: nat := 2

  /** One word of the data: its stem, the two endings and the index of the right one. */
  datatype Word = Word(stem: string, top: string, bottom: string, correctIndex: int)

  /** A row of words as the data file groups them. */
  datatype Row = Row(words: seq<Word>)

  /**
   * One word on screen: the ending carrying the `selected` class, and the
   * marks a check leaves (`correct` or `wrong` on the chosen ending,
   * `missed` on the right one).
   */
  datatype Unit = Unit(word: Word, selected: Option<nat>, correct: Option<nat>, wrong: Option<nat>, missed: Option<int>)

  datatype Chooser = Chooser(
    dataset: nat,          // currentDatasetIndex
    rows: seq<Row>,        // exerciseData
    units: seq<Unit>,      // the word units on screen, in document order
    checked: bool,         // the reset button is visible and the check button hidden
    message: string,
    prevHidden: bool,
    nextHidden: bool,
    counter: string)

  const AnswerAllMessage: string := "Вылучыце канчаткі ва ўсіх словах!"
  const SuccessMessage: string := "Маладзец! Усё правільна! 🎉"

  function ScoreMessage(correct: nat, total: nat): string
  {
    "Вынік: " + Text.NatToString(correct) + " з " + Text.NatToString(total) + ". Паспрабуй яшчэ раз!"
  }

  /** All words of the rows, row by row. */
  function Words(rows: seq<Row>): (ws: seq<Word>)
    ensures rows == [] ==> ws == []
  {
    if rows == [] then [] else Words(rows[..|rows| - 1]) + rows[|rows| - 1].words
  }

  function FreshUnits(ws: seq<Word>): (us: seq<Unit>)
    ensures |us| == |ws|
    ensures forall i :: 0 <= i < |ws| ==> us[i] == Unit(ws[i], None, None, None, None)
  {
    seq(|ws|, i requires 0 <= i < |ws| => Unit(ws[i], None, None, None, None))
  }

  /** `renderExercise`: fresh word units, an empty message and the check phase armed. */
  function Render(c: Chooser): (r: Chooser)
    ensures r.units == FreshUnits(Words(c.rows)) && r.message == "" && !r.checked
    ensures r == c.(units := r.units, message := r.message, checked := r.checked)
  {
    c.(units := FreshUnits(Words(c.rows)), message := "", checked := false)
  }

  /** `updateDatasetInfo`. */
  function UpdateDatasetInfo(c: Chooser): (r: Chooser)
    ensures r.prevHidden <==> c.dataset == 0
    ensures r.nextHidden <==> c.dataset + 1 == FileCount
    ensures r == c.(prevHidden := r.prevHidden, nextHidden := r.nextHidden, counter := r.counter)
  {
    c.(prevHidden := c.dataset == 0,
       nextHidden := c.dataset == FileCount - 1,
       counter := "Набор " + Text.NatToString(c.dataset + 1) + " з " + Text.NatToString(FileCount))
  }

  /**
   * `fetchData` once the file has been read: `Some(rows)` replaces the data
   * and renders it; `None` (a failed request or unreadable JSON) keeps the
   * data and the navigation as they were and replaces the exercise area
   * with an error, so no word is on screen.
   */
  function Fetched(c: Chooser, data: Option<seq<Row>>): (r: Chooser)
    ensures data.Some? ==>
      && r.rows == data.value && r.units == FreshUnits(Words(data.value))
      && r.message == "" && !r.checked
      && (r.prevHidden <==> c.dataset == 0) && (r.nextHidden <==> c.dataset + 1 == FileCount)
    ensures data.None? ==> r == c.(units := [])
    ensures r.dataset == c.dataset
  {
    if data.Some? then Render(UpdateDatasetInfo(c.(rows := data.value))) else c.(units := [])
  }

  /** The page before the first file arrives. */
  const Start: Chooser := Chooser(0, [], [], false, "", false, false, "")

  /** Clicking ending `option` (0 top, 1 bottom) of word `u`. */
  function OptionClick(c: Chooser, u: nat, option: nat): (r: Chooser)
    requires u < |c.units| && option < 2
    ensures c.checked ==> r == c
    ensures !c.checked ==> r == c.(units := c.units[u := c.units[u].(selected := Some(option))])
    ensures !c.checked ==> (Right(r.units[u]) <==> option as int == c.units[u].word.correctIndex)
  {
    if c.checked then c else c.(units := c.units[u := c.units[u].(selected := Some(option))])
  }

  /** Whether word unit `u` counts as right: its selected ending is the right one. */
  predicate Right(u: Unit)
  {
    u.selected.Some? && u.selected.value as int == u.word.correctIndex
  }

  /** The number of right words, counted from the end. */
  function CountRight(us: seq<Unit>): (n: nat)
    ensures n <= |us|
  {
    if us == [] then 0 else CountRight(us[..|us| - 1]) + (if Right(us[|us| - 1]) then 1 else 0)
  }

  /** The result of judging one word unit. */
  datatype Judged = Judged(unit: Unit, right: bool, answered: bool, throws: bool)

  /**
   * One iteration of the check loop. `options[correctIndex]` is undefined
   * when the right index is neither 0 nor 1, and marking it throws after the
   * chosen ending has already been marked wrong.
   */
  function JudgeUnit(u: Unit): (j: Judged)
    ensures j.answered <==> u.selected.Some?
    ensures j.right <==> Right(u)
    ensures j.throws <==> u.selected.Some? && !Right(u) && !(0 <= u.word.correctIndex < 2)
    ensures u.selected.None? ==> j.unit == u
    ensures u.selected.Some? ==> j.unit.selected.None?
    ensures Right(u) ==> j.unit == u.(selected := None, correct := u.selected)
    ensures u.selected.Some? && !Right(u) && !j.throws ==>
      j.unit == u.(selected := None, wrong := u.selected, missed := Some(u.word.correctIndex))
  {
    if u.selected.None? then Judged(u, false, false, false)
    else if Right(u) then Judged(u.(selected := None, correct := u.selected), true, true, false)
    else if 0 <= u.word.correctIndex < 2 then
      Judged(u.(selected := None, wrong := u.selected, missed := Some(u.word.correctIndex)), false, true, false)
    else Judged(u.(selected := None, wrong := u.selected), false, true, true)
  }

  /** What the check loop leaves behind. */
  datatype Tally = Tally(units: seq<Unit>, correct: nat, total: nat, allAnswered: bool, thrown: bool)

  /** The check loop over `us`, in document order, stopping at a throw. */
  function CheckUnits(us: seq<Unit>): (t: Tally)
    ensures |t.units| == |us|
    ensures !t.thrown ==> t.total == |us| && t.correct == CountRight(us)
    ensures t.thrown <==> exists i :: 0 <= i < |us| && JudgeUnit(us[i]).throws
  {
    if us == [] then Tally([], 0, 0, true, false)
    else
      var j := JudgeUnit(us[0]);
      if j.throws then Tally([j.unit] + us[1..], 0, 1, true, true)
      else
        var rest := CheckUnits(us[1..]);
        assert forall i :: 1 <= i < |us| ==> us[1..][i - 1] == us[i];
        CountRightCons(us[0], us[1..]);
        assert us == [us[0]] + us[1..];
        Tally([j.unit] + rest.units, rest.correct + (if j.right then 1 else 0), rest.total + 1,
              j.answered && rest.allAnswered, rest.thrown)
  }

  /**
   * `units` is what the loop leaves when it throws at word `k`: every earlier
   * word judged without a throw, word `k` marked up to the throw, and every
   * later word untouched.
   */
  predicate StopsAt(us: seq<Unit>, units: seq<Unit>, k: nat)
  {
    && k < |us| && |units| == |us| && JudgeUnit(us[k]).throws
    && (forall i :: 0 <= i < k ==> !JudgeUnit(us[i]).throws && units[i] == JudgeUnit(us[i]).unit)
    && units[k] == JudgeUnit(us[k]).unit
    && (forall i :: k < i < |us| ==> units[i] == us[i])
  }

  /** A loop that throws stops at the first word that throws; the marks made so far stay and nothing later changes. */
  lemma {:induction false} CheckUnitsStopsAtThrow(us: seq<Unit>) returns (k: nat)
    requires CheckUnits(us).thrown
    ensures StopsAt(us, CheckUnits(us).units, k)
    decreases |us|
  {
    var j := JudgeUnit(us[0]);
    if j.throws {
      k := 0;
    } else {
      var k' := CheckUnitsStopsAtThrow(us[1..]);
      k := k' + 1;
      assert CheckUnits(us).units == [j.unit] + CheckUnits(us[1..]).units;
      StopsAtCons(us[0], us[1..], CheckUnits(us[1..]).units, k');
      assert [us[0]] + us[1..] == us;
    }
  }

  /** A word judged without a throw, put in front, moves the stopping point one word on. */
  lemma StopsAtCons(u: Unit, us: seq<Unit>, units: seq<Unit>, k: nat)
    requires !JudgeUnit(u).throws && StopsAt(us, units, k)
    ensures StopsAt([u] + us, [JudgeUnit(u).unit] + units, k + 1)
  {
    var us', units' := [u] + us, [JudgeUnit(u).unit] + units;
    assert forall i :: 1 <= i < |us'| ==> us'[i] == us[i - 1] && units'[i] == units[i - 1];
  }

  /** A loop that did not throw reports every word answered exactly when each one has a selected ending. */
  lemma {:induction false} CheckUnitsAnswered(us: seq<Unit>)
    requires !CheckUnits(us).thrown
    ensures CheckUnits(us).allAnswered <==> forall i :: 0 <= i < |us| ==> us[i].selected.Some?
    decreases |us|
  {
    if us != [] {
      CheckUnitsAnswered(us[1..]);
      assert forall i :: 1 <= i < |us| ==> us[1..][i - 1] == us[i];
    }
  }

  /** A loop that did not throw leaves each word marked as judging it alone would. */
  lemma {:induction false} CheckUnitsMarks(us: seq<Unit>)
    requires !CheckUnits(us).thrown
    ensures forall i :: 0 <= i < |us| ==> CheckUnits(us).units[i] == JudgeUnit(us[i]).unit
    decreases |us|
  {
    if us != [] {
      var rest := CheckUnits(us[1..]);
      CheckUnitsMarks(us[1..]);
      assert CheckUnits(us).units == [JudgeUnit(us[0]).unit] + rest.units;
      assert forall i :: 1 <= i < |us| ==> us[1..][i - 1] == us[i];
    }
  }

  lemma {:induction false} CountRightCons(u: Unit, us: seq<Unit>)
    ensures CountRight([u] + us) == (if Right(u) then 1 else 0) + CountRight(us)
    decreases |us|
  {
    if us == [] {
      assert ([u] + us)[..0] == [];
    } else {
      assert ([u] + us)[..|us|] == [u] + us[..|us| - 1];
      CountRightCons(u, us[..|us| - 1]);
    }
  }

  /**
   * The check button. The score counts the words whose selected ending is
   * the right one; the message is the success text exactly when every word
   * on screen is right (the "answer every word" text is always replaced),
   * and an all-right result reveals the next button unless this is the last
   * file. A throw leaves the marks made so far and nothing else.
   */
  function Check(c: Chooser): (r: Chooser)
    ensures var t := CheckUnits(c.units);
      && r.units == t.units
      && (t.thrown ==> r == c.(units := t.units))
      && (!t.thrown ==>
        && r.checked
        && (CountRight(c.units) == |c.units| ==> r.message == SuccessMessage)
        && (CountRight(c.units) < |c.units| ==> r.message == ScoreMessage(CountRight(c.units), |c.units|))
        && (!r.nextHidden <==> !c.nextHidden || (CountRight(c.units) == |c.units| && c.dataset + 1 < FileCount))
        && r == c.(units := t.units, checked := true, message := r.message, nextHidden := r.nextHidden))
  {
    var t := CheckUnits(c.units);
    if t.thrown then c.(units := t.units)
    else
      var message := if t.correct == t.total then SuccessMessage else ScoreMessage(t.correct, t.total);
      var nextHidden := if t.correct == t.total && c.dataset < FileCount - 1 then false else c.nextHidden;
      c.(units := t.units, checked := true, message := message, nextHidden := nextHidden)
  }

  /** The reset button: a fresh render of the same data. */
  function Reset(c: Chooser): (r: Chooser)
    ensures !r.checked && r.message == ""
    ensures |r.units| == |Words(c.rows)|
    ensures forall i :: 0 <= i < |r.units| ==>
      && r.units[i].selected.None? && r.units[i].correct.None?
      && r.units[i].wrong.None? && r.units[i].missed.None?
    ensures r.rows == c.rows && r.dataset == c.dataset
    ensures forall i :: 0 <= i < |r.units| ==> r.units[i].word == Words(c.rows)[i]
  {
    Render(c)
  }

  /** The next-file button; the file then arrives as `data`. */
  function Next(c: Chooser, data: Option<seq<Row>>): (r: Chooser)
    ensures c.dataset + 1 < FileCount ==> r == Fetched(c.(dataset := c.dataset + 1), data)
    ensures c.dataset + 1 >= FileCount ==> r == c
  {
    if c.dataset < FileCount - 1 then Fetched(c.(dataset := c.dataset + 1), data) else c
  }

  /** The previous-file button. */
  function Prev(c: Chooser, data: Option<seq<Row>>): (r: Chooser)
    ensures c.dataset > 0 ==> r == Fetched(c.(dataset := c.dataset - 1), data)
    ensures c.dataset == 0 ==> r == c
  {
    if c.dataset > 0 then Fetched(c.(dataset := c.dataset - 1), data) else c
  }

  // ------------------------------------------------------------------ lemmas

  /** Only the clicked word changes, and a click in the unchecked phase leaves that word with exactly one selected ending. */
  lemma OptionClickSelectsOne(c: Chooser, u: nat, option: nat, v: nat)
    requires u < |c.units| && option < 2 && v < |c.units| && !c.checked
    ensures OptionClick(c, u, option).units[u].selected == Some(option)
    ensures v != u ==> OptionClick(c, u, option).units[v] == c.units[v]
  {
  }

  /** The score never exceeds the number of words, and a full score needs every word answered. */
  lemma ScoreBounded(c: Chooser)
    requires !CheckUnits(c.units).thrown
    ensures CheckUnits(c.units).correct <= CheckUnits(c.units).total == |c.units|
    ensures CheckUnits(c.units).correct == |c.units| ==> CheckUnits(c.units).allAnswered
  {
    var us := c.units;
    CheckUnitsAnswered(us);
    if CountRight(us) == |us| {
      forall i | 0 <= i < |us| ensures us[i].selected.Some? {
        AllRight(us, i);
      }
    }
  }

  lemma {:induction false} AllRight(us: seq<Unit>, i: nat)
    requires CountRight(us) == |us| && i < |us|
    ensures Right(us[i])
    decreases |us|
  {
    var last := us[|us| - 1];
    var init := us[..|us| - 1];
    if !Right(last) {
      assert CountRight(init) <= |init|;
      assert false;
    }
    if i < |us| - 1 {
      if CountRight(init) < |init| {
        assert false;
      }
      AllRight(init, i);
    }
  }

  /** Every word right gives the full score: the converse of `AllRight`. */
  lemma {:induction false} RightCountsFull(us: seq<Unit>)
    requires forall i :: 0 <= i < |us| ==> Right(us[i])
    ensures CountRight(us) == |us|
    decreases |us|
  {
    if us != [] {
      var init := us[..|us| - 1];
      assert Right(us[|us| - 1]);
      assert forall i :: 0 <= i < |init| ==> init[i] == us[i];
      RightCountsFull(init);
    }
  }

  /** The score equals the word count exactly when every word is right. */
  lemma FullScoreIffAllRight(us: seq<Unit>)
    ensures CountRight(us) == |us| <==> forall i :: 0 <= i < |us| ==> Right(us[i])
  {
    if CountRight(us) == |us| {
      forall i | 0 <= i < |us| ensures Right(us[i]) {
        AllRight(us, i);
      }
    } else if forall i :: 0 <= i < |us| ==> Right(us[i]) {
      RightCountsFull(us);
    }
  }

  /** After a reset every ending can be chosen again, and only the words of the same data are on screen. */
  lemma ResetReopensOptions(c: Chooser, u: nat, option: nat)
    requires u < |Words(c.rows)| && option < 2
    ensures u < |Reset(c).units|
    ensures OptionClick(Reset(c), u, option).units[u].selected == Some(option)
  {
  }

  /** With right indices in range, checking never throws. */
  lemma CheckNeverThrowsOnGoodData(c: Chooser)
    requires forall i :: 0 <= i < |c.units| ==> 0 <= c.units[i].word.correctIndex < 2
    ensures !CheckUnits(c.units).thrown
    ensures Check(c).checked
  {
  }

  /** Once checked, option clicks change nothing until reset. */
  lemma CheckedLocksOptions(c: Chooser, u: nat, option: nat)
    requires !CheckUnits(c.units).thrown
    requires u < |Check(c).units| && option < 2
    ensures OptionClick(Check(c), u, option) == Check(c)
  {
  }

  /** A wrong answer marks the chosen ending wrong and the right ending missed. */
  lemma WrongMarksMissed(c: Chooser, i: nat)
    requires !CheckUnits(c.units).thrown && i < |c.units|
    requires c.units[i].selected.Some? && !Right(c.units[i])
    ensures Check(c).units[i].wrong == c.units[i].selected
    ensures Check(c).units[i].missed == Some(c.units[i].word.correctIndex)
  {
    CheckUnitsMarks(c.units);
  }

  /** The file index always names one of the files. */
  lemma NavigationInRange(c: Chooser, data: Option<seq<Row>>)
    requires c.dataset < FileCount
    ensures Next(c, data).dataset < FileCount && Prev(c, data).dataset < FileCount
  {
  }

  /**
   * A failed load after moving on leaves no word on screen and the
   * navigation flags of the previous file; checking the empty screen then
   * reports success.
   */
  lemma FailedLoadChecksAsSuccess(c: Chooser)
    requires c.dataset == 0
    ensures var r := Check(Next(c, None));
      && r.dataset == 1 && r.units == [] && r.message == SuccessMessage
      && r.prevHidden == c.prevHidden
  {
  }

  lemma ScoreIsNotAnswerAll(correct: nat, total: nat)
    ensures ScoreMessage(correct, total) != AnswerAllMessage
  {
    var m := ScoreMessage(correct, total);
    assert m[2] == 'н';
    assert AnswerAllMessage[2] == 'л';
  }

  /** The "choose an ending in every word" text never survives a completed check. */
  lemma AnswerAllIsOverwritten(c: Chooser)
    requires !CheckUnits(c.units).thrown
    ensures Check(c).message != AnswerAllMessage
  {
    ScoreIsNotAnswerAll(CountRight(c.units), |c.units|);
    assert SuccessMessage[0] != AnswerAllMessage[0];
  }
}

=== FILE: word_trainer.dfy ===
/**
 * The syllable word trainer (`WordTrainingApp`): the learner hears a word and
 * assembles it from syllable tiles, some of them distractors, by tapping
 * tiles or dragging them into the answer zone.
 *
 * The DOM state of the source becomes explicit fields: a tile's parent
 * element becomes membership of `pool` or `answer`, its `disabled` class a
 * flag, and the `setTimeout` callbacks after a check become the `Timer`
 * returned by `Check` together with the transitions that fire them.
 */
module WordTrainer {
  import opened Wrappers
  import Text
  import Numeric
  import Shuffle

  /** `this.totalWords`: the queue cap and the accuracy denominator. */
  const TotalWords: nat := 20

  datatype Word = Word(word: string, correctSyllables: seq<string>, distractors: seq<string>)

  datatype Level = Level(id: string, title: string, words: seq<Word>)

  /** One entry of `allSyllables` in `loadWord`. */
  datatype Syllable = Syllable(text: string, correct: bool)

  /**
   * A tile's identity: the number of the word load that created it and its
   * position in that word's shuffled tiles (`dataset.index`).
   */
  datatype TileId = TileId(word: nat, slot: nat)

  datatype Tile = Tile(id: TileId, text: string, correct: bool, disabled: bool)

  datatype Screen = Welcome | Game | Results

  datatype Summary = Summary(
    levelTitle: string,
    correctCount: nat,
    totalCount: nat,
    accuracy: int,
    timeSpent: string,
    totalAttempts: nat,
    chartDrawn: bool)

  datatype Trainer = Trainer(
    levels: seq<Level>,       // `wordsData.levels`
    level: Option<string>,    // `currentLevel`
    startEnabled: bool,
    queue: seq<Word>,         // `shuffledWords`
    index: nat,               // `currentWordIndex`
    word: Option<Word>,       // `currentWord`
    serial: nat,              // how many words have been loaded; tags their tiles
    pool: seq<Tile>,          // children of `syllables-container`
    answer: seq<Tile>,        // children of `drop-zone-content`
    selected: seq<string>,    // `selectedSyllables`
    checkEnabled: bool,
    correctAnswers: nat,
    totalAttempts: nat,
    correctAttempts: nat,
    incorrectAttempts: nat,
    startTime: int,
    screen: Screen,
    soundEnabled: bool,
    summary: Option<Summary>)

  /** The callback a check schedules. */
  datatype Timer =
    | AdvanceAfterCorrect(word: nat)               // 1500 ms: next word
    | RevertAfterWrong(word: nat, tiles: seq<Tile>) // 1000 ms: tiles back to the pool

  /** The trainer after the level data has been loaded (`init`). */
  function Initial(levels: seq<Level>): (s: Trainer)
    ensures s.screen == Welcome && s.level == None && !s.startEnabled && s.soundEnabled
  {
    Trainer(levels, None, false, [], 0, None, 0, [], [], [], false, 0, 0, 0, 0, 0, Welcome, true, None)
  }

  // ---------------------------------------------------------------- tiles

  function Texts(ts: seq<Tile>): (r: seq<string>)
    ensures |r| == |ts| && forall i :: 0 <= i < |ts| ==> r[i] == ts[i].text
  {
    seq(|ts|, i requires 0 <= i < |ts| => ts[i].text)
  }

  function Ids(ts: seq<Tile>): (r: seq<TileId>)
    ensures |r| == |ts| && forall i :: 0 <= i < |ts| ==> r[i] == ts[i].id
  {
    seq(|ts|, i requires 0 <= i < |ts| => ts[i].id)
  }

  lemma IdsAppend(a: seq<Tile>, b: seq<Tile>)
    ensures Ids(a + b) == Ids(a) + Ids(b)
  {
  }

  /** Position of the first tile with identity `id`. */
  function Find(ts: seq<Tile>, id: TileId): (p: nat)
    requires id in Ids(ts)
    ensures p < |ts| && ts[p].id == id
    ensures forall k :: 0 <= k < p ==> ts[k].id != id
  {
    if ts[0].id == id then 0
    else
      assert Ids(ts)[1..] == Ids(ts[1..]);
      1 + Find(ts[1..], id)
  }

  function RemoveAt(ts: seq<Tile>, p: nat): (r: seq<Tile>)
    requires p < |ts|
    ensures |r| == |ts| - 1
    ensures multiset(Ids(ts)) == multiset(Ids(r)) + multiset{ts[p].id}
  {
    var r := ts[..p] + ts[p + 1..];
    assert ts == ts[..p] + [ts[p]] + ts[p + 1..];
    IdsAppend(ts[..p] + [ts[p]], ts[p + 1..]);
    IdsAppend(ts[..p], [ts[p]]);
    IdsAppend(ts[..p], ts[p + 1..]);
    r
  }

  /** `appendChild` detaches the node from where it was: drop it from `ts` if present. */
  function Detach(ts: seq<Tile>, id: TileId): seq<Tile>
  {
    if id in Ids(ts) then RemoveAt(ts, Find(ts, id)) else ts
  }

  predicate IsTile(s: Trainer, id: TileId)
  {
    id in Ids(s.pool) || id in Ids(s.answer)
  }

  /** The on-screen tile with identity `id`, looked up in the answer first. */
  function TileOf(s: Trainer, id: TileId): (t: Tile)
    requires IsTile(s, id)
    ensures t.id == id
  {
    if id in Ids(s.answer) then s.answer[Find(s.answer, id)] else s.pool[Find(s.pool, id)]
  }

  /** Every tile on screen, pool first. */
  function AllIds(s: Trainer): seq<TileId>
  {
    Ids(s.pool + s.answer)
  }

  /**
   * The invariant a word's assembly keeps: no tile is on screen twice, every
   * tile belongs to the current word, `selectedSyllables` lists the answer's
   * texts in order, and the check action is enabled exactly when the answer
   * is non-empty.
   */
  ghost predicate WellFormed(s: Trainer)
  {
    && (forall id :: multiset(AllIds(s))[id] <= 1)
    && (forall id :: id in AllIds(s) ==> id.word == s.serial)
    && s.selected == Texts(s.answer)
    && s.checkEnabled == (|s.answer| > 0)
  }

  // ------------------------------------------------------ session control

  /** `this.words[id]`: the map is filled in file order, so the last level with that id wins. */
  function WordsOf(levels: seq<Level>, id: string): (r: Option<seq<Word>>)
    ensures r.None? <==> forall i :: 0 <= i < |levels| ==> levels[i].id != id
    ensures r.Some? ==> exists i :: (0 <= i < |levels| && levels[i].id == id && r.value == levels[i].words
      && forall j :: i < j < |levels| ==> levels[j].id != id)
  {
    if levels == [] then None
    else if levels[|levels| - 1].id == id then Some(levels[|levels| - 1].words)
    else
      var r := WordsOf(levels[..|levels| - 1], id);
      assert forall i :: 0 <= i < |levels| - 1 ==> levels[..|levels| - 1][i] == levels[i];
      r
  }

  /** `levels.find(level => level.id === currentLevel)`: the first match's title, or "". */
  function TitleOf(levels: seq<Level>, id: Option<string>): (r: string)
    ensures (id.None? || forall i :: 0 <= i < |levels| ==> levels[i].id != id.value) ==> r == ""
    ensures id.Some? ==> forall i ::
      (0 <= i < |levels| && levels[i].id == id.value && forall j :: 0 <= j < i ==> levels[j].id != id.value)
      ==> r == levels[i].title
  {
    if id.None? || levels == [] then ""
    else if levels[0].id == id.value then levels[0].title
    else
      var r := TitleOf(levels[1..], id);
      assert forall i :: 1 <= i < |levels| ==> levels[1..][i - 1] == levels[i];
      r
  }

  /** `selectLevel`: remembers the chosen level and enables the start button. */
  function SelectLevel(s: Trainer, id: string): (r: Trainer)
    ensures r.level == Some(id) && r.startEnabled
    ensures r == s.(level := r.level, startEnabled := r.startEnabled)
  {
    s.(level := Some(id), startEnabled := true)
  }

  /**
   * A chosen level is the one start plays: a non-empty id resets the session,
   * and when the data holds that id the queue is drawn from its words.
   */
  lemma SelectThenStart(s: Trainer, id: string, now: int, wordRand: nat -> nat, tileRand: nat -> nat)
    requires id != ""
    ensures var r := StartGame(SelectLevel(s, id), now, wordRand, tileRand);
      && r.index == 0 && r.correctAnswers == 0 && r.totalAttempts == 0 && r.startTime == now
      && (WordsOf(s.levels, id).Some? ==> multiset(r.queue) <= multiset(WordsOf(s.levels, id).value))
  {
    var t := SelectLevel(s, id);
    assert t.levels == s.levels && t.level == Some(id);
  }

  /** The tiles `loadWord` builds for a word: correct syllables, then distractors. */
  function AllSyllables(w: Word): (r: seq<Syllable>)
    ensures |r| == |w.correctSyllables| + |w.distractors|
    ensures forall i :: 0 <= i < |w.correctSyllables| ==>
      r[i] == Syllable(w.correctSyllables[i], true)
    ensures forall i :: 0 <= i < |w.distractors| ==>
      r[|w.correctSyllables| + i] == Syllable(w.distractors[i], false)
  {
    seq(|w.correctSyllables|, i requires 0 <= i < |w.correctSyllables| => Syllable(w.correctSyllables[i], true))
    + seq(|w.distractors|, i requires 0 <= i < |w.distractors| => Syllable(w.distractors[i], false))
  }

  function MakeTiles(syls: seq<Syllable>, serial: nat): seq<Tile>
  {
    seq(|syls|, i requires 0 <= i < |syls| => Tile(TileId(serial, i), syls[i].text, syls[i].correct, false))
  }

  function SyllablesOf(ts: seq<Tile>): (r: seq<Syllable>)
    ensures |r| == |ts| && forall i :: 0 <= i < |ts| ==> r[i] == Syllable(ts[i].text, ts[i].correct)
  {
    seq(|ts|, i requires 0 <= i < |ts| => Syllable(ts[i].text, ts[i].correct))
  }

  /**
   * The results' `M:SS` of a whole number of seconds: the floor of the
   * minutes, then JavaScript's remainder by 60 padded to two characters.
   */
  function TimeSpentText(seconds: int): string
  {
    Text.ClockText(seconds / 60, Numeric.JsRem(seconds, 60), 1)
  }

  /** `showResults`: elapsed time, accuracy over the fixed `TotalWords`, and the counters. */
  function ShowResults(s: Trainer, now: int): (r: Trainer)
    ensures r.screen == Results && r.summary.Some?
    ensures r.summary.value.accuracy == Numeric.Percent(s.correctAnswers, TotalWords)
    ensures r.summary.value.correctCount == s.correctAnswers && r.summary.value.totalCount == TotalWords
    ensures r.summary.value.totalAttempts == s.totalAttempts
    ensures r.summary.value.timeSpent == TimeSpentText(Numeric.RoundHalfUp(now - s.startTime, 1000))
    ensures r.summary.value.chartDrawn <==> s.correctAttempts + s.incorrectAttempts > 0
    ensures r.pool == s.pool && r.answer == s.answer && r.selected == s.selected
    ensures r.queue == s.queue && r.index == s.index && r.word == s.word
  {
    var seconds := Numeric.RoundHalfUp(now - s.startTime, 1000);
    var summary := Summary(
      TitleOf(s.levels, s.level),
      s.correctAnswers,
      TotalWords,
      Numeric.Percent(s.correctAnswers, TotalWords),
      TimeSpentText(seconds),
      s.totalAttempts,
      s.correctAttempts + s.incorrectAttempts != 0);
    s.(screen := Results, summary := Some(summary))
  }

  /** The fresh tiles of a word: its syllables shuffled by `rand`, numbered in shuffled order. */
  function WordTiles(w: Word, serial: nat, rand: nat -> nat): (ts: seq<Tile>)
    ensures multiset(SyllablesOf(ts)) == multiset(AllSyllables(w))
    ensures forall i :: 0 <= i < |ts| ==> ts[i].id == TileId(serial, i) && !ts[i].disabled
  {
    var syls := Shuffle.Shuffle(AllSyllables(w), rand);
    var tiles := MakeTiles(syls, serial);
    assert SyllablesOf(tiles) == syls;
    tiles
  }

  /**
   * `loadWord`: past the end of the queue the results are shown; otherwise
   * the current word's syllables, shuffled by `rand`, become fresh tiles in
   * the pool, the answer and the selection are emptied and the check action
   * is disabled.
   */
  function LoadWord(s: Trainer, now: int, rand: nat -> nat): (r: Trainer)
    ensures s.index >= |s.queue| ==> r == ShowResults(s, now)
    ensures s.index < |s.queue| ==>
      && r.word == Some(s.queue[s.index]) && r.serial == s.serial + 1
      && r.answer == [] && r.selected == [] && !r.checkEnabled
      && r.pool == WordTiles(s.queue[s.index], s.serial + 1, rand)
      && r.screen == s.screen
    ensures r.queue == s.queue && r.index == s.index && r.correctAnswers == s.correctAnswers
    ensures r.startTime == s.startTime && r.totalAttempts == s.totalAttempts
    ensures r.correctAttempts == s.correctAttempts && r.incorrectAttempts == s.incorrectAttempts
  {
    if s.index >= |s.queue| then ShowResults(s, now)
    else
      var w := s.queue[s.index];
      var serial := s.serial + 1;
      s.(word := Some(w), serial := serial, pool := WordTiles(w, serial, rand), answer := [], selected := [], checkEnabled := false)
  }

  /**
   * A loaded word shows exactly its correct syllables (flagged correct) and
   * its distractors (flagged incorrect), none disabled, with an empty answer
   * and the check action off; the trainer is well formed.
   */
  lemma LoadWordTiles(s: Trainer, now: int, rand: nat -> nat)
    requires s.index < |s.queue|
    ensures var r := LoadWord(s, now, rand);
      && multiset(SyllablesOf(r.pool)) == multiset(AllSyllables(s.queue[s.index]))
      && (forall t :: t in r.pool ==> !t.disabled)
      && r.answer == [] && !r.checkEnabled
      && WellFormed(r)
  {
    var r := LoadWord(s, now, rand);
    var tiles := r.pool;
    assert AllIds(r) == Ids(tiles);
    forall id ensures multiset(AllIds(r))[id] <= 1 {
      SlotsUnique(tiles, r.serial, id);
    }
  }

  lemma SlotsUnique(tiles: seq<Tile>, serial: nat, id: TileId)
    requires forall i :: 0 <= i < |tiles| ==> tiles[i].id == TileId(serial, i)
    ensures multiset(Ids(tiles))[id] <= 1
  {
    if id.word != serial || id.slot >= |tiles| {
      assert id !in Ids(tiles);
    } else {
      var k := id.slot;
      var ids := Ids(tiles);
      assert ids == ids[..k] + [id] + ids[k + 1..];
      assert id !in ids[..k] && id !in ids[k + 1..];
    }
  }

  /**
   * `startGame`: inert without a chosen level. Otherwise every counter and
   * the cursor return to zero, the level's words are shuffled by `wordRand`
   * and cut to `TotalWords`, and the first word is loaded. A level id the
   * data does not contain makes the source throw after the counters were
   * reset, which leaves the queue and the tiles as they were.
   */
  function StartGame(s: Trainer, now: int, wordRand: nat -> nat, tileRand: nat -> nat): (r: Trainer)
    ensures (s.level.None? || s.level.value == "") ==> r == s
    ensures s.level.Some? && s.level.value != "" ==>
      && r.index == 0 && r.correctAnswers == 0 && r.startTime == now
      && r.totalAttempts == 0 && r.correctAttempts == 0 && r.incorrectAttempts == 0
    ensures s.level.Some? && s.level.value != "" && WordsOf(s.levels, s.level.value).Some? ==>
      var words := WordsOf(s.levels, s.level.value).value;
      && |r.queue| == (if |words| < TotalWords then |words| else TotalWords)
      && multiset(r.queue) <= multiset(words)
      && (r.queue != [] ==> r.screen == Game && r.word == Some(r.queue[0]) && r.answer == [])
      && (r.queue == [] ==> r.screen == Results)
  {
    if s.level.None? || s.level.value == "" then s
    else
      var reset := s.(index := 0, correctAnswers := 0, selected := [], startTime := now,
                      totalAttempts := 0, correctAttempts := 0, incorrectAttempts := 0);
      match WordsOf(s.levels, s.level.value)
      case None => reset
      case Some(words) =>
        var shuffled := Shuffle.Shuffle(words, wordRand);
        var n := if |shuffled| < TotalWords then |shuffled| else TotalWords;
        var queue := shuffled[..n];
        assert shuffled == queue + shuffled[n..];
        assert multiset(queue) <= multiset(words);
        var r := LoadWord(reset.(queue := queue, screen := Game), now, tileRand);
        assert r.queue == queue && r.index == 0;
        r
  }

  /** `restartGame`: a fresh start on the same level. */
  function RestartGame(s: Trainer, now: int, wordRand: nat -> nat, tileRand: nat -> nat): (r: Trainer)
    ensures (s.level.None? || s.level.value == "") ==> r == s
    ensures s.level.Some? && s.level.value != "" ==>
      && r.index == 0 && r.correctAnswers == 0 && r.startTime == now
      && r.totalAttempts == 0 && r.correctAttempts == 0 && r.incorrectAttempts == 0
  {
    StartGame(s, now, wordRand, tileRand)
  }

  /** `backToMenu`: back to the welcome screen with no level chosen. */
  function BackToMenu(s: Trainer): (r: Trainer)
    ensures r.screen == Welcome && r.level.None? && !r.startEnabled
    ensures r.correctAnswers == s.correctAnswers && r.queue == s.queue && r.index == s.index
  {
    s.(screen := Welcome, level := None, startEnabled := false)
  }

  /** After returning to the menu, start is inert until a level is chosen again. */
  lemma StartAfterMenuIsInert(s: Trainer, now: int, wordRand: nat -> nat, tileRand: nat -> nat)
    ensures StartGame(BackToMenu(s), now, wordRand, tileRand) == BackToMenu(s)
  {
  }

  /** `toggleSound`: flips narration on or off (speech itself is not modelled). */
  function ToggleSound(s: Trainer): (r: Trainer)
    ensures r.soundEnabled == !s.soundEnabled
    ensures r == s.(soundEnabled := r.soundEnabled)
  {
    s.(soundEnabled := !s.soundEnabled)
  }

  lemma ToggleSoundTwice(s: Trainer)
    ensures ToggleSound(ToggleSound(s)) == s
  {
  }

  // ------------------------------------------------------------ assembly

  /**
   * `handleSyllableClick`: a disabled tile ignores the tap; a tile in the
   * answer moves to the end of the pool and the selection is re-read from
   * the answer; a tile in the pool moves to the end of the answer and its
   * text is pushed onto the selection. The check action follows whether the
   * selection is empty.
   */
  function Tap(s: Trainer, id: TileId): (r: Trainer)
    requires IsTile(s, id)
    ensures TileOf(s, id).disabled ==> r == s
    ensures !TileOf(s, id).disabled ==> r.checkEnabled == (|r.answer| > 0) && r.serial == s.serial
    ensures !TileOf(s, id).disabled && id in Ids(s.answer) ==>
      var p := Find(s.answer, id);
      && r.answer == s.answer[..p] + s.answer[p + 1..]
      && r.pool == s.pool + [s.answer[p]]
      && r.selected == Texts(r.answer)
    ensures !TileOf(s, id).disabled && id !in Ids(s.answer) ==>
      var p := Find(s.pool, id);
      && r.pool == s.pool[..p] + s.pool[p + 1..]
      && r.answer == s.answer + [s.pool[p]]
      && r.selected == s.selected + [s.pool[p].text]
  {
    var t := TileOf(s, id);
    if t.disabled then s
    else if id in Ids(s.answer) then
      var answer := RemoveAt(s.answer, Find(s.answer, id));
      s.(answer := answer, pool := s.pool + [t], selected := Texts(answer), checkEnabled := |Texts(answer)| > 0)
    else
      var pool := RemoveAt(s.pool, Find(s.pool, id));
      var selected := s.selected + [t.text];
      s.(pool := pool, answer := s.answer + [t], selected := selected, checkEnabled := |selected| > 0)
  }

  /**
   * `handleDrop`: the tile being dragged (if the page still holds one) is
   * appended to the answer wherever it was, disabled or not; the selection
   * is re-read from the answer.
   */
  function Drop(s: Trainer, dragged: Option<TileId>): (r: Trainer)
    requires dragged.Some? ==> IsTile(s, dragged.value)
    ensures dragged.None? ==> r == s
    ensures dragged.Some? ==>
      && |r.answer| > 0 && r.answer[|r.answer| - 1] == TileOf(s, dragged.value)
      && r.answer[..|r.answer| - 1] == Detach(s.answer, dragged.value)
      && r.pool == Detach(s.pool, dragged.value)
      && r.selected == Texts(r.answer)
      && r.checkEnabled
  {
    if dragged.None? then s
    else
      var id := dragged.value;
      var t := TileOf(s, id);
      var answer := Detach(s.answer, id) + [t];
      assert answer[..|answer| - 1] == Detach(s.answer, id);
      s.(pool := Detach(s.pool, id), answer := answer, selected := Texts(answer), checkEnabled := |Texts(answer)| > 0)
  }

  /** A tile is never in both zones of a well-formed trainer. */
  lemma ZonesDisjoint(s: Trainer, id: TileId)
    requires forall x :: multiset(AllIds(s))[x] <= 1
    ensures id in Ids(s.answer) ==> id !in Ids(s.pool)
  {
    IdsAppend(s.pool, s.answer);
    assert multiset(AllIds(s))[id] == multiset(Ids(s.pool))[id] + multiset(Ids(s.answer))[id];
  }

  lemma DropKeepsIds(s: Trainer, id: TileId)
    requires IsTile(s, id) && WellFormed(s)
    ensures multiset(Ids(Detach(s.pool, id) + (Detach(s.answer, id) + [TileOf(s, id)]))) == multiset(AllIds(s))
  {
    var t := TileOf(s, id);
    var pool, answer := Detach(s.pool, id), Detach(s.answer, id);
    IdsAppend(s.pool, s.answer);
    IdsAppend(pool, answer + [t]);
    IdsAppend(answer, [t]);
    ZonesDisjoint(s, id);
    DetachIds(s.pool, id);
    DetachIds(s.answer, id);
    assert multiset(Ids(pool)) + multiset(Ids(answer)) + multiset{id}
        == multiset(Ids(s.pool)) + multiset(Ids(s.answer));
  }

  /** Detaching a present tile takes exactly its identity away; an absent one changes nothing. */
  lemma DetachIds(ts: seq<Tile>, id: TileId)
    ensures id in Ids(ts) ==> multiset(Ids(ts)) == multiset(Ids(Detach(ts, id))) + multiset{id}
    ensures id !in Ids(ts) ==> Detach(ts, id) == ts
  {
    if id in Ids(ts) {
      assert ts[Find(ts, id)].id == id;
    }
  }

  /** Tap and drop agree: dropping an enabled pool tile is the same as tapping it. */
  lemma DropAgreesWithTap(s: Trainer, id: TileId)
    requires WellFormed(s) && id in Ids(s.pool) && !TileOf(s, id).disabled
    ensures Drop(s, Some(id)) == Tap(s, id)
  {
    ZonesDisjoint(s, id);
    var t := TileOf(s, id);
    assert Texts(s.answer + [t]) == Texts(s.answer) + [t.text];
  }

  /** Rearranging the same tiles of the current word keeps the trainer well formed. */
  lemma SameTilesWellFormed(s: Trainer, r: Trainer)
    requires WellFormed(s)
    requires multiset(AllIds(r)) == multiset(AllIds(s)) && r.serial == s.serial
    requires r.selected == Texts(r.answer) && r.checkEnabled == (|r.answer| > 0)
    ensures WellFormed(r)
  {
    forall id | id in AllIds(r) ensures id.word == s.serial {
      assert id in multiset(AllIds(r));
      assert id in AllIds(s);
    }
  }

  lemma TapFromAnswer(s: Trainer, id: TileId)
    requires WellFormed(s) && id in Ids(s.answer) && !TileOf(s, id).disabled
    ensures multiset(AllIds(Tap(s, id))) == multiset(AllIds(s))
  {
    var r := Tap(s, id);
    var t := TileOf(s, id);
    IdsAppend(s.pool, s.answer);
    IdsAppend(r.pool, r.answer);
    IdsAppend(s.pool, [t]);
    assert Ids(r.pool) == Ids(s.pool) + [t.id];
  }

  lemma TapFromPool(s: Trainer, id: TileId)
    requires WellFormed(s) && id in Ids(s.pool) && id !in Ids(s.answer) && !TileOf(s, id).disabled
    ensures multiset(AllIds(Tap(s, id))) == multiset(AllIds(s))
    ensures Tap(s, id).selected == Texts(Tap(s, id).answer)
  {
    var r := Tap(s, id);
    var t := TileOf(s, id);
    IdsAppend(s.pool, s.answer);
    IdsAppend(r.pool, r.answer);
    IdsAppend(s.answer, [t]);
    assert Ids(r.answer) == Ids(s.answer) + [t.id];
    assert Texts(r.answer) == Texts(s.answer) + [t.text];
  }

  /** Tapping keeps the trainer well formed and loses or duplicates no tile. */
  lemma TapKeepsWellFormed(s: Trainer, id: TileId)
    requires WellFormed(s) && IsTile(s, id)
    ensures WellFormed(Tap(s, id))
    ensures multiset(AllIds(Tap(s, id))) == multiset(AllIds(s))
  {
    if !TileOf(s, id).disabled {
      if id in Ids(s.answer) {
        TapFromAnswer(s, id);
      } else {
        TapFromPool(s, id);
      }
      SameTilesWellFormed(s, Tap(s, id));
    }
  }

  /** Dropping keeps the trainer well formed and loses or duplicates no tile. */
  lemma DropKeepsWellFormed(s: Trainer, dragged: Option<TileId>)
    requires WellFormed(s) && (dragged.Some? ==> IsTile(s, dragged.value))
    ensures WellFormed(Drop(s, dragged))
    ensures multiset(AllIds(Drop(s, dragged))) == multiset(AllIds(s))
  {
    if dragged.Some? {
      DropKeepsIds(s, dragged.value);
      SameTilesWellFormed(s, Drop(s, dragged));
    }
  }

  // --------------------------------------------------------------- judge

  function DisableAll(ts: seq<Tile>): (r: seq<Tile>)
    ensures |r| == |ts|
    ensures forall i :: 0 <= i < |ts| ==> r[i] == ts[i].(disabled := true)
  {
    seq(|ts|, i requires 0 <= i < |ts| => ts[i].(disabled := true))
  }

  /** The judge: the selection, concatenated, against the word's syllables, concatenated. */
  predicate IsCorrect(s: Trainer)
    requires s.word.Some?
  {
    Text.Join(s.selected) == Text.Join(s.word.value.correctSyllables)
  }

  /**
   * `checkAnswer`: every check is an attempt. A correct one locks the answer
   * tiles and counts a correct answer and a correct attempt, then schedules
   * the advance; a wrong one counts an incorrect attempt and schedules the
   * return of the answer tiles to the pool.
   */
  function Check(s: Trainer): (r: (Trainer, Timer))
    requires s.word.Some?
    ensures r.0.totalAttempts == s.totalAttempts + 1
    ensures IsCorrect(s) ==>
      && r.0.correctAnswers == s.correctAnswers + 1 && r.0.correctAttempts == s.correctAttempts + 1
      && r.0.incorrectAttempts == s.incorrectAttempts
      && |r.0.answer| == |s.answer| && (forall i :: 0 <= i < |s.answer| ==> r.0.answer[i].disabled)
      && r.1 == AdvanceAfterCorrect(s.serial)
    ensures !IsCorrect(s) ==>
      && r.0.incorrectAttempts == s.incorrectAttempts + 1
      && r.0.correctAnswers == s.correctAnswers && r.0.correctAttempts == s.correctAttempts
      && r.0.answer == s.answer
      && r.1 == RevertAfterWrong(s.serial, s.answer)
    ensures Ids(r.0.answer) == Ids(s.answer) && r.0.pool == s.pool && r.0.selected == s.selected
    ensures r.0.serial == s.serial && r.0.queue == s.queue && r.0.index == s.index && r.0.startTime == s.startTime
  {
    var s1 := s.(totalAttempts := s.totalAttempts + 1);
    if IsCorrect(s) then
      (s1.(answer := DisableAll(s.answer), correctAnswers := s.correctAnswers + 1,
           correctAttempts := s.correctAttempts + 1), AdvanceAfterCorrect(s.serial))
    else
      (s1.(incorrectAttempts := s.incorrectAttempts + 1), RevertAfterWrong(s.serial, s.answer))
  }

  /** Each attempt is either correct or incorrect: the counters stay in step. */
  ghost predicate AttemptsAddUp(s: Trainer)
  {
    s.totalAttempts == s.correctAttempts + s.incorrectAttempts
  }

  lemma CheckKeepsAttemptsAddUp(s: Trainer)
    requires s.word.Some? && AttemptsAddUp(s)
    ensures AttemptsAddUp(Check(s).0)
  {
  }

  lemma CheckKeepsWellFormed(s: Trainer)
    requires s.word.Some? && WellFormed(s)
    ensures WellFormed(Check(s).0)
  {
    var r := Check(s).0;
    assert r.pool == s.pool && Ids(r.answer) == Ids(s.answer) && r.serial == s.serial;
    assert r.selected == s.selected && r.checkEnabled == s.checkEnabled && |r.answer| == |s.answer|;
    IdsAppend(s.pool, s.answer);
    IdsAppend(r.pool, r.answer);
    assert AllIds(r) == AllIds(s);
    assert Texts(r.answer) == Texts(s.answer);
  }

  /** Assembling the correct syllables in their order is judged correct. */
  lemma CorrectOrderIsAccepted(s: Trainer)
    requires s.word.Some? && WellFormed(s)
    requires Texts(s.answer) == s.word.value.correctSyllables
    ensures IsCorrect(s)
    ensures Check(s).0.correctAnswers == s.correctAnswers + 1
  {
  }

  /**
   * Only the joined text is judged: a check is wrong exactly when the joined
   * selection differs from the joined correct syllables. So two syllables
   * swapped are rejected whenever the swap changes the text.
   */
  lemma OrderMatters(s: Trainer)
    requires s.word.Some?
    ensures Check(s).1.RevertAfterWrong? <==> Text.Join(s.selected) != Text.Join(s.word.value.correctSyllables)
    ensures Check(s).1.AdvanceAfterCorrect? <==> Text.Join(s.selected) == Text.Join(s.word.value.correctSyllables)
    ensures var cs := s.word.value.correctSyllables;
      |cs| == 2 && s.selected == [cs[1], cs[0]] && cs[1] + cs[0] != cs[0] + cs[1] ==>
      Check(s).1.RevertAfterWrong?
  {
    var cs := s.word.value.correctSyllables;
    if |cs| == 2 && s.selected == [cs[1], cs[0]] && cs[1] + cs[0] != cs[0] + cs[1] {
      TwoPartJoin(cs);
      TwoPartJoin(s.selected);
      assert Text.Join(s.selected) != Text.Join(cs);
    }
  }

  lemma TwoPartJoin(parts: seq<string>)
    requires |parts| == 2
    ensures Text.Join(parts) == parts[0] + parts[1]
  {
    assert parts[1..][1..] == [];
    assert Text.Join(parts[1..]) == parts[1] + "";
    assert parts[1] + "" == parts[1];
  }

  /** For example, "т" then "ко" does not spell "кот". */
  lemma SwappedSyllablesRejected(s: Trainer)
    requires s.word.Some? && s.word.value.correctSyllables == ["ко", "т"]
    requires s.selected == ["т", "ко"]
    ensures Check(s).1.RevertAfterWrong?
  {
    OrderMatters(s);
    assert ("т" + "ко")[0] != ("ко" + "т")[0];
  }

  /** `skipWord`: on to the next word without counting anything. */
  function Skip(s: Trainer, now: int, rand: nat -> nat): (r: Trainer)
    ensures r.correctAnswers == s.correctAnswers && r.totalAttempts == s.totalAttempts
    ensures r.correctAttempts == s.correctAttempts && r.incorrectAttempts == s.incorrectAttempts
    ensures r.index == s.index + 1
    ensures s.index + 1 < |s.queue| ==> r.word == Some(s.queue[s.index + 1]) && r.answer == [] && r.serial == s.serial + 1
    ensures s.index + 1 < |s.queue| ==> r.pool == WordTiles(s.queue[s.index + 1], s.serial + 1, rand)
    ensures s.index + 1 >= |s.queue| ==> r.screen == Results
  {
    LoadWord(s.(index := s.index + 1), now, rand)
  }

  /**
   * The 1500 ms callback after a correct check, as the source writes it: the
   * same move as a skip, whatever word is on screen when it fires.
   */
  function AdvanceFired(s: Trainer, now: int, rand: nat -> nat): (r: Trainer)
    ensures r.index == s.index + 1 && r.correctAnswers == s.correctAnswers
    ensures r.totalAttempts == s.totalAttempts
    ensures r.correctAttempts == s.correctAttempts && r.incorrectAttempts == s.incorrectAttempts
  {
    Skip(s, now, rand)
  }

  /** The repaired callback: it moves on only while the word it was armed for is on screen. */
  function AdvanceKeyedFired(s: Trainer, word: nat, now: int, rand: nat -> nat): (r: Trainer)
    ensures word != s.serial ==> r == s
    ensures word == s.serial ==>
      && r.index == s.index + 1 && r.correctAnswers == s.correctAnswers
      && r.totalAttempts == s.totalAttempts
      && r.correctAttempts == s.correctAttempts && r.incorrectAttempts == s.incorrectAttempts
  {
    if word != s.serial then s else AdvanceFired(s, now, rand)
  }

  /**
   * Finding, as written: a skip during the 1500 ms pause after a right
   * answer is followed by the timer's own move, so two words go by and the
   * second is never shown.
   */
  lemma SkipDuringAdvanceSkipsTwo(s: Trainer, now: int, rand: nat -> nat, rand2: nat -> nat)
    requires s.word.Some? && IsCorrect(s)
    ensures var (c, timer) := Check(s);
      && timer == AdvanceAfterCorrect(s.serial)
      && AdvanceFired(Skip(c, now, rand), now, rand2).index == s.index + 2
  {
    var (c, timer) := Check(s);
    assert c.index == s.index && c.startTime == s.startTime;
    var k := Skip(c, now, rand);
    assert k.startTime == s.startTime;
  }

  /** Repaired: after a skip within the pause, the keyed callback leaves the new word on screen. */
  lemma SkipDuringAdvanceIgnored(s: Trainer, now: int, rand: nat -> nat, rand2: nat -> nat)
    requires s.word.Some? && IsCorrect(s) && s.index + 1 < |s.queue|
    ensures var (c, timer) := Check(s);
      && timer.AdvanceAfterCorrect?
      && var k := Skip(c, now, rand);
      && AdvanceKeyedFired(k, timer.word, now, rand2) == k
      && k.index == s.index + 1
  {
    var (c, timer) := Check(s);
    assert c.index == s.index && c.startTime == s.startTime && c.serial == s.serial && c.queue == s.queue;
    var k := Skip(c, now, rand);
    assert k.serial == s.serial + 1 && k.startTime == s.startTime;
  }

  /** Moves one tile captured by a check back to the end of the pool. */
  function ReturnTile(s: Trainer, c: Tile): (r: Trainer)
  {
    var current := if IsTile(s, c.id) then TileOf(s, c.id) else c;
    s.(answer := Detach(s.answer, c.id), pool := Detach(s.pool, c.id) + [current])
  }

  function ReturnTiles(s: Trainer, captured: seq<Tile>): (r: Trainer)
    ensures r == s.(pool := r.pool, answer := r.answer)
    decreases |captured|
  {
    if captured == [] then s else ReturnTiles(ReturnTile(s, captured[0]), captured[1..])
  }

  /**
   * The 1000 ms callback after a wrong check, as the source writes it: the
   * tiles the check saw are appended to the pool whatever word is now on
   * screen, the selection is emptied and the check action disabled.
   */
  function RevertAsWritten(s: Trainer, captured: seq<Tile>): (r: Trainer)
    ensures r.selected == [] && !r.checkEnabled
  {
    ReturnTiles(s, captured).(selected := [], checkEnabled := false)
  }

  /**
   * The callback with the two repairs this model adopts: it is ignored once
   * another word has been loaded, and the selection and check action are
   * re-derived from whatever stays in the answer.
   */
  function RevertFired(s: Trainer, word: nat, captured: seq<Tile>): (r: Trainer)
    ensures word != s.serial ==> r == s
    ensures word == s.serial ==>
      && r.selected == Texts(r.answer) && r.checkEnabled == (|r.answer| > 0)
      && r.serial == s.serial && r.index == s.index && r.queue == s.queue
  {
    if word != s.serial then s
    else
      var t := ReturnTiles(s, captured);
      t.(selected := Texts(t.answer), checkEnabled := |t.answer| > 0)
  }

  lemma ReturnTileKeepsIds(s: Trainer, c: Tile)
    requires WellFormed(s) && IsTile(s, c.id)
    ensures var r := ReturnTile(s, c);
      && multiset(AllIds(r)) == multiset(AllIds(s))
      && r.serial == s.serial
  {
    var t := TileOf(s, c.id);
    var r := ReturnTile(s, c);
    IdsAppend(s.pool, s.answer);
    IdsAppend(Detach(s.pool, c.id) + [t], Detach(s.answer, c.id));
    IdsAppend(Detach(s.pool, c.id), [t]);
    ZonesDisjoint(s, c.id);
  }

  /** Tile identities stay unique and current as long as only current tiles are returned. */
  lemma {:induction false} ReturnTilesKeepsIds(s: Trainer, captured: seq<Tile>)
    requires WellFormed(s)
    requires forall c :: c in captured ==> c.id in AllIds(s)
    ensures var r := ReturnTiles(s, captured);
      && multiset(AllIds(r)) == multiset(AllIds(s))
      && r.serial == s.serial
    decreases |captured|
  {
    if captured != [] {
      var c := captured[0];
      IdsAppend(s.pool, s.answer);
      assert c in captured;
      assert IsTile(s, c.id);
      ReturnTileKeepsIds(s, c);
      var s1 := ReturnTile(s, c);
      var s2 := s1.(selected := Texts(s1.answer), checkEnabled := |s1.answer| > 0);
      assert forall x :: x in AllIds(s1) <==> x in multiset(AllIds(s1));
      assert forall x :: x in AllIds(s) <==> x in multiset(AllIds(s));
      assert WellFormed(s2);
      assert forall c' :: c' in captured[1..] ==> c' in captured;
      ReturnTilesKeepsIds(s2, captured[1..]);
      ReturnTilesIgnoresSelection(s1, captured[1..]);
    }
  }

  /** Returning tiles does not read the selection or the check flag. */
  lemma {:induction false} ReturnTilesIgnoresSelection(s: Trainer, captured: seq<Tile>)
    ensures var s2 := s.(selected := Texts(s.answer), checkEnabled := |s.answer| > 0);
      && ReturnTiles(s2, captured).pool == ReturnTiles(s, captured).pool
      && ReturnTiles(s2, captured).answer == ReturnTiles(s, captured).answer
      && ReturnTiles(s2, captured).serial == ReturnTiles(s, captured).serial
    decreases |captured|
  {
    if captured != [] {
      var s2 := s.(selected := Texts(s.answer), checkEnabled := |s.answer| > 0);
      var a := ReturnTile(s, captured[0]);
      var b := ReturnTile(s2, captured[0]);
      assert b == a.(selected := s2.selected, checkEnabled := s2.checkEnabled);
      ReturnTilesIgnoresSelection(a, captured[1..]);
      ReturnTilesFrame(a, b, captured[1..]);
    }
  }

  /** Two trainers with the same tiles end with the same tiles after returning the same captures. */
  lemma {:induction false} ReturnTilesFrame(a: Trainer, b: Trainer, captured: seq<Tile>)
    requires a.pool == b.pool && a.answer == b.answer && a.serial == b.serial
    ensures ReturnTiles(a, captured).pool == ReturnTiles(b, captured).pool
    ensures ReturnTiles(a, captured).answer == ReturnTiles(b, captured).answer
    ensures ReturnTiles(a, captured).serial == ReturnTiles(b, captured).serial
    decreases |captured|
  {
    if captured != [] {
      ReturnTilesFrame(ReturnTile(a, captured[0]), ReturnTile(b, captured[0]), captured[1..]);
    }
  }

  /** The repaired callback keeps the trainer well formed, for a current or a stale timer. */
  lemma RevertFiredKeepsWellFormed(s: Trainer, word: nat, captured: seq<Tile>)
    requires WellFormed(s)
    requires word == s.serial ==> forall c :: c in captured ==> c.id in AllIds(s)
    ensures WellFormed(RevertFired(s, word, captured))
    ensures multiset(AllIds(RevertFired(s, word, captured))) == multiset(AllIds(s))
  {
    if word == s.serial {
      ReturnTilesKeepsIds(s, captured);
      var t := ReturnTiles(s, captured);
      assert forall x :: x in AllIds(t) <==> x in multiset(AllIds(t));
      assert forall x :: x in AllIds(s) <==> x in multiset(AllIds(s));
    }
  }

  predicate Distinct(ids: seq<TileId>)
  {
    forall i, j :: 0 <= i < j < |ids| ==> ids[i] != ids[j]
  }

  lemma UniqueIsDistinct(ids: seq<TileId>)
    requires forall x :: multiset(ids)[x] <= 1
    ensures Distinct(ids)
  {
    forall i, j | 0 <= i < j < |ids| ensures ids[i] != ids[j] {
      assert ids == ids[..j] + ids[j..];
      assert ids[i] in ids[..j];
      assert ids[j] in ids[j..];
      assert multiset(ids)[ids[j]] == multiset(ids[..j])[ids[j]] + multiset(ids[j..])[ids[j]];
    }
  }

  lemma ReturnFront(x: Trainer, c: Tile)
    requires x.answer != [] && x.answer[0] == c && c.id !in Ids(x.pool)
    ensures ReturnTile(x, c).answer == x.answer[1..]
    ensures ReturnTile(x, c).pool == x.pool + [c]
  {
    assert Ids(x.answer)[0] == c.id;
    assert Find(x.answer, c.id) == 0;
    assert x.answer[..0] + x.answer[1..] == x.answer[1..];
  }

  lemma ReturnAbsent(x: Trainer, c: Tile)
    requires c.id !in Ids(x.pool) && c.id !in Ids(x.answer)
    ensures ReturnTile(x, c).pool == x.pool + [c] && ReturnTile(x, c).answer == x.answer
  {
    assert !IsTile(x, c.id);
  }

  /** Returning the leading tiles of the answer moves exactly them, in order, to the pool. */
  lemma {:induction false} ReturnPrefix(x: Trainer, captured: seq<Tile>, rest: seq<Tile>)
    requires x.answer == captured + rest
    requires Distinct(AllIds(x))
    ensures ReturnTiles(x, captured).answer == rest
    ensures ReturnTiles(x, captured).pool == x.pool + captured
    decreases |captured|
  {
    if captured != [] {
      var y := ReturnTile(x, captured[0]);
      FrontNotInPool(x);
      ReturnPrefixStep(x, captured, rest);
      assert AllIds(y) == AllIds(x);
      ReturnPrefix(y, captured[1..], rest);
      assert x.pool + captured == y.pool + captured[1..];
    }
  }

  lemma ReturnPrefixStep(x: Trainer, captured: seq<Tile>, rest: seq<Tile>)
    requires captured != [] && x.answer == captured + rest
    requires captured[0].id !in Ids(x.pool)
    ensures ReturnTile(x, captured[0]).answer == captured[1..] + rest
    ensures ReturnTile(x, captured[0]).pool == x.pool + [captured[0]]
    ensures ReturnTile(x, captured[0]).pool + ReturnTile(x, captured[0]).answer == x.pool + x.answer
  {
    var c := captured[0];
    var y := ReturnTile(x, c);
    ReturnFront(x, c);
    assert y.answer == x.answer[1..];
    assert x.answer[1..] == captured[1..] + rest;
    ShiftFront(x.pool, x.answer);
  }

  lemma ShiftFront<T>(p: seq<T>, a: seq<T>)
    requires a != []
    ensures (p + [a[0]]) + a[1..] == p + a
  {
    assert a == [a[0]] + a[1..];
  }

  lemma FrontNotInPool(x: Trainer)
    requires x.answer != [] && Distinct(AllIds(x))
    ensures x.answer[0].id !in Ids(x.pool)
  {
    IdsAppend(x.pool, x.answer);
    assert AllIds(x)[|x.pool|] == x.answer[0].id;
    forall k | 0 <= k < |x.pool| ensures Ids(x.pool)[k] != x.answer[0].id {
      assert AllIds(x)[k] == Ids(x.pool)[k];
    }
  }

  /** Returning tiles that are no longer on screen appends them to the pool. */
  lemma {:induction false} ReturnStale(x: Trainer, captured: seq<Tile>)
    requires forall c :: c in captured ==> c.id !in AllIds(x)
    requires Distinct(Ids(captured))
    ensures ReturnTiles(x, captured).answer == x.answer
    ensures ReturnTiles(x, captured).pool == x.pool + captured
    decreases |captured|
  {
    if captured != [] {
      var c := captured[0];
      var y := ReturnTile(x, c);
      ReturnStaleStep(x, captured);
      ReturnStale(y, captured[1..]);
      var r := ReturnTiles(y, captured[1..]);
      assert ReturnTiles(x, captured) == r;
      assert r.pool == (x.pool + [c]) + captured[1..];
      assert x.pool + captured == (x.pool + [c]) + captured[1..];
    }
  }

  /** One stale tile goes to the end of the pool, and the rest stay stale and distinct. */
  lemma ReturnStaleStep(x: Trainer, captured: seq<Tile>)
    requires captured != []
    requires forall c :: c in captured ==> c.id !in AllIds(x)
    requires Distinct(Ids(captured))
    ensures var y := ReturnTile(x, captured[0]);
      && y.answer == x.answer && y.pool == x.pool + [captured[0]]
      && (forall c :: c in captured[1..] ==> c.id !in AllIds(y))
      && Distinct(Ids(captured[1..]))
  {
    var c := captured[0];
    assert c in captured;
    IdsAppend(x.pool, x.answer);
    ReturnAbsent(x, c);
    var y := ReturnTile(x, c);
    IdsAppend(x.pool, [c]);
    IdsAppend(y.pool, y.answer);
    forall c' | c' in captured[1..] ensures c'.id !in AllIds(y) {
      var k :| 1 <= k < |captured| && captured[k] == c';
      assert Ids(captured)[0] != Ids(captured)[k];
      assert c' in captured;
      assert c'.id !in Ids(x.pool) && c'.id !in Ids(x.answer);
    }
    assert Ids(captured[1..]) == Ids(captured)[1..];
  }

  /**
   * After a wrong check with no input during the pause, the callback puts
   * every answer tile back at the end of the pool, in answer order, empties
   * the selection and disables the check action. The callback as written
   * and the repaired one agree here.
   */
  lemma WrongCheckThenRevert(s: Trainer)
    requires s.word.Some? && WellFormed(s) && !IsCorrect(s)
    ensures var (c, timer) := Check(s);
      && timer.RevertAfterWrong?
      && var w := RevertAsWritten(c, timer.tiles);
      && w.answer == [] && w.pool == s.pool + s.answer
      && w.selected == [] && !w.checkEnabled
    ensures var (c, timer) := Check(s);
      && timer.RevertAfterWrong?
      && var r := RevertFired(c, timer.word, timer.tiles);
      && r.answer == [] && r.pool == s.pool + s.answer
      && r.selected == [] && !r.checkEnabled
      && WellFormed(r)
  {
    var (c, timer) := Check(s);
    UniqueIsDistinct(AllIds(s));
    assert AllIds(c) == AllIds(s);
    assert c.answer == s.answer + [];
    ReturnPrefix(c, s.answer, []);
    CheckKeepsWellFormed(s);
    RevertFiredKeepsWellFormed(c, timer.word, timer.tiles) by {
      IdsAppend(c.pool, c.answer);
      forall t | t in timer.tiles ensures t.id in AllIds(c) {
        var k :| 0 <= k < |c.answer| && c.answer[k] == t;
        assert AllIds(c)[|c.pool| + k] == t.id;
      }
    }
  }

  /**
   * Finding, as written: a wrong check followed by a skip within the 1000 ms
   * pause lets the stale callback append the previous word's tiles to the
   * new word's pool.
   */
  lemma StaleRevertAddsForeignTiles(s: Trainer, now: int, rand: nat -> nat)
    requires s.word.Some? && WellFormed(s) && !IsCorrect(s) && s.answer != []
    requires s.index + 1 < |s.queue|
    ensures var (c, timer) := Check(s);
      && timer.RevertAfterWrong?
      && var k := Skip(c, now, rand);
      && var r := RevertAsWritten(k, timer.tiles);
      && r.pool == k.pool + s.answer
      && s.answer[0] in r.pool && s.answer[0].id.word != k.serial
  {
    var (c, timer) := Check(s);
    assert c.answer == s.answer && c.serial == s.serial && c.queue == s.queue;
    assert c.index == s.index && c.startTime == s.startTime;
    assert timer == RevertAfterWrong(s.serial, s.answer);
    var k := Skip(c, now, rand);
    assert k.answer == [] && k.serial == s.serial + 1;
    assert forall i :: 0 <= i < |k.pool| ==> k.pool[i].id.word == k.serial;
    AnswerIsStale(s, k);
    ReturnStale(k, s.answer);
    var r := RevertAsWritten(k, s.answer);
    assert r.pool == k.pool + s.answer;
    assert r.pool[|k.pool|] == s.answer[0];
    assert s.answer[0] in r.pool && s.answer[0].id.word == s.serial;
  }

  /** The answer tiles of a well-formed trainer are distinct and foreign to a later word with an empty answer. */
  lemma AnswerIsStale(s: Trainer, k: Trainer)
    requires WellFormed(s) && k.answer == [] && k.serial != s.serial
    requires forall i :: 0 <= i < |k.pool| ==> k.pool[i].id.word == k.serial
    ensures forall t :: t in s.answer ==> t.id !in AllIds(k) && t.id.word == s.serial
    ensures Distinct(Ids(s.answer))
  {
    IdsAppend(s.pool, s.answer);
    UniqueIsDistinct(AllIds(s));
    assert Ids(s.answer) == AllIds(s)[|s.pool|..];
    assert AllIds(k) == Ids(k.pool);
    forall t | t in s.answer ensures t.id !in AllIds(k) && t.id.word == s.serial {
      assert t.id in AllIds(s);
    }
  }

  /** Repaired: once another word is on screen, the stale callback changes nothing. */
  lemma StaleRevertIgnored(s: Trainer, now: int, rand: nat -> nat)
    requires s.word.Some? && !IsCorrect(s)
    requires s.index + 1 < |s.queue|
    ensures var (c, timer) := Check(s);
      && timer.RevertAfterWrong?
      && RevertFired(Skip(c, now, rand), timer.word, timer.tiles) == Skip(c, now, rand)
  {
  }

  /**
   * Finding, as written: a tile tapped into the answer during the 1000 ms
   * pause stays in the answer while the callback empties the selection, so
   * the next check judges a selection that omits it.
   */
  lemma RevertDropsTappedTileFromSelection(s: Trainer, id: TileId)
    requires s.word.Some? && WellFormed(s) && !IsCorrect(s)
    requires id in Ids(s.pool) && !TileOf(s, id).disabled
    ensures var (c, timer) := Check(s);
      && timer.RevertAfterWrong?
      && var r := RevertAsWritten(Tap(c, id), timer.tiles);
      && r.answer == [TileOf(s, id)] && r.selected == []
  {
    var (c, timer) := Check(s);
    CheckKeepsWellFormed(s);
    ZonesDisjoint(s, id);
    assert TileOf(c, id) == TileOf(s, id);
    var t := Tap(c, id);
    TapKeepsWellFormed(c, id);
    UniqueIsDistinct(AllIds(t));
    ReturnPrefix(t, s.answer, [TileOf(s, id)]);
  }

  /** Repaired: the same sequence leaves the tapped tile both in the answer and in the selection. */
  lemma RevertKeepsTappedTileSelected(s: Trainer, id: TileId)
    requires s.word.Some? && WellFormed(s) && !IsCorrect(s)
    requires id in Ids(s.pool) && !TileOf(s, id).disabled
    ensures var (c, timer) := Check(s);
      && timer.RevertAfterWrong?
      && var r := RevertFired(Tap(c, id), timer.word, timer.tiles);
      && r.answer == [TileOf(s, id)] && r.selected == [TileOf(s, id).text] && r.checkEnabled
      && WellFormed(r)
  {
    var (c, timer) := Check(s);
    CheckKeepsWellFormed(s);
    ZonesDisjoint(s, id);
    assert TileOf(c, id) == TileOf(s, id);
    var t := Tap(c, id);
    TapKeepsWellFormed(c, id);
    UniqueIsDistinct(AllIds(t));
    ReturnPrefix(t, s.answer, [TileOf(s, id)]);
    IdsAppend(t.pool, t.answer);
    forall x | x in timer.tiles ensures x.id in AllIds(t) {
      var k :| 0 <= k < |s.answer| && s.answer[k] == x;
      assert t.answer[k] == x;
      assert AllIds(t)[|t.pool| + k] == x.id;
    }
    RevertFiredKeepsWellFormed(t, timer.word, timer.tiles);
  }

  /** A fresh start on a known, non-empty level leaves a well-formed trainer whose attempts add up. */
  lemma StartGameWellFormed(s: Trainer, now: int, wordRand: nat -> nat, tileRand: nat -> nat)
    requires s.level.Some? && s.level.value != "" && WordsOf(s.levels, s.level.value).Some?
    requires WordsOf(s.levels, s.level.value).value != []
    ensures WellFormed(StartGame(s, now, wordRand, tileRand))
    ensures AttemptsAddUp(StartGame(s, now, wordRand, tileRand))
  {
    var words := WordsOf(s.levels, s.level.value).value;
    var reset := s.(index := 0, correctAnswers := 0, selected := [], startTime := now,
                    totalAttempts := 0, correctAttempts := 0, incorrectAttempts := 0);
    var shuffled := Shuffle.Shuffle(words, wordRand);
    var n := if |shuffled| < TotalWords then |shuffled| else TotalWords;
    var t := reset.(queue := shuffled[..n], screen := Game);
    assert StartGame(s, now, wordRand, tileRand) == LoadWord(t, now, tileRand);
    assert |shuffled| == |words| > 0;
    LoadWordTiles(t, now, tileRand);
  }

  /** With the fixed denominator of 20, accuracy is five percent per correct answer. */
  lemma AccuracyIsFivefold(s: Trainer, now: int)
    ensures ShowResults(s, now).summary.value.accuracy == 5 * s.correctAnswers
  {
    PercentOfTwenty(s.correctAnswers);
  }

  lemma PercentOfTwenty(c: nat)
    ensures Numeric.Percent(c, TotalWords) == 5 * c
  {
    assert 100 * c == TotalWords * (5 * c);
    Numeric.RoundHalfUpExact(5 * c, TotalWords);
  }

  /** The results' time reads back as the elapsed seconds, rounded, split into minutes and seconds. */
  lemma ResultsTimeReadsBack(s: Trainer, now: int)
    requires now >= s.startTime
    ensures var seconds := Numeric.RoundHalfUp(now - s.startTime, 1000);
      Text.ReadsAsClock(ShowResults(s, now).summary.value.timeSpent, seconds / 60, seconds % 60)
  {
    var seconds := Numeric.RoundHalfUp(now - s.startTime, 1000);
    assert seconds >= 0;
    TimeSpentReadsBack(seconds);
  }

  /** For whole seconds that are not negative, the text reads back as the minutes and the seconds past them. */
  lemma TimeSpentReadsBack(seconds: nat)
    ensures Text.ReadsAsClock(TimeSpentText(seconds), seconds / 60, seconds % 60)
  {
    assert Numeric.JsRem(seconds, 60) == seconds % 60;
    assert TimeSpentText(seconds) == Text.ClockText(seconds / 60, seconds % 60, 1);
    Text.ClockTextRoundTrip(seconds / 60, seconds % 60, 1);
  }

  /**
   * A clock that went back by more than half a second gives negative seconds:
   * the text starts with the minus of the minutes, and the seconds' remainder
   * keeps its minus too.
   */
  lemma ResultsTimeWhenClockWentBack(s: Trainer, now: int)
    requires now < s.startTime - 500
    ensures var t := ShowResults(s, now).summary.value.timeSpent;
      && Numeric.RoundHalfUp(now - s.startTime, 1000) < 0 && t[0] == '-'
  {
    var seconds := Numeric.RoundHalfUp(now - s.startTime, 1000);
    TimeSpentNegative(seconds);
  }

  /** Negative seconds give a text that starts with a minus, with the remainder's minus after the colon. */
  lemma TimeSpentNegative(seconds: int)
    requires seconds < 0
    ensures var t := TimeSpentText(seconds);
      && t[0] == '-'
      && t == Text.IntToString(seconds / 60) + ":" + Text.PadZeros(Text.IntToString(Numeric.JsRem(seconds, 60)), 2)
  {
    Text.ClockTextNegative(seconds / 60, Numeric.JsRem(seconds, 60), 1);
  }

  /** Five seconds back, the results read `-1:-5`. */
  lemma FiveSecondsBackReadsMinus(s: Trainer)
    ensures ShowResults(s, s.startTime - 5000).summary.value.timeSpent == "-1:-5"
  {
    assert Numeric.RoundHalfUp(-5000, 1000) == -5;
    FiveSecondsText();
  }

  lemma FiveSecondsText()
    ensures TimeSpentText(-5) == "-1:-5"
  {
    assert Numeric.JsRem(-5, 60) == -5 && -5 / 60 == -1;
    assert Text.IntToString(-1) == "-1" && Text.IntToString(-5) == "-5";
    assert Text.PadZeros("-1", 1) == "-1" && Text.PadZeros("-5", 2) == "-5";
  }
}

=== FILE: wrappers.dfy ===
/** Failure-compatible wrappers shared by every game model. */
module Wrappers {

  /** A value that may be absent: JavaScript's `null` / `undefined` in the games. */
  datatype Option<+T> = None | Some(value: T)

  /** The outcome of an operation that can fail with a reported error. */
  datatype Result<+T, +E> = Ok(value: T) | Err(error: E)
}
